=== FILE: README.md ===
# unidexter board core in Dafny

A model of the chess engine `unidexter-go`: its `board` package (0x88
board, FEN reading and writing, pseudo-legal move generation, attack
detection, make/undo, material evaluation, Zobrist keys, negamax and
alpha-beta search) and the `perft` and `divide` node counters.

The board is an immutable datatype: 128 cells holding piece codes
(`type | colour`, white being the flag 8), the side to move, the castling
rights as four bits `KQkq`, the en-passant square, the two king caches, the
move clocks and the undo history. Every operation that mutates a `*Board`
in Go is a function returning the new board. The searches and the node
counters thread the board through make and undo exactly as the Go loops
do, and they return the board they end with. Their contracts say that
this board is the one they were given.

Each operation is paired with something independent to compare it with:

- **Move generation.** `PseudoLegal.Pseudo` describes, piece by piece,
  which moves a position allows. `PseudoLegal.GeneratedExactlyPseudo`
  proves that the generator lists exactly those moves, and
  `Distinctness.GenerateMovesOnce` proves that it lists none twice.
- **Attacks.** `Attacks.Attacked` describes what attacks a square.
  `Attacks.IsAttackedExactly` proves that the engine's oracle agrees with
  it.
- **Make and undo.** `MakeUndo.MakeUndoRoundTrip` proves that undo
  reverses make, and `MoveLaws.MakeMovePreservesValid` proves that make
  keeps the board well formed.
- **FEN.** Reading a board's notation gives the board back
  (`Fen.FenRoundTrip`).
- **Search.** `Search.Value` is a reference negamax value, and each search
  is proved to compute it or its clamp to the alpha-beta window.
- **Node counts.** `Perft.Lines` lists the legal move sequences of a
  given length, each exactly once (`PerftLaws.LinesDistinct`), and
  `perft` counts them.

The modules follow the source:

| module | contents |
|---|---|
| `Pieces` | piece codes |
| `Squares` | square arithmetic, square names and `RayDirection` |
| `Bits` | the masks behind both |
| `Position` | the board |
| `Text` | splitting, joining and decimal conversion |
| `Fen` | FEN |
| `Attacks` | `IsAttacked`, `IsCheck` and `CastlingLegal` |
| `MoveGen` | the generator |
| `PseudoLegal` | the reference move description |
| `Distinctness` | no move generated twice |
| `Execute` | `MakeMove` and `UndoMove` |
| `MakeUndo` | the round trip |
| `MoveLaws` | well-formedness, castling and en-passant laws |
| `Legality` | `LegalMove` and move strings |
| `Evaluation` | `Evaluate` |
| `Zobrist` | keys |
| `Search` | negamax and alpha-beta |
| `SearchLaws` | the negamax value in terms of the legal moves |
| `Tally` | maps of counts |
| `Perft` | `perft` and `divide` |
| `PerftLaws` | no line counted twice |

## Model

| member | source | states |
|---|---|---|
| Pieces.PieceTypeIsMask | board/board.go:90-92 | the model's piece type equals Go's `p & 7` for every integer code, negative ones included |
| Pieces.ColourIsMask | board/board.go:94-96 | the model's colour equals Go's `p & WHITE` for every integer code |
| Pieces.OpponentColour | board/board.go:98-100 | the result is a colour flag and differs from the piece's own colour |
| Pieces.Code | board/board.go:11-24 | a code built from a colour and a type below 8 has exactly that type and that colour |
| Pieces.PieceFromNotation | board/board.go:102-122 | every character reads as a code between 0 and 14, and the code carries the white flag exactly when the character is not a lower-case letter |
| Pieces.PieceNotationRoundTrip | board/board.go:102-146 | the letter of every valid non-empty piece code is one of `pnbrqkPNBRQK` and reads back as that code |
| Pieces.PieceLetterRoundTrip | board/board.go:102-146 | each of the twelve piece letters reads as a valid non-empty code whose letter is the same letter |
| Position.OnBoardIsLegal | board/board.go:572-574 | a square is on the board exactly when `LegalSquareIndex` accepts it and it lies inside the 128-cell array |
| Squares.LegalSquareIndexIsMask | board/board.go:572-574 | the model's legality test equals Go's `i >= 0 && i & 0x88 == 0` for every integer |
| Squares.FileIsMask | board/board.go:745-747 | the file equals `sq & 0x0F` for every integer |
| Squares.RankBaseIsMask | board/board.go:716-722 | the rank base equals `sq & 0xF0` for every integer |
| Squares.SquareAtIsShiftOr | board/evaluate.go:17-19 | the square of a rank and a file below 8 is the byte `rank << 4` or-ed with `file` |
| Squares.NotationOfSquare | board/board.go:741-747 | the name of every on-board square is one of `a1`..`h8`, and it reads back as the square |
| Squares.SquareOfNotation | board/board.go:741-747 | every name `a1`..`h8` reads as the on-board square of that rank and file, whose name is the same text |
| Squares.RayDirectionReaches | board/board.go:711-739 | as written: for distinct on-board squares a non-zero direction reaches the target in 1 to 7 steps, and the result is 0 exactly when the squares share no rank, no file and no diagonal of slope +1 |
| Squares.AntiDiagonalHasNoDirection | board/board.go:726 | as written: h1 to a8 gets direction 0 although the squares share a diagonal, while a1 to h8 gets NE |
| Squares.RayDirectionIntendedReaches | board/board.go:711-739 | corrected: the result is 0 exactly when the squares share no rank, file or diagonal of either slope, and a non-zero direction reaches the target |
| Squares.RayDirectionAsIntended | board/board.go:726 | the two versions agree on every pair except distinct-file pairs on a slope -1 diagonal, where the written one gives 0 and the corrected one does not |
| Attacks.OffsetHolds | board/board.go:628-634 | the knight (and pawn) loop answers true exactly when some offset leads back from the square to an on-board cell holding the attacker's code |
| Attacks.AnyRayHitsExactly | board/board.go:636-670 | the ray loops find an attacker exactly when, along some direction, the first occupied on-board square holds one of the two attacking codes |
| Attacks.IsAttackedExactly | board/board.go:616-695 | `IsAttacked` equals the reference `Attacked`: a knight, the first piece along a diagonal (bishop or queen) or a line (rook or queen), a pawn attacking diagonally, or the attacker's cached king one step away |
| Attacks.PathEmpty | board/board.go:595-599 | the emptiness loop between king and rook answers true exactly when every cell strictly between them is empty |
| Attacks.CastlingLegal | board/board.go:576-614 | castling is allowed exactly when the right is held, the cells between king and rook are empty, the king is not in check, and neither the crossed nor the landing square is attacked by the opponent |
| MoveGen.GenerateSingleMoves | board/board.go:315-326 | the moves are exactly the unpromoted moves from the square by one of the offsets to an on-board cell that is empty or holds an opposing piece |
| MoveGen.GenerateSlides | board/board.go:328-344 | the moves are exactly the unpromoted moves to an on-board cell that is empty or opposing, reached along one of the directions through empty cells only |
| MoveGen.GeneratePawnSlides | board/board.go:392-407 | the one-step push is listed exactly when its cell is empty, the two-step push exactly when both cells are empty, and nothing else is listed |
| MoveGen.PawnCaptures | board/board.go:358-374 | the captures are exactly the unpromoted moves by a capture offset onto the en-passant square or onto an opposing piece |
| MoveGen.PromotionsLayout | board/board.go:376-387 | entry `p * n + k` of the promotion list is the `k`-th plain move promoted to the own colour's queen, rook, bishop, knight for `p` = 0, 1, 2, 3 |
| MoveGen.ValidIsGenerable | board/board.go:578-600 | on a well-formed board the castling tests never index outside the array |
| MoveGen.GenerateMoves | board/board.go:259-273 | every listed move is one of the moves of a piece of the side to move, and every move of such a piece is listed |
| PseudoLegal.KingCastleExactly | board/board.go:292-308 | a king move two files sideways is generated exactly when the right is held and `CastlingLegal` allows it |
| PseudoLegal.PushesExactly | board/board.go:346-356 | pushes are exactly one step forward onto an empty cell, or two from the home rank through two empty cells, with forward chosen by the side to move |
| PseudoLegal.CapturesExactly | board/board.go:358-374 | pawn captures are exactly the diagonal-forward moves onto the en-passant square or an opposing piece |
| PseudoLegal.PromotionsExactly | board/board.go:376-387 | a move is in the promotion list exactly when its plain form is a pawn move and its promotion is the own colour's queen, rook, bishop or knight |
| PseudoLegal.PawnMovesExactly | board/board.go:346-390 | a pawn's moves are exactly the pushes and captures of the reference description, promoted four ways from the seventh (second) rank |
| PseudoLegal.PieceMovesExactly | board/board.go:275-313 | on a well-formed board the moves of a piece of the side to move are exactly those `PieceMove` describes for its type |
| PseudoLegal.GeneratedExactlyPseudo | board/board.go:259-407 | on a well-formed board a move is generated exactly when the reference `Pseudo` allows it |
| Distinctness.SlidesOnce | board/board.go:328-344 | no slide is listed twice |
| Distinctness.PromotionsOnce | board/board.go:376-387 | the four-way promotion of a list without repeats has no repeats |
| Distinctness.KingMovesOnce | board/board.go:292-308 | no king move is listed twice, castling moves included |
| Distinctness.GenerateMovesOnce | board/board.go:259-407 | the generator lists no move twice |
| Execute.EpVictim | board/board.go:443-446 | the pawn taken en passant stands on the mover's rank and the target's file |
| Execute.MakeMove | board/board.go:427-520 | the side flips, the clocks stay, one undo record holding the old castling rights and en-passant square is pushed, no castling right is gained, `from` is emptied, and `to` holds the mover or the promotion code |
| Execute.UndoMove | board/board.go:522-564 | the last record is popped, the side flips back, and the en-passant square, half-move clock and castling rights are those the record holds |
| MoveLaws.MadeSimple | board/board.go:511-518 | a move that is neither a king move nor an en-passant capture writes the mover or the promotion on `to`, empties `from`, and changes nothing else on the board or in the king caches |
| MoveLaws.MadeEp | board/board.go:442-446 | an en-passant capture also empties the taken pawn's cell |
| MakeUndo.MadeKing | board/board.go:451-469 | a king move records its undo, moves the rook beside the king when castling, and updates only its own colour's cache |
| MoveLaws.EpAfterMove | board/board.go:438-450 | after a move the en-passant square is the midpoint of a two-rank pawn move and -1 after any other move |
| MoveLaws.KingRights | board/board.go:451-458 | a king move clears exactly its own colour's two rights |
| MoveLaws.RookRights | board/board.go:470-486 | a rook of the side to move leaving its corner clears exactly that corner's right |
| MoveLaws.CapturedRights | board/board.go:488-503 | a move onto an opposing corner clears that corner's right when the taken code passes the `& ROOK == ROOK` test, which is also true of queens and kings |
| MoveLaws.CastlingAfterMove | board/board.go:438-507 | each right after a move is held exactly when it was held before and the move did not lose it |
| MoveLaws.MakeMovePreservesValid | board/board.go:427-520 | a pseudo-legal move keeps a well-formed board well formed |
| MakeUndo.MakeUndoRoundTrip | board/board.go:427-564 | on a well-formed board, undoing a pseudo-legal move gives back exactly the board it was made on |
| Legality.LegalMove | board/board.go:409-418 | a move is legal exactly when, after it, the mover's king is not attacked in the sense of `Attacked`, and the board returned is the one undo gives |
| Legality.LegalMoveRestores | board/board.go:412-418 | for a pseudo-legal move on a well-formed board, the legality test leaves the board as it found it |
| Legality.TryMove | board/board.go:409-418 | the legality trial of a pseudo-legal move on a well-formed board answers whether the move is legal and hands back the board unchanged |
| Legality.MoveStringRoundTrip | board/board.go:84-86 | reading back the four-character name of an on-board move gives the move without its promotion |
| Legality.MakeMoveFromNotationPlays | board/board.go:566-570 | playing the name of an unpromoted on-board move is playing the move |
| Legality.MoveName | perft/perft.go:99 | corrected key: the first four characters are the move string, and a fifth, the promotion letter, is there exactly when the move promotes |
| Legality.MoveNameDistinct | perft/perft.go:99 | corrected naming: two pseudo-legal moves of one position with the same name that carries the promotion letter are the same move |
| Text.SplitJoin | board/board.go:150-151 | splitting a join of separator-free parts at the separator gives the parts |
| Text.JoinSplit | board/board.go:150-151 | joining the parts of any split at the separator gives the text back |
| Text.AtoiItoa | board/board.go:192-206 | the decimal text of every 64-bit integer reads back as that integer |
| Fen.FromFEN | board/board.go:148-209 | no result with fewer than four fields; otherwise an empty history, white to move exactly when the side field is `w`, clocks 0 and 1 when absent, and a present but unreadable full-move field read as 0 |
| Fen.CastlingTextRoundTrip | board/board.go:173-184 | the castling letters written for any rights, with or without the `-`, read back as those rights |
| Fen.EpRoundTrip | board/board.go:186-190 | the en-passant field is `-` exactly for -1, and it reads back as the square |
| Fen.PlacementRoundTrip | board/board.go:152-169 | reading back the placement text of a board with one king of each colour on its cache gives its cells and both king caches |
| Fen.ValidPrintable | board/board.go:148-257 | every well-formed board whose kings stand on their caches and whose clocks fit 64 bits meets the conditions of the round trip |
| Fen.FenRoundTrip | board/board.go:148-257 | for every board with one king of each colour on its cache, an en-passant square that is -1 or above a1 and 64-bit clocks, whatever its castling rights, the corrected notation reads back as the board without its history, and writing that board gives the same text |
| Fen.LoneKingsRoundTrip | board/board.go:148-257 | the bare-kings board with white's king-side right and no rook is not well formed, yet its notation reads back as it |
| Fen.ToFENReadsBack | board/board.go:211-257 | the engine's own notation, with its empty castling field, also reads back as the board |
| Fen.ToFENDropsDash | board/board.go:242-246 | as written: with no castling rights the engine writes an empty castling field where the corrected text has `-`, so writing the board read from the corrected text does not give that text back |
| Evaluation.PieceValue | board/evaluate.go:5-12 | values lie in 0..875 and are zero exactly for types other than pawn, knight, bishop, rook and queen |
| Evaluation.Scan | board/evaluate.go:17-37 | the rank-and-file loop adds the white-minus-black worth of the squares it has left, and never takes its illegal-square exit |
| Evaluation.Evaluate | board/evaluate.go:15-44 | the score is the material balance over the 64 board squares, negated when black is to move |
| Evaluation.EvaluateFlip | board/evaluate.go:14-44 | handing the move to the other side negates the score |
| Evaluation.EvaluateBound | board/evaluate.go:5-37 | every score lies within 64 queens' worth either way |
| Zobrist.InitZobristKeys | board/hash.go:16-34 | the side, castling and en-passant keys are draws 768, 769..772 and 773..780 of the stream |
| Zobrist.AsWrittenTable | board/hash.go:18-26 | as written: the slot of codes 1..6 on a board square holds the second draw of its pair, and every other slot, white pieces included, is 0 |
| Zobrist.WhitePieceIgnored | board/hash.go:24 | as written: placing a white piece on an empty square leaves the key unchanged |
| Zobrist.InitZobristKeysIntended | board/hash.go:16-34 | corrected: the side, castling and en-passant keys are the same draws as in the written version |
| Zobrist.IntendedTable | board/hash.go:18-26 | corrected: every piece code on every board square gets its own draw, and the empty code 0 gets 0 |
| Zobrist.IntendedDrawsDistinct | board/hash.go:18-26 | corrected: no two piece-and-square slots share a draw |
| Zobrist.PiecePlacedChangesKey | board/hash.go:24 | corrected: placing any piece on an empty square XORs exactly that piece's draw into the key |
| Zobrist.SquaresHash | board/hash.go:38-43 | the rank-and-file loop XORs the keys of the 64 cells |
| Zobrist.CastlingHash | board/hash.go:47-51 | the loop XORs the key of each castling right held |
| Zobrist.CalculateZobristHash | board/hash.go:36-55 | the loops compute the key: the cells' keys, the side key when white is to move, the held rights' keys, and the file key when the en-passant square is above a1 |
| Zobrist.KeyAfterWrite | board/hash.go:38-43 | rewriting one board cell XORs exactly the old and new contents' keys for that cell into the key |
| Zobrist.KeySideToggle | board/hash.go:44-46 | boards differing only in the side to move have keys differing by exactly the side key |
| Zobrist.KeyCastlingToggle | board/hash.go:47-51 | toggling castling bit `i` XORs exactly the `i`-th castling key into the key |
| Zobrist.CastlingKeyToggle | board/hash.go:47-51 | toggling castling bit `i` changes the loop's partial key over the first `n` bits by the `i`-th castling key exactly when `i < n` |
| Zobrist.KeyEpChange | board/hash.go:52-54 | changing the en-passant square XORs exactly the old and new file keys into the key |
| Zobrist.WhiteDoublePushKey | board/hash.go:44-54 | as written, a white pawn's two-rank push from a board without an en-passant square changes the key by exactly the side key and the file's en-passant key |
| Zobrist.DoublePushKey | board/hash.go:38-54 | for any key table, a pawn's two-rank push onto an empty cell changes the key by the old and new cell keys of both squares, the side key and the change of en-passant key |
| Zobrist.KeyRestoredByUndo | board/hash.go:36-55 | making and undoing a pseudo-legal move on a well-formed board leaves the key unchanged |
| SearchLaws.ValueIsBest | board/search.go:13-30 | the reference value is at least every legal move's negated child value, is reached by one of them, and is -10000000 when there is no legal move |
| Search.NegamaxInternal | board/search.go:9-31 | the plain search leaves the board as it found it and returns the reference value, the static evaluation at depth 0 |
| Search.NegamaxLoop | board/search.go:13-30 | from any move on, the plain loop leaves the board as it found it and returns the larger of the maximum so far and the best negated child value of the remaining legal moves |
| Search.NegamaxMove | board/search.go:20-26 | a legal move is made, searched and taken back; the maximum becomes the larger of itself, the move's negated child value and the rest of the loop |
| Search.AlphaBetaInternal | board/search.go:77-101 | the fail-hard search leaves the board unchanged, returns the static evaluation at depth 0, and above it, for any window inside the sentinels, returns the reference value clamped to that window |
| Search.AlphaBetaLoop | board/search.go:81-100 | from any move on, the loop returns the best remaining child clamped to the window, returning `beta` at once on a cutoff |
| Search.RootLoopChoosesFirstBest | board/search.go:37-52 | when the root loop improves on its starting score, it keeps the first legal move that reaches the greatest score; earlier legal moves score strictly less |
| Search.RootSearchSound | board/search.go:33-145 | the root returns the zero move exactly when no generated move is legal, and otherwise a legal pseudo-legal move |
| Search.RootSearchPicksBest | board/search.go:37-52 | when some legal move scores above the sentinel, the root returns the first generated move with the greatest score |
| Search.RootSearchFallsBack | board/search.go:54-74 | when legal moves exist but all score at the sentinel, the root returns the first move with the best static evaluation |
| Search.Negamax | board/search.go:33-75 | the result leaves the board unchanged and is the zero move exactly when there is no legal move, a legal move otherwise |
| Search.NegamaxAlphaBeta | board/search.go:103-145 | the same for the alpha-beta root |
| Search.WindowedIsClamped | board/search.go:114 | above depth 1 the alpha-beta root's score for a move is the plain score clamped to [-10000, 10000] |
| Search.AlphaBetaAgrees | board/search.go:33-145 | when every legal root score lies within the window, both roots choose the same move |
| Perft.LinesAreLegalLines | perft/perft.go:63-81 | the lines of a depth are exactly the move sequences of that length in which each move is pseudo-legal and legal in turn |
| Perft.Perft | perft/perft.go:63-81 | the count leaves the board unchanged and is the length of `Lines`, the list of legal lines of that depth, 1 at depth 0 |
| PerftLaws.LinesDistinct | perft/perft.go:63-81 | no legal line is listed twice, because the generator lists each move once and lines through different first moves differ |
| PerftLaws.PerftCountsLines | perft/perft.go:63-81 | the count is the number of different legal lines of that depth |
| Perft.LegalCount | perft/perft.go:63-81 | perft at depth 1 counts the legal moves |
| Perft.Divide | perft/perft.go:83-103 | divide leaves the board unchanged and is empty at depth 0 |
| Perft.DivideKeyFrom | perft/perft.go:83-103 | every key names a legal move |
| Perft.DivideHasMove | perft/perft.go:83-103 | every legal move's name is a key |
| Perft.DivideValue | perft/perft.go:83-103 | a legal move whose name no other legal move shares maps to the perft of its child position |
| Perft.DivideTotal | perft/perft.go:51-103 | for any naming under which no two legal moves share a name, the counts add up to perft (the total `Divide.String` prints) and there is one key per legal move |
| Perft.DivideMergesPromotions | perft/perft.go:99 | as written: two legal moves that differ only in promotion share a key, so divide has fewer keys than there are legal moves |
| Perft.DivideIntendedTotal | perft/perft.go:51-103 | corrected: with the promotion letter in the key, divide's total is perft and its move count is the number of legal moves |

## Left out

- Board printing (`Board.String`), `unidexter.go` (the protocol loop) and the `main`, `mainBim` and `GetPerftsuite` functions of `perft/perft.go` are not part of this model: they only read files, time runs and print.
- The `Printf` calls in the searches (search.go:42, 112) and in the evaluator (evaluate.go:21) are left out. The evaluator's call sits on a branch that is proved unreachable.
- Zobrist.InitZobristKeys: the `math/rand` stream seeded with 27092014 (hash.go:17) is a parameter, a sequence of at least 781 words. Nothing is claimed about its values or about collisions.
- Zobrist.CalculateZobristHash: returns the key instead of storing it, because the `zobristKey` field it writes (hash.go:37) is not declared in `Board`.
- Zobrist.CalculateZobristHash requires every board cell's code to be below 15, the size of the key table; Go would index out of range on code 15.
- Execute.UndoMove requires a non-empty history (`UndoDefined`). On an empty one Go panics slicing it (board.go:525).
- Execute.MakeMove requires `MakeMoveDefined`: the cells it reads and writes lie inside the array. Go would panic otherwise.
- Search.Negamax, Search.NegamaxAlphaBeta and Search.RootSearch require `depth > 0`. At depth 0 Go calls `negamaxInternal` with depth -1 (search.go:44, 114). That call never meets the `depth == 0` test (search.go:10) and recurses without bound. The only call of a root search, to NegamaxAlphaBeta, passes 5 (unidexter.go:86); Negamax has no caller.
- Search.NegamaxInternal, Search.AlphaBetaInternal, Perft.Perft, Perft.Divide and the other searches and counters require a well-formed board (`Valid`). That is the invariant under which make/undo restores the board; Go runs on any board and may panic.
- Search.AlphaBetaInternal states its result only for windows inside the sentinels, `-10000000 <= alpha < beta <= 10000000`. Those are the only windows the engine passes.
- Attacks.CastlingLegal and MoveGen.GenerateMoves (through `Generable`) require the king caches to lie inside the 128-cell array, as Go's indexing does, and a king holding a queen-side right to stand on file d or later. Go indexes `squares[i-1]` to `squares[i-3]` and panics below (board.go:595-600). Every well-formed board meets this (`MoveGen.ValidIsGenerable`).
- Attacks.IsAttacked requires `0 <= square < 128`. Every caller passes a board square.
- Fen.FromFEN: its `None` result stands for Go's panics: fewer than four fields, a piece letter written outside the array, or a one-character en-passant field.
- Fen.FenRoundTrip requires one king of each colour on its cache, and an en-passant square that is -1 or above a1. A board without a king reads back with that king's cache at 0, and an en-passant square a1 is written as `-`.
- Squares.NotationToSquareIndex reads characters where Go reads the bytes of the UTF-8 encoding (board.go:742). The two agree on ASCII names.
- Pieces.PieceFromNotation: the case mapping is ASCII only. Go's `unicode.ToLower` and `ToUpper` also map letters outside ASCII: `é` reads as 0 in Go but 8 here, and KELVIN SIGN reads as 14 in Go but 8 here.
- FEN text is a sequence of characters, with no UTF-8 decoding.
- Integers are unbounded. Go's `int` is 64 bits, but no computation of the core comes near that width. The clock fields are read only within 64 bits (`Text.Atoi`).
- MoveGen.GeneratePawnMoves' own contract says only that every move starts on the pawn's square. The full description of its moves is `PseudoLegal.PawnMovesExactly`.
- MoveGen.GeneratePieceMoves' own contract says only that every move starts on the piece's square. The full description is `PseudoLegal.PieceMovesExactly`.
- Legality.MoveString's own contract gives only the length 4. Its meaning is `Legality.MoveStringRoundTrip`.
- `Divide.String` (perft.go:51-61) is modelled only as the number of keys and the sum of the counts. The text it prints is not modelled.
- No concrete perft count is stated, not even the 20 moves of the initial position, because evaluating the generator on a concrete board is beyond what the verifier does quickly.

## Findings

| source | as written | input that shows it | evidently intended | confidence | as-written member | corrected member |
|---|---|---|---|---|---|---|
| board/board.go:242-246 | with no castling right held, nothing is written between the side and en-passant fields | the bare-kings board `4k3/8/8/8/8/8/8/4K3 w - - 0 1` is written as `4k3/8/8/8/8/8/8/4K3 w  - 0 1` | a `-` castling field, as FEN requires | not executed | Fen.ToFENDropsDash | Fen.FenRoundTrip |
| board/board.go:726-737 | `xdiff^2 == ydiff^2` is XOR in Go and holds only when `xdiff == ydiff`, so only slope +1 diagonals get a direction; the file difference `xdiff` then picks S or N and the rank difference `ydiff` picks W or E, the reverse of the geometry, which gives the right NE and SW only because the two differences are equal there | h1 and a8 (0x07, 0x70) give 0 | both diagonals give their direction, as the doc comment says, with the rank difference picking N or S and the file difference E or W; the corrected member fixes both the test and the swap | not executed | Squares.AntiDiagonalHasNoDirection | Squares.RayDirectionIntendedReaches |
| board/hash.go:24 | or-ing BLACK into `piece` leaves it unchanged because BLACK is 0, so the second draw overwrites the black slot and the white slots 9..14 stay 0 | a white pawn placed on an empty square leaves the key unchanged | or-ing WHITE instead, giving white pieces their own keys | not executed | Zobrist.WhitePieceIgnored | Zobrist.PiecePlacedChangesKey |
| perft/perft.go:99 | divide keys each move by `Move.String`, which drops the promotion (board.go:84-86), so the four promotions of one pawn move overwrite each other | `4k3/P7/8/8/8/8/8/4K3 w - - 0 1` at depth 1 has nine legal moves but six keys | one key per legal move, the promotion letter included | not executed | Perft.DivideMergesPromotions | Perft.DivideIntendedTotal |

=== FILE: attacks.dfy ===
/** The attack oracle: is a square attacked by a colour, is a colour in
    check, and may the side to move castle now. */
module Attacks {
  import opened Pieces
  import opened Squares
  import opened Position

  /** Some offset `o` of `offsets` has `square - o` on the board holding
      `code`. */
  function OffsetHolds(b: Board, square: int, offsets: seq<int>, code: int): (r: bool)
    requires 0 <= square < 128
    requires forall k | 0 <= k < |offsets| :: -40 <= offsets[k] <= 40
    ensures r <==> exists k | 0 <= k < |offsets| ::
      LegalSquareIndex(square - offsets[k]) && square - offsets[k] < 128
      && b.squares[square - offsets[k]] == code
  {
    if |offsets| == 0 then false
    else
      var t := square - offsets[0];
      (LegalSquareIndex(t) && b.squares[t] == code)
      || OffsetHolds(b, square, offsets[1..], code)
  }

  /** The first occupied square met when stepping from `square` against
      `dir`, starting at step `i` (cell `t`), is one of the two codes. */
  function RayHits(b: Board, square: int, dir: int, i: int, t: int, code1: int, code2: int): (r: bool)
    requires 1 <= i && t == square - i * dir
    requires -17 <= dir <= 17 && dir != 0
    requires -128 <= t < 256
    decreases 8 - i
  {
    if i >= 8 || !LegalSquareIndex(t) then false
    else if b.squares[t] != EMPTY then b.squares[t] == code1 || b.squares[t] == code2
    else RayHits(b, square, dir, i + 1, t - dir, code1, code2)
  }

  function AnyRayHits(b: Board, square: int, dirs: seq<int>, code1: int, code2: int): bool
    requires 0 <= square < 128
    requires forall k | 0 <= k < |dirs| :: -17 <= dirs[k] <= 17 && dirs[k] != 0
  {
    if |dirs| == 0 then false
    else RayHits(b, square, dirs[0], 1, square - dirs[0], code1, code2)
         || AnyRayHits(b, square, dirs[1..], code1, code2)
  }

  /** Whether `square` is attacked by `colour`: a knight a knight's move
      away; the first piece on a diagonal being a bishop or queen, or on a
      line a rook or queen; a pawn of that colour one diagonal step behind;
      or the colour's cached king square being adjacent.  Only the
      en-passant square counts for an en-passant attack. */
  function IsAttacked(b: Board, square: int, colour: int): bool
    requires 0 <= square < 128
    requires colour == WHITE || colour == BLACK
  {
    var pawnAttacks := if colour == WHITE then N_DIAGONALS else S_DIAGONALS;
    || OffsetHolds(b, square, KNIGHT_MOVES, colour + KNIGHT)
    || AnyRayHits(b, square, DIAGONALS, colour + BISHOP, colour + QUEEN)
    || AnyRayHits(b, square, LINES, colour + ROOK, colour + QUEEN)
    || OffsetHolds(b, square, pawnAttacks, colour + PAWN)
    || (square - KingSquare(b, colour)) in DIAGONALS_AND_LINES
  }

  /** The opponent's king attacks the cached square of `colour`'s king. */
  function IsCheck(b: Board, colour: int): bool
    requires colour == WHITE || colour == BLACK
    requires 0 <= KingSquare(b, colour) < 128
  {
    if colour == WHITE then IsAttacked(b, b.whiteKing, BLACK)
    else IsAttacked(b, b.blackKing, WHITE)
  }

  /** The squares strictly between `sq` and `rook`, stepping by `dir`, are
      empty. */
  function PathEmpty(b: Board, sq: int, rook: int, dir: int): (r: bool)
    requires dir == E || dir == W
    requires dir == E ==> 0 <= sq <= rook <= 128
    requires dir == W ==> -1 <= rook <= sq < 128
    decreases if dir == E then rook - sq else sq - rook
    ensures r <==> forall k | (if dir == E then sq <= k < rook else rook < k <= sq) ::
      b.squares[k] == EMPTY
  {
    if sq == rook then true
    else if b.squares[sq] != EMPTY then false
    else PathEmpty(b, sq + dir, rook, dir)
  }

  /** The side to move holds the castling right in direction `dir`. */
  predicate RightToCastle(b: Board, dir: int)
  {
    if dir == W then HasRight(b, if b.whiteToMove then WHITE_QUEENSIDE else BLACK_QUEENSIDE)
    else if dir == E then HasRight(b, if b.whiteToMove then WHITE_KINGSIDE else BLACK_KINGSIDE)
    else false
  }

  /** Castling from `i` towards `direction` is allowed: the right is held, the
      squares up to the rook are empty, the king is not in check, and the
      two squares the king crosses and lands on are not attacked. */
  function CastlingLegal(b: Board, i: int, direction: int): (r: bool)
    requires 0 <= i < 128
    requires 0 <= b.whiteKing < 128 && 0 <= b.blackKing < 128
    requires direction == W && RightToCastle(b, W) ==> i >= 3
    requires direction == E && RightToCastle(b, E) ==> i + 2 < 128
    ensures r <==>
      && RightToCastle(b, direction)
      && (direction == E ==> b.squares[i + 1] == EMPTY && b.squares[i + 2] == EMPTY)
      && (direction == W ==>
            b.squares[i - 1] == EMPTY && b.squares[i - 2] == EMPTY && b.squares[i - 3] == EMPTY)
      && !IsCheck(b, Colour(b.squares[i]))
      && !IsAttacked(b, i + direction, OpponentColour(b.squares[i]))
      && !IsAttacked(b, i + 2 * direction, OpponentColour(b.squares[i]))
  {
    if !RightToCastle(b, direction) then false
    else
      var rookPosition := if direction == W then i - 4 else i + 3;
      var empty := PathEmpty(b, i + direction, rookPosition, direction);
      assert direction == E ==> (empty <==> b.squares[i + 1] == EMPTY && b.squares[i + 2] == EMPTY);
      assert direction == W ==> (empty <==>
        b.squares[i - 1] == EMPTY && b.squares[i - 2] == EMPTY && b.squares[i - 3] == EMPTY);
      if !empty then false
      else if IsCheck(b, Colour(b.squares[i])) then false
      else
        var colour := OpponentColour(b.squares[i]);
        if IsAttacked(b, i + direction, colour) then false
        else if IsAttacked(b, i + direction + direction, colour) then false
        else true
  }

  /** The cell `j` steps from `square` against `dir`. */
  function Behind(square: int, dir: int, j: int): int
  {
    square - j * dir
  }

  /** The cells from step `i` up to, not including, step `k` are board
      squares and empty. */
  predicate ClearSteps(b: Board, square: int, dir: int, i: int, k: int)
  {
    forall j | i <= j < k :: OnBoard(Behind(square, dir, j)) && b.squares[Behind(square, dir, j)] == EMPTY
  }

  /** Some step `k` from `i` on, below 8, reaches a board square holding one
      of the two codes over empty squares only. */
  predicate RayAttack(b: Board, square: int, dir: int, i: int, code1: int, code2: int)
  {
    exists k | i <= k < 8 ::
      && ClearSteps(b, square, dir, i, k) && OnBoard(Behind(square, dir, k))
      && (b.squares[Behind(square, dir, k)] == code1 || b.squares[Behind(square, dir, k)] == code2)
  }

  /** A ray attack from step `i` is either at step `i`, or past an empty
      board square at step `i`. */
  lemma RayAttackStep(b: Board, square: int, dir: int, i: int, code1: int, code2: int)
    requires code1 != EMPTY && code2 != EMPTY
    ensures RayAttack(b, square, dir, i, code1, code2) <==>
      && i < 8 && OnBoard(Behind(square, dir, i))
      && (|| b.squares[Behind(square, dir, i)] == code1
          || b.squares[Behind(square, dir, i)] == code2
          || (b.squares[Behind(square, dir, i)] == EMPTY && RayAttack(b, square, dir, i + 1, code1, code2)))
  {
    if RayAttack(b, square, dir, i, code1, code2) {
      var k :| i <= k < 8 && ClearSteps(b, square, dir, i, k) && OnBoard(Behind(square, dir, k))
        && (b.squares[Behind(square, dir, k)] == code1 || b.squares[Behind(square, dir, k)] == code2);
      if k > i {
        assert ClearSteps(b, square, dir, i + 1, k);
      }
    }
    if i < 8 && OnBoard(Behind(square, dir, i)) {
      var t := Behind(square, dir, i);
      if b.squares[t] == code1 || b.squares[t] == code2 {
        assert ClearSteps(b, square, dir, i, i);
      } else if b.squares[t] == EMPTY && RayAttack(b, square, dir, i + 1, code1, code2) {
        var k :| i + 1 <= k < 8 && ClearSteps(b, square, dir, i + 1, k) && OnBoard(Behind(square, dir, k))
          && (b.squares[Behind(square, dir, k)] == code1 || b.squares[Behind(square, dir, k)] == code2);
        assert ClearSteps(b, square, dir, i, k);
      }
    }
  }

  /** The ray walk finds exactly the attacks the reference admits. */
  lemma {:induction false} RayHitsExactly(b: Board, square: int, dir: int, i: int, code1: int, code2: int)
    requires 1 <= i && 0 <= square < 128
    requires -17 <= dir <= 17 && dir != 0
    requires -128 <= Behind(square, dir, i) < 256
    requires code1 != EMPTY && code2 != EMPTY
    decreases 8 - i
    ensures RayHits(b, square, dir, i, Behind(square, dir, i), code1, code2)
      <==> RayAttack(b, square, dir, i, code1, code2)
  {
    var t := Behind(square, dir, i);
    OnBoardIsLegal(t);
    RayAttackStep(b, square, dir, i, code1, code2);
    if i < 8 && LegalSquareIndex(t) && b.squares[t] == EMPTY {
      assert Behind(square, dir, i + 1) == t - dir;
      RayHitsExactly(b, square, dir, i + 1, code1, code2);
    }
  }

  /** Some direction of `dirs` has a ray attack. */
  predicate SliderAttack(b: Board, square: int, dirs: seq<int>, code1: int, code2: int)
  {
    exists k | 0 <= k < |dirs| :: RayAttack(b, square, dirs[k], 1, code1, code2)
  }

  lemma {:induction false} AnyRayHitsExactly(b: Board, square: int, dirs: seq<int>, code1: int, code2: int)
    requires 0 <= square < 128
    requires forall k | 0 <= k < |dirs| :: -17 <= dirs[k] <= 17 && dirs[k] != 0
    requires code1 != EMPTY && code2 != EMPTY
    ensures AnyRayHits(b, square, dirs, code1, code2) <==> SliderAttack(b, square, dirs, code1, code2)
  {
    if |dirs| > 0 {
      RayHitsExactly(b, square, dirs[0], 1, code1, code2);
      AnyRayHitsExactly(b, square, dirs[1..], code1, code2);
      if SliderAttack(b, square, dirs, code1, code2) {
        var k :| 0 <= k < |dirs| && RayAttack(b, square, dirs[k], 1, code1, code2);
        if k > 0 {
          assert dirs[1..][k - 1] == dirs[k];
        }
      }
      if SliderAttack(b, square, dirs[1..], code1, code2) {
        var k :| 0 <= k < |dirs[1..]| && RayAttack(b, square, dirs[1..][k], 1, code1, code2);
        assert dirs[1..][k] == dirs[k + 1];
      }
    }
  }

  /** Some offset of `offsets` leads back from `square` to a board square
      holding `code`. */
  predicate OffsetAttack(b: Board, square: int, offsets: seq<int>, code: int)
  {
    exists k | 0 <= k < |offsets| ::
      OnBoard(square - offsets[k]) && b.squares[square - offsets[k]] == code
  }

  lemma OffsetHoldsExactly(b: Board, square: int, offsets: seq<int>, code: int)
    requires 0 <= square < 128
    requires forall k | 0 <= k < |offsets| :: -40 <= offsets[k] <= 40
    ensures OffsetHolds(b, square, offsets, code) <==> OffsetAttack(b, square, offsets, code)
  {
    forall k | 0 <= k < |offsets|
      ensures LegalSquareIndex(square - offsets[k]) && square - offsets[k] < 128
        <==> OnBoard(square - offsets[k])
    {
      OnBoardIsLegal(square - offsets[k]);
    }
  }

  /** A reference description of an attack on `square` by `colour`: a
      knight a knight's move away, a bishop or queen first on a diagonal,
      a rook or queen first on a line, a pawn of the colour one diagonal
      step behind, or the colour's king cache one step away. */
  predicate Attacked(b: Board, square: int, colour: int)
    requires 0 <= square < 128
  {
    || OffsetAttack(b, square, KNIGHT_MOVES, colour + KNIGHT)
    || SliderAttack(b, square, DIAGONALS, colour + BISHOP, colour + QUEEN)
    || SliderAttack(b, square, LINES, colour + ROOK, colour + QUEEN)
    || OffsetAttack(b, square, if colour == WHITE then N_DIAGONALS else S_DIAGONALS, colour + PAWN)
    || (exists k | 0 <= k < 8 :: square - KingSquare(b, colour) == DIAGONALS_AND_LINES[k])
  }

  /** The attack oracle decides exactly the reference description. */
  lemma IsAttackedExactly(b: Board, square: int, colour: int)
    requires 0 <= square < 128
    requires colour == WHITE || colour == BLACK
    ensures IsAttacked(b, square, colour) <==> Attacked(b, square, colour)
  {
    AnyRayHitsExactly(b, square, DIAGONALS, colour + BISHOP, colour + QUEEN);
    AnyRayHitsExactly(b, square, LINES, colour + ROOK, colour + QUEEN);
    OffsetHoldsExactly(b, square, KNIGHT_MOVES, colour + KNIGHT);
    OffsetHoldsExactly(b, square, if colour == WHITE then N_DIAGONALS else S_DIAGONALS, colour + PAWN);
    assert (square - KingSquare(b, colour)) in DIAGONALS_AND_LINES <==>
      exists k | 0 <= k < 8 :: square - KingSquare(b, colour) == DIAGONALS_AND_LINES[k];
  }
}

=== FILE: bits.dfy ===
/** Go's bitwise operators on machine integers, stated on Dafny's unbounded
    `int`, together with the arithmetic forms the rest of the model uses.

    Go integers are two's complement, so the low eight bits of `x` are
    `x % 256` with Dafny's Euclidean `%` (never negative), also for negative
    `x`.  Every mask the engine uses fits in eight bits. */
module Bits {

  /** The byte whose value is `y`, counted up one step at a time so that
      proofs never convert an unbounded integer to a bit-vector. */
  function Byte(y: int): (b: bv8)
    requires 0 <= y < 256
    decreases y
  {
    if y == 0 then 0 else Byte(y - 1) + 1
  }

  /** Adding one to a byte below 255 adds one to its value. */
  lemma ByteStep(t: bv8)
    requires t as int < 255
    ensures (t + 1) as int == t as int + 1
  {}

  /** `Byte` is the inverse of reading a byte as a number. */
  lemma {:induction false} ByteValue(y: int)
    requires 0 <= y < 256
    ensures Byte(y) as int == y
  {
    if y > 0 {
      ByteValue(y - 1);
      ByteStep(Byte(y - 1));
    }
  }

  /** Go's `x & m` for a mask `m` below 256. */
  function And8(x: int, m: bv8): (r: int)
    ensures 0 <= r < 256
  {
    (Byte(x % 256) & m) as int
  }

  /** Go's `x ^ 2`: flips bit 1 and leaves every other bit alone. */
  function Xor2(x: int): int
  {
    if (x / 2) % 2 == 0 then x + 2 else x - 2
  }

  /** Euclidean division by the constants the proofs need: quotient and
      remainder are unique. */
  lemma Div16(x: int, q: int, r: int)
    requires x == 16 * q + r && 0 <= r < 16
    ensures x / 16 == q && x % 16 == r
  {}

  lemma Div8(x: int, q: int, r: int)
    requires x == 8 * q + r && 0 <= r < 8
    ensures x / 8 == q && x % 8 == r
  {}

  lemma Div2(x: int, q: int, r: int)
    requires x == 2 * q + r && 0 <= r < 2
    ensures x / 2 == q && x % 2 == r
  {}

  /** A byte is its high part and its low nibble, or its low three bits. */
  lemma ByteSplit16(b: bv8)
    ensures b as int == 16 * ((b / 16) as int) + (b % 16) as int
  {}

  lemma ByteSplit8(b: bv8)
    ensures b as int == 8 * ((b / 8) as int) + (b % 8) as int
  {}

  lemma ByteSplit2(b: bv8)
    ensures b as int == 2 * ((b / 2) as int) + (b % 2) as int
  {}

  /** Remainders computed on the byte agree with those on its value. */
  lemma BvMod16(b: bv8)
    ensures (b % 16) as int == (b as int) % 16
  {
    ByteSplit16(b);
    Div16(b as int, (b / 16) as int, (b % 16) as int);
  }

  lemma BvMod8(b: bv8)
    ensures (b % 8) as int == (b as int) % 8
  {
    ByteSplit8(b);
    Div8(b as int, (b / 8) as int, (b % 8) as int);
  }

  /** The low byte keeps the low nibble and the low three bits. */
  lemma LowByteMod16(x: int)
    ensures (x % 256) % 16 == x % 16
  {
    var q := x / 256;
    var y := x % 256;
    assert x == 256 * q + y;
    var h := y / 16;
    assert y == 16 * h + y % 16;
    Div16(x, 16 * q + h, y % 16);
  }

  lemma LowByteMod8(x: int)
    ensures (x % 256) % 8 == x % 8
  {
    var q := x / 256;
    var y := x % 256;
    assert x == 256 * q + y;
    var h := y / 8;
    assert y == 8 * h + y % 8;
    Div8(x, 32 * q + h, y % 8);
  }

  /** `x & 0x0F` is the file nibble `x % 16`. */
  lemma LowNibble(x: int)
    ensures And8(x, 0x0F) == x % 16
  {
    var b := Byte(x % 256);
    ByteValue(x % 256);
    assert (b & 0x0F) == b % 16;
    BvMod16(b);
    LowByteMod16(x);
  }

  /** `x & 0xF0` keeps the rank nibble of the low byte. */
  lemma HighNibble(x: int)
    ensures And8(x, 0xF0) == x % 256 - x % 16
  {
    var b := Byte(x % 256);
    ByteValue(x % 256);
    assert (b & 0xF0) == b - b % 16;
    assert (b - b % 16) as int == b as int - (b % 16) as int by {
      ByteSplit16(b);
      assert b - b % 16 == (b / 16) * 16;
    }
    BvMod16(b);
    LowByteMod16(x);
  }

  /** The 0x88 test: bit 3 or bit 7 of the low byte. */
  lemma Mask88(x: int)
    ensures And8(x, 0x88) == 0 <==> (x % 16 < 8 && x % 256 < 128)
  {
    var b := Byte(x % 256);
    ByteValue(x % 256);
    assert (b & 0x88 == 0) <==> (b % 16 < 8 && b < 128);
    BvMod16(b);
    LowByteMod16(x);
  }

  /** `p & 7` is the piece type `p % 8`. */
  lemma Mask7(p: int)
    ensures And8(p, 7) == p % 8
  {
    var b := Byte(p % 256);
    ByteValue(p % 256);
    assert (b & 7) == b % 8;
    BvMod8(b);
    LowByteMod8(p);
  }

  /** `p & 8` is the colour flag: 8 exactly when bit 3 is set. */
  lemma Mask8(p: int)
    ensures And8(p, 8) == (if p % 16 >= 8 then 8 else 0)
  {
    var b := Byte(p % 256);
    ByteValue(p % 256);
    assert (b & 8) == (if b % 16 >= 8 then 8 else 0);
    BvMod16(b);
    LowByteMod16(p);
  }

  lemma ShiftOrBv(r: bv8, f: bv8)
    requires r < 8 && f < 16
    ensures (r << 4) | f == r * 16 + f
    ensures ((r * 16 + f) as int) == (r as int) * 16 + (f as int)
  {}

  /** `rank<<4 | file` is `16 * rank + file` for the loop bounds of the
      evaluator and the hasher. */
  lemma ShiftOr(rank: int, file: int)
    requires 0 <= rank < 8 && 0 <= file < 16
    ensures (((Byte(rank) << 4) | Byte(file)) as int) == 16 * rank + file
  {
    ByteValue(rank);
    ByteValue(file);
    ShiftOrBv(Byte(rank), Byte(file));
  }

  /** Two bytes without common bits: their OR is their sum. */
  lemma OrDisjoint(h: bv8, l: bv8)
    requires h % 16 == 0 && l < 16
    ensures (h | l) as int == h as int + l as int
  {}

  /** `a&0xF0 | b&0x0F` combines the rank nibble of `a` with the file nibble
      of `b` (the square of a pawn taken en passant). */
  lemma RankFileOr(a: int, b: int)
    ensures (Byte(And8(a, 0xF0)) | Byte(And8(b, 0x0F))) as int
            == (a % 256 - a % 16) + b % 16
  {
    HighNibble(a);
    LowNibble(b);
    var hi := a % 256 - a % 16;
    var lo := b % 16;
    LowByteMod16(a);
    assert hi % 16 == 0 by {
      var q := (a % 256) / 16;
      assert a % 256 == 16 * q + (a % 256) % 16;
      Div16(hi, q, 0);
    }
    var h := Byte(hi);
    var l := Byte(lo);
    ByteValue(hi);
    ByteValue(lo);
    BvMod16(h);
    OrDisjoint(h, l);
  }

  /** Flipping bit 1 of a byte adds or subtracts two. */
  lemma XorBv(b: bv8)
    ensures ((b / 2) % 2) as int == ((b as int) / 2) % 2
    ensures (b / 2) % 2 == 0 ==> ((b ^ 2) as int) == (b as int) + 2
    ensures (b / 2) % 2 == 1 ==> ((b ^ 2) as int) == (b as int) - 2
  {
    var h := b / 2;
    ByteSplit2(b);
    Div2(b as int, h as int, (b % 2) as int);
    ByteSplit2(h);
    Div2(h as int, (h / 2) as int, (h % 2) as int);
    if h % 2 == 0 {
      assert b ^ 2 == b + 2;
      assert (b + 2) as int == b as int + 2;
    } else {
      assert b ^ 2 == b - 2;
      assert (b - 2) as int == b as int - 2;
    }
  }

  lemma HalfParity(x: int)
    ensures (x / 2) % 2 == ((x % 256) / 2) % 2
  {
    var q := x / 256;
    var y := x % 256;
    assert x == 256 * q + y;
    var h := y / 2;
    assert y == 2 * h + y % 2;
    Div2(x, 128 * q + h, y % 2);
    assert h == 2 * (h / 2) + h % 2;
    Div2(128 * q + h, 64 * q + h / 2, h % 2);
  }

  /** `Xor2` agrees with Go's XOR on the low byte and keeps the high bits. */
  lemma Xor2LowByte(x: int)
    ensures Xor2(x) / 256 == x / 256
    ensures Xor2(x) % 256 == ((Byte(x % 256) ^ 2) as int)
  {
    var y := x % 256;
    var b := Byte(y);
    ByteValue(y);
    XorBv(b);
    HalfParity(x);
    var q := x / 256;
    assert x == 256 * q + y;
  }

  /** XOR with a constant is injective, so `x ^ 2 == y ^ 2` iff `x == y`. */
  lemma Xor2Injective(x: int, y: int)
    ensures Xor2(x) == Xor2(y) <==> x == y
  {}

  /** Go's `^` on `uint64`.  Proofs reason about it through the four laws
      below rather than bit by bit. */
  function Xor(a: bv64, b: bv64): bv64
  {
    a ^ b
  }

  lemma XorAssoc(a: bv64, b: bv64, c: bv64)
    ensures Xor(Xor(a, b), c) == Xor(a, Xor(b, c))
  {
    assert (a ^ b) ^ c == a ^ (b ^ c);
  }

  lemma XorComm(a: bv64, b: bv64)
    ensures Xor(a, b) == Xor(b, a)
  {}

  lemma XorZero(a: bv64)
    ensures Xor(a, 0) == a && Xor(0, a) == a
  {}

  /** Every key is its own inverse. */
  lemma XorSelf(a: bv64, b: bv64)
    ensures Xor(Xor(a, b), b) == a
  {}

  /** The order in which keys are XOR-ed in does not matter. */
  lemma XorSwap(a: bv64, b: bv64, c: bv64)
    ensures Xor(Xor(a, b), c) == Xor(Xor(a, c), b)
  {
    XorAssoc(a, b, c);
    XorComm(b, c);
    XorAssoc(a, c, b);
  }
}


=== FILE: board.dfy ===
/** The position: a 128-cell 0x88 board, side to move, castling rights,
    en-passant square, king caches, move counters and the undo stack. */
module Position {
  import opened Pieces
  import opened Squares

  /** A move; `promotion` is 0 or the code (with colour) of the piece a pawn
      becomes. */
  datatype Move = Move(from: int, to: int, promotion: int)

  /** What `UndoMove` needs to reverse one `MakeMove`. */
  datatype MoveUndo = MoveUndo(from: int, to: int, isPromotion: bool, captured: int,
                               ep: int, halfMove: int, castling: bv4)

  type Cells = s: seq<int> | |s| == 128 witness seq(128, i => 0)

  /** Castling rights are the four bits KQkq, white king side being 8.  The
      engine only ever builds them by OR-ing these bits and clears them by
      masking, so they always fit in four bits. */
  datatype Board = Board(squares: Cells, whiteToMove: bool, castling: bv4, ep: int,
                         blackKing: int, whiteKing: int, fullMove: int, halfMove: int,
                         history: seq<MoveUndo>)

  const WHITE_KINGSIDE: bv4 := 8
  const WHITE_QUEENSIDE: bv4 := 4
  const BLACK_KINGSIDE: bv4 := 2
  const BLACK_QUEENSIDE: bv4 := 1

  /** The zero move the search returns when it found nothing. */
  const NO_MOVE := Move(0, 0, EMPTY)

  /** A cell of the 8x8 board inside the 128-cell array. */
  predicate OnBoard(sq: int)
  {
    0 <= sq < 128 && sq % 16 < 8
  }

  lemma OnBoardIsLegal(sq: int)
    ensures OnBoard(sq) <==> LegalSquareIndex(sq) && sq < 128
  {}

  function ColourToMove(b: Board): (c: int)
    ensures c == WHITE || c == BLACK
  {
    if b.whiteToMove then WHITE else BLACK
  }

  /** The cached king square of a colour. */
  function KingSquare(b: Board, colour: int): int
  {
    if colour == WHITE then b.whiteKing else b.blackKing
  }

  predicate HasRight(b: Board, bit: bv4)
  {
    b.castling & bit != 0
  }

  /** The en-passant square is unset (-1), or an empty square on the third
      or sixth rank, where a double pawn push leaves it. */
  predicate EpValid(b: Board)
  {
    b.ep == -1 || ((0x20 <= b.ep < 0x28 || 0x50 <= b.ep < 0x58) && b.squares[b.ep] == EMPTY)
  }

  /** A castling right is only held while the king's cache is its home square
      and the rook stands on its corner. */
  predicate CastlingConsistent(b: Board)
  {
    && (HasRight(b, WHITE_KINGSIDE) ==> b.whiteKing == 0x04 && b.squares[0x07] == WHITE + ROOK)
    && (HasRight(b, WHITE_QUEENSIDE) ==> b.whiteKing == 0x04 && b.squares[0x00] == WHITE + ROOK)
    && (HasRight(b, BLACK_KINGSIDE) ==> b.blackKing == 0x74 && b.squares[0x77] == BLACK + ROOK)
    && (HasRight(b, BLACK_QUEENSIDE) ==> b.blackKing == 0x74 && b.squares[0x70] == BLACK + ROOK)
  }

  /** Well-formedness.  Every cell holds a piece code, cells off the board are
      empty, every king stands on its colour's cache (so there is at most one
      per colour: a pseudo-legal capture of a king, which `LegalMove` tries
      out, removes it), the caches are board squares, and the en-passant
      square and castling rights are consistent with the board. */
  predicate Valid(b: Board)
  {
    && (forall i | 0 <= i < 128 :: ValidPiece(b.squares[i]))
    && (forall i | 0 <= i < 128 && !OnBoard(i) :: b.squares[i] == EMPTY)
    && (forall i | 0 <= i < 128 && b.squares[i] == WHITE + KING :: i == b.whiteKing)
    && (forall i | 0 <= i < 128 && b.squares[i] == BLACK + KING :: i == b.blackKing)
    && OnBoard(b.whiteKing) && OnBoard(b.blackKing)
    && EpValid(b)
    && CastlingConsistent(b)
  }
}

=== FILE: distinct.dfy ===
/** The generator lists each move at most once: moves of different pieces
    differ in their origin, the targets of one piece differ, and the four
    promotions of one push or capture differ in their code. */
module Distinctness {
  import opened Pieces
  import opened Squares
  import opened Position
  import opened Attacks
  import opened MoveGen

  /** No element of `s` appears twice. */
  predicate Once(s: seq<Move>)
  {
    forall j, k | 0 <= j < k < |s| :: s[j] != s[k]
  }

  /** A move put in front of a list that lacks it appears once if the list
      has each of its moves once. */
  lemma OnceCons(m: Move, rest: seq<Move>)
    requires Once(rest) && m !in rest
    ensures Once([m] + rest)
  {
    var r := [m] + rest;
    forall j, k | 0 <= j < k < |r|
      ensures r[j] != r[k]
    {
      if j == 0 {
        assert r[k] == rest[k - 1];
      } else {
        assert r[j] == rest[j - 1] && r[k] == rest[k - 1];
      }
    }
  }

  /** Two lists without repeats and without a common move, one after the
      other. */
  lemma OnceConcat(a: seq<Move>, c: seq<Move>)
    requires Once(a) && Once(c)
    requires forall m | m in a :: m !in c
    ensures Once(a + c)
  {
    var r := a + c;
    forall j, k | 0 <= j < k < |r|
      ensures r[j] != r[k]
    {
      if k < |a| {
        assert r[j] == a[j] && r[k] == a[k];
      } else if j >= |a| {
        assert r[j] == c[j - |a|] && r[k] == c[k - |a|];
      } else {
        assert r[j] == a[j] && r[k] == c[k - |a|];
        assert a[j] in a;
      }
    }
  }

  /** No offset of a table appears twice. */
  predicate DistinctOffsets(offsets: seq<int>)
  {
    forall j, k | 0 <= j < k < |offsets| :: offsets[j] != offsets[k]
  }

  /** The first offset of a table without repeats is not among the rest. */
  lemma FirstOffsetFresh(offsets: seq<int>)
    requires |offsets| > 0 && DistinctOffsets(offsets)
    ensures offsets[0] !in offsets[1..]
    ensures DistinctOffsets(offsets[1..])
  {
    forall k | 0 <= k < |offsets| - 1
      ensures offsets[1..][k] != offsets[0]
    {
      assert offsets[1..][k] == offsets[k + 1];
    }
  }

  /** The generator's direction and jump tables have no repeats, and the
      bishop and rook directions are among the eight king steps. */
  lemma TablesDistinct()
    ensures DistinctOffsets(KNIGHT_MOVES) && DistinctOffsets(DIAGONALS_AND_LINES)
    ensures DistinctOffsets(DIAGONALS) && DistinctOffsets(LINES)
    ensures DistinctOffsets(N_DIAGONALS) && DistinctOffsets(S_DIAGONALS)
    ensures forall k | 0 <= k < |DIAGONALS| :: DIAGONALS[k] in DIAGONALS_AND_LINES
    ensures forall k | 0 <= k < |LINES| :: LINES[k] in DIAGONALS_AND_LINES
  {
    OffsetTables();
  }

  /** A slide path starting at `t` ends a whole number of steps further
      on. */
  lemma {:induction false} PathSteps(b: Board, t: int, to: int, off: int) returns (n: nat)
    requires -40 <= off <= 40 && off != 0 && -128 <= t < 256
    requires PathClear(b, t, to, off)
    decreases if off > 0 then 256 - t else t + 128
    ensures to == t + n * off
  {
    if t == to {
      n := 0;
    } else {
      var k := PathSteps(b, t + off, to, off);
      n := k + 1;
      assert n * off == k * off + off;
    }
  }

  /** Along a rank, a path from the board square `t` stays on its rank:
      the target is as many cells away as its file is files away. */
  lemma {:induction false} RankPath(b: Board, t: int, to: int, off: int)
    requires off == E || off == W
    requires OnBoard(t) && OnBoard(to)
    requires PathClear(b, t + off, to, off)
    decreases if off > 0 then 256 - t else t + 128
    ensures to - t == to % 16 - t % 16
  {
    var next := t + off;
    if next != to {
      assert LegalSquareIndex(next) && next < 128;
      RankPath(b, next, to, off);
    }
  }

  /** A slide from a cell of the array reaches a board square in one to
      eight steps. */
  lemma SlideLength(b: Board, i: int, to: int, off: int) returns (n: int)
    requires 0 <= i < 128 && OnBoard(to) && off in DIAGONALS_AND_LINES
    requires PathClear(b, i + off, to, off)
    ensures 1 <= n <= 8 && to == i + n * off
  {
    OffsetTables();
    var k := PathSteps(b, i + off, to, off);
    n := k + 1;
    assert to == i + n * off;
    if off == E || off == W {
      if i + off != to {
        RankPath(b, i + off, to, off);
      }
    } else if off == N {
      assert to - i == n * 16;
    } else if off == S {
      assert i - to == n * 16;
    } else if off == NE {
      assert to - i == n * 17;
    } else if off == SW {
      assert i - to == n * 17;
    } else if off == NW {
      assert to - i == n * 15;
    } else {
      assert i - to == n * 15;
    }
  }

  /** A target a few steps away along a king-step direction fixes the
      direction. */
  lemma SameSlideDirection(n1: int, d1: int, n2: int, d2: int)
    requires 1 <= n1 <= 8 && 1 <= n2 <= 8
    requires d1 in DIAGONALS_AND_LINES && d2 in DIAGONALS_AND_LINES
    requires n1 * d1 == n2 * d2
    ensures d1 == d2
  {
    OffsetTables();
  }

  /** No board square lies on two slides from one cell. */
  lemma SlideDirectionUnique(b: Board, i: int, to: int, d1: int, d2: int)
    requires 0 <= i < 128 && OnBoard(to)
    requires d1 in DIAGONALS_AND_LINES && d2 in DIAGONALS_AND_LINES
    requires PathClear(b, i + d1, to, d1) && PathClear(b, i + d2, to, d2)
    ensures d1 == d2
  {
    var n1 := SlideLength(b, i, to, d1);
    var n2 := SlideLength(b, i, to, d2);
    SameSlideDirection(n1, d1, n2, d2);
  }

  /** The cells of one slide differ. */
  lemma {:induction false} SlideRayOnce(b: Board, i: int, off: int, t: int)
    requires 0 <= i < 128 && -40 <= off <= 40 && off != 0 && -128 <= t < 256
    decreases if off > 0 then 256 - t else t + 128
    ensures Once(SlideRay(b, i, off, t))
  {
    LegalIndexOnBoard(t);
    if t >= 0 && LegalSquareIndex(t) && b.squares[t] == EMPTY {
      var rest := SlideRay(b, i, off, t + off);
      SlideRayOnce(b, i, off, t + off);
      if Move(i, t, EMPTY) in rest {
        var n := PathSteps(b, t + off, t, off);
        assert false;
      }
      OnceCons(Move(i, t, EMPTY), rest);
    }
  }

  /** The direction of a clear slide. */
  lemma ClearAlongWitness(b: Board, i: int, to: int, offsets: seq<int>) returns (k: int)
    requires 0 <= i < 128 && SmallOffsets(offsets)
    requires ClearAlong(b, i, to, offsets)
    ensures 0 <= k < |offsets| && PathClear(b, i + offsets[k], to, offsets[k])
  {
    k :| 0 <= k < |offsets| && PathClear(b, i + offsets[k], to, offsets[k]);
  }

  /** A target of the slide along `d` is not on a slide along another
      direction. */
  lemma NotOnOtherSlide(b: Board, i: int, to: int, d: int, others: seq<int>)
    requires 0 <= i < 128 && OnBoard(to) && SmallOffsets(others)
    requires d in DIAGONALS_AND_LINES && d !in others
    requires forall k | 0 <= k < |others| :: others[k] in DIAGONALS_AND_LINES
    requires PathClear(b, i + d, to, d)
    ensures !ClearAlong(b, i, to, others)
  {
    if ClearAlong(b, i, to, others) {
      var k := ClearAlongWitness(b, i, to, others);
      assert others[k] in others;
      SlideDirectionUnique(b, i, to, d, others[k]);
      assert false;
    }
  }

  /** The slides along distinct king-step directions list each move once:
      no target lies on two of them. */
  lemma {:induction false} SlidesOnce(b: Board, i: int, offsets: seq<int>)
    requires 0 <= i < 128 && SmallOffsets(offsets) && DistinctOffsets(offsets)
    requires forall k | 0 <= k < |offsets| :: offsets[k] in DIAGONALS_AND_LINES
    ensures Once(GenerateSlides(b, i, offsets))
  {
    if |offsets| > 0 {
      var d := offsets[0];
      var tail := offsets[1..];
      FirstOffsetFresh(offsets);
      assert forall k | 0 <= k < |tail| :: tail[k] == offsets[k + 1];
      assert d in DIAGONALS_AND_LINES;
      var ray := SlideRay(b, i, d, i + d);
      var rest := GenerateSlides(b, i, tail);
      SlideRayOnce(b, i, d, i + d);
      SlidesOnce(b, i, tail);
      forall m | m in ray
        ensures m !in rest
      {
        NotOnOtherSlide(b, i, m.to, d, tail);
      }
      OnceConcat(ray, rest);
    }
  }

  /** One step by each of distinct offsets lists each move once. */
  lemma {:induction false} SinglesOnce(b: Board, i: int, offsets: seq<int>)
    requires 0 <= i < 128 && SmallOffsets(offsets) && DistinctOffsets(offsets)
    ensures Once(GenerateSingleMoves(b, i, offsets))
  {
    if |offsets| > 0 {
      FirstOffsetFresh(offsets);
      SinglesOnce(b, i, offsets[1..]);
      var m := Move(i, i + offsets[0], EMPTY);
      assert m !in GenerateSingleMoves(b, i, offsets[1..]);
      OnceCons(m, GenerateSingleMoves(b, i, offsets[1..]));
    }
  }

  /** The captures along distinct offsets list each move once. */
  lemma {:induction false} CapturesOnce(b: Board, i: int, offsets: seq<int>, ownColour: int)
    requires 0 <= i < 128 && SmallOffsets(offsets) && DistinctOffsets(offsets)
    ensures Once(PawnCaptures(b, i, offsets, ownColour))
  {
    if |offsets| > 0 {
      FirstOffsetFresh(offsets);
      CapturesOnce(b, i, offsets[1..], ownColour);
      var rest := PawnCaptures(b, i, offsets[1..], ownColour);
      var head := CaptureOnto(b, i, i + offsets[0], ownColour);
      assert Move(i, i + offsets[0], EMPTY) !in rest;
      if head != [] {
        assert head == [Move(i, i + offsets[0], EMPTY)];
        OnceCons(head[0], rest);
      }
    }
  }

  /** The pushes of a pawn differ in their targets. */
  lemma PushesOnce(b: Board, i: int, forward: int, onHomeRank: bool)
    requires 0 <= i < 128 && (forward == N || forward == S)
    requires onHomeRank ==> 0 <= i + 2 * forward < 128
    ensures Once(PawnPushes(b, i, forward, onHomeRank))
  {}

  /** The moves with one promotion code, taken from moves without repeats
      or promotion codes, have no repeats. */
  lemma PromoteOnce(moves: seq<Move>, code: int)
    requires Once(moves)
    requires forall m | m in moves :: m.promotion == EMPTY
    ensures Once(Promote(moves, code))
  {
    var r := Promote(moves, code);
    forall j, k | 0 <= j < k < |r|
      ensures r[j] != r[k]
    {
      assert moves[j] in moves && moves[k] in moves;
    }
  }

  /** Moves with different promotion codes differ. */
  lemma PromoteApart(moves: seq<Move>, code1: int, code2: int, rest: seq<Move>)
    requires code1 != code2
    requires forall m | m in rest :: m.promotion == code2
    ensures forall m | m in Promote(moves, code1) :: m !in rest
  {
    forall m | m in Promote(moves, code1)
      ensures m.promotion == code1
    {
      var k :| 0 <= k < |moves| && m == Move(moves[k].from, moves[k].to, code1);
    }
  }

  /** The codes of the moves with one promotion code. */
  lemma PromoteCode(moves: seq<Move>, code: int)
    ensures forall m | m in Promote(moves, code) :: m.promotion == code
  {
    forall m | m in Promote(moves, code)
      ensures m.promotion == code
    {
      var k :| 0 <= k < |moves| && m == Move(moves[k].from, moves[k].to, code);
    }
  }

  /** Each move becomes four promotions with four different codes. */
  lemma PromotionsOnce(moves: seq<Move>, ownColour: int)
    requires ownColour == WHITE || ownColour == BLACK
    requires Once(moves)
    requires forall m | m in moves :: m.promotion == EMPTY
    ensures Once(Promotions(moves, ownColour))
  {
    var q, r := Promote(moves, ownColour + QUEEN), Promote(moves, ownColour + ROOK);
    var bi, kn := Promote(moves, ownColour + BISHOP), Promote(moves, ownColour + KNIGHT);
    PromoteOnce(moves, ownColour + QUEEN);
    PromoteOnce(moves, ownColour + ROOK);
    PromoteOnce(moves, ownColour + BISHOP);
    PromoteOnce(moves, ownColour + KNIGHT);
    PromoteCode(moves, ownColour + KNIGHT);
    PromoteApart(moves, ownColour + BISHOP, ownColour + KNIGHT, kn);
    OnceConcat(bi, kn);
    PromoteCode(moves, ownColour + BISHOP);
    PromoteApart(moves, ownColour + ROOK, ownColour + BISHOP, bi);
    PromoteApart(moves, ownColour + ROOK, ownColour + KNIGHT, kn);
    OnceConcat(r, bi + kn);
    PromoteCode(moves, ownColour + ROOK);
    PromoteApart(moves, ownColour + QUEEN, ownColour + ROOK, r);
    PromoteApart(moves, ownColour + QUEEN, ownColour + BISHOP, bi);
    PromoteApart(moves, ownColour + QUEEN, ownColour + KNIGHT, kn);
    OnceConcat(q, r + (bi + kn));
    assert Promotions(moves, ownColour) == q + (r + (bi + kn));
  }

  /** The moves of one pawn have no repeats: pushes go straight ahead,
      captures diagonally, and promotions differ in their code. */
  lemma PawnMovesOnce(b: Board, i: int, forward: int, captureOffsets: seq<int>, onHomeRank: bool)
    requires 0 <= i < 128 && (forward == N || forward == S)
    requires captureOffsets == N_DIAGONALS || captureOffsets == S_DIAGONALS
    requires onHomeRank ==> 0 <= i + 2 * forward < 128
    ensures Once(GeneratePawnMoves(b, i, forward, captureOffsets, onHomeRank))
  {
    TablesDistinct();
    OffsetTables();
    var ownColour := Colour(b.squares[i]);
    var pushes := PawnPushes(b, i, forward, onHomeRank);
    var captures := PawnCaptures(b, i, captureOffsets, ownColour);
    PushesOnce(b, i, forward, onHomeRank);
    CapturesOnce(b, i, captureOffsets, ownColour);
    forall m | m in pushes
      ensures m !in captures
    {
      assert m.to - i in {16, -16, 32, -32};
    }
    OnceConcat(pushes, captures);
    if PromotesFrom(i, ownColour) {
      PromotionsOnce(pushes + captures, ownColour);
    }
  }

  /** The king's steps and its two castling moves differ. */
  lemma KingMovesOnce(b: Board, i: int)
    requires 0 <= i < 128 && 0 <= b.whiteKing < 128 && 0 <= b.blackKing < 128
    requires CastleIndexable(b, i)
    ensures Once(GenerateKingMoves(b, i))
  {
    var steps := GenerateSingleMoves(b, i, DIAGONALS_AND_LINES);
    KingStepsOnce(b, i);
    var kingside := RightToCastle(b, E) && CastlingLegal(b, i, E);
    var queenside := RightToCastle(b, W) && CastlingLegal(b, i, W);
    var ks: seq<Move> := if kingside then [Move(i, i + 2, EMPTY)] else [];
    var qs: seq<Move> := if queenside then [Move(i, i - 2, EMPTY)] else [];
    assert forall m | m in ks :: m.to == i + 2;
    assert forall m | m in qs :: m.to == i - 2;
    OnceConcat(steps, ks);
    OnceConcat(steps + ks, qs);
    assert GenerateKingMoves(b, i) == steps + ks + qs;
  }

  /** The king's steps differ, and none of them moves two files. */
  lemma KingStepsOnce(b: Board, i: int)
    requires 0 <= i < 128
    ensures Once(GenerateSingleMoves(b, i, DIAGONALS_AND_LINES))
    ensures forall m | m in GenerateSingleMoves(b, i, DIAGONALS_AND_LINES) :: m.to != i + 2 && m.to != i - 2
  {
    TablesDistinct();
    OffsetTables();
    SinglesOnce(b, i, DIAGONALS_AND_LINES);
  }

  /** The moves of one piece have no repeats. */
  lemma PieceMovesOnce(b: Board, i: int)
    requires 0 <= i < 128 && 0 <= b.whiteKing < 128 && 0 <= b.blackKing < 128
    requires PieceType(b.squares[i]) == KING ==> CastleIndexable(b, i)
    ensures Once(GeneratePieceMoves(b, i))
  {
    TablesDistinct();
    OffsetTables();
    match PieceType(b.squares[i])
    case 1 =>
      if b.whiteToMove {
        PawnMovesOnce(b, i, N, N_DIAGONALS, RankBase(i) == 0x10);
      } else {
        PawnMovesOnce(b, i, S, S_DIAGONALS, RankBase(i) == 0x60);
      }
    case 2 => SinglesOnce(b, i, KNIGHT_MOVES);
    case 3 => SlidesOnce(b, i, DIAGONALS);
    case 4 => SlidesOnce(b, i, LINES);
    case 5 => SlidesOnce(b, i, DIAGONALS_AND_LINES);
    case 6 => KingMovesOnce(b, i);
    case _ =>
  }

  /** The moves of the pieces on cells `i` .. 127 have no repeats: those of
      different cells differ in their origin. */
  lemma {:induction false} GenerateFromOnce(b: Board, i: int)
    requires 0 <= i <= 128 && Generable(b)
    decreases 128 - i
    ensures Once(GenerateFrom(b, i))
  {
    if i < 128 {
      GenerateFromOnce(b, i + 1);
      if OwnPiece(b, i) {
        PieceMovesOnce(b, i);
        OnceConcat(GeneratePieceMoves(b, i), GenerateFrom(b, i + 1));
      }
    }
  }

  /** The generator lists each pseudo-legal move once. */
  lemma GenerateMovesOnce(b: Board)
    requires Generable(b)
    ensures Once(GenerateMoves(b))
  {
    GenerateFromOnce(b, 0);
  }
}

=== FILE: evaluate.dfy ===
/** Material evaluation from the side to move's point of view. */
module Evaluation {
  import opened Pieces
  import opened Squares
  import opened Position

  /** Centipawn values by piece type; kings, and the types 0 and 7 that the
      value table does not list, count nothing. */
  function PieceValue(pieceType: int): (v: int)
    ensures 0 <= v <= 875
    ensures v == 0 <==> pieceType !in {PAWN, KNIGHT, BISHOP, ROOK, QUEEN}
  {
    match pieceType
    case 1 => 100
    case 2 => 300
    case 3 => 310
    case 4 => 500
    case 5 => 875
    case _ => 0
  }

  /** The `k`-th of the 64 board squares, rank by rank from a1. */
  function BoardSquare(k: int): (sq: int)
    requires 0 <= k < 64
    ensures 0 <= sq < 128
  {
    16 * (k / 8) + k % 8
  }

  /** The 64 squares are the board squares, each once. */
  lemma BoardSquareOnto(k: int)
    requires 0 <= k < 64
    ensures OnBoard(BoardSquare(k)) && BoardSquare(k) == SquareAt(k / 8, k % 8)
  {}

  /** The position of a board square in the rank-by-rank order: the inverse
      of `BoardSquare`. */
  function BoardIndex(sq: int): (k: int)
    requires OnBoard(sq)
    ensures 0 <= k < 64 && BoardSquare(k) == sq
  {
    var k := 8 * (sq / 16) + sq % 16;
    assert k / 8 == sq / 16 && k % 8 == sq % 16;
    k
  }

  lemma BoardIndexOfSquare(k: int)
    requires 0 <= k < 64
    ensures OnBoard(BoardSquare(k)) && BoardIndex(BoardSquare(k)) == k
  {
    var sq := BoardSquare(k);
    assert sq / 16 == k / 8 && sq % 16 == k % 8;
  }

  /** What the piece on a cell is worth to `colour`: its value when it is
      that colour's, else nothing. */
  function Worth(p: int, colour: int): int
  {
    if p != EMPTY && Colour(p) == colour then PieceValue(PieceType(p)) else 0
  }

  /** The material of `colour` on the first `k` board squares. */
  function Material(s: Cells, colour: int, k: int): (v: int)
    requires 0 <= k <= 64
  {
    if k == 0 then 0 else Material(s, colour, k - 1) + Worth(s[BoardSquare(k - 1)], colour)
  }

  /** White's material less black's. */
  function Balance(s: Cells): int
  {
    Material(s, WHITE, 64) - Material(s, BLACK, 64)
  }

  /** What the board squares from the `k`-th on add to the balance. */
  function Remaining(s: Cells, k: int): int
    requires 0 <= k <= 64
    decreases 64 - k
  {
    if k == 64 then 0 else Worth(s[BoardSquare(k)], WHITE) - Worth(s[BoardSquare(k)], BLACK) + Remaining(s, k + 1)
  }

  /** The squares before `k` and those from `k` on make up the balance. */
  lemma {:induction false} RemainingSplit(s: Cells, k: int)
    requires 0 <= k <= 64
    decreases 64 - k
    ensures Material(s, WHITE, k) - Material(s, BLACK, k) + Remaining(s, k) == Balance(s)
  {
    if k < 64 {
      RemainingSplit(s, k + 1);
      var c := s[BoardSquare(k)];
      assert Material(s, WHITE, k + 1) == Material(s, WHITE, k) + Worth(c, WHITE);
      assert Material(s, BLACK, k + 1) == Material(s, BLACK, k) + Worth(c, BLACK);
      assert Remaining(s, k) == Worth(c, WHITE) - Worth(c, BLACK) + Remaining(s, k + 1);
    }
  }

  /** The engine's double loop over ranks and files, adding white pieces and
      subtracting black ones.  The square of a rank and file is always a
      legal index, so the loop never takes its early exit. */
  function Scan(b: Board, rank: int, file: int, result: int): (r: int)
    requires 0 <= rank <= 8 && 0 <= file <= 8
    requires rank == 8 ==> file == 0
    decreases 8 - rank, 8 - file
    ensures r == result + Remaining(b.squares, 8 * rank + file)
  {
    if rank == 8 then assert Remaining(b.squares, 64) == 0; result
    else if file == 8 then assert 8 * rank + file == 8 * (rank + 1) + 0; Scan(b, rank + 1, 0, result)
    else
      var square := 16 * rank + file;  // SquareAt(rank, file), `rank<<4 | file`
      RankFileSquare(rank, file);
      if !LegalSquareIndex(square) then assert false; result
      else
        var p := b.squares[square];
        RemainingStep(b.squares, rank, file);
        if p == EMPTY then Scan(b, rank, file + 1, result)
        else
          var value := PieceValue(PieceType(p));
          if Colour(p) == WHITE then Scan(b, rank, file + 1, result + value)
          else Scan(b, rank, file + 1, result - value)
  }

  /** The board squares from a rank and file on: that square's worth, then
      the rest. */
  lemma RemainingStep(s: Cells, rank: int, file: int)
    requires 0 <= rank < 8 && 0 <= file < 8
    ensures Remaining(s, 8 * rank + file) ==
      Worth(s[16 * rank + file], WHITE) - Worth(s[16 * rank + file], BLACK) + Remaining(s, 8 * rank + (file + 1))
  {
    RankFileSquare(rank, file);
  }

  /** The square of a rank and file is the board square of its index. */
  lemma RankFileSquare(rank: int, file: int)
    requires 0 <= rank < 8 && 0 <= file < 8
    ensures BoardSquare(8 * rank + file) == 16 * rank + file
    ensures OnBoard(16 * rank + file) && LegalSquareIndex(16 * rank + file)
  {
    var k := 8 * rank + file;
    assert k / 8 == rank && k % 8 == file;
  }

  /** The score for the side to move: the material balance, negated when
      black is to move. */
  function Evaluate(b: Board): (r: int)
    ensures r == if b.whiteToMove then Balance(b.squares) else -Balance(b.squares)
  {
    var result := Scan(b, 0, 0, 0);
    RemainingSplit(b.squares, 0);
    if b.whiteToMove then result else -result
  }

  /** Each side's material is at most a queen's worth per square. */
  lemma {:induction false} MaterialBound(s: Cells, colour: int, k: int)
    requires 0 <= k <= 64
    ensures 0 <= Material(s, colour, k) <= 875 * k
  {
    if k > 0 {
      MaterialBound(s, colour, k - 1);
    }
  }

  /** Handing the move to the other side negates the score. */
  lemma EvaluateFlip(b: Board)
    ensures Evaluate(b.(whiteToMove := !b.whiteToMove)) == -Evaluate(b)
  {}

  /** No score exceeds the material of 64 queens, far inside the search's
      sentinel of ten million. */
  lemma EvaluateBound(b: Board)
    ensures -64 * 875 <= Evaluate(b) <= 64 * 875
  {
    MaterialBound(b.squares, WHITE, 64);
    MaterialBound(b.squares, BLACK, 64);
  }
}

=== FILE: execute.dfy ===
/** Making and taking back a move.  The engine mutates one board in place
    and keeps an undo stack; here each step returns the new board. */
module Execute {
  import opened Pieces
  import opened Squares
  import opened Position
  import opened Attacks

  /** The indices `MakeMove` touches lie inside the array: the two squares,
      and for a king moving two files the rook's corner. */
  predicate MakeMoveDefined(b: Board, m: Move)
  {
    && 0 <= m.from < 128 && 0 <= m.to < 128
    && (PieceType(b.squares[m.from]) == KING && m.to - m.from == 2 ==> m.from + 3 < 128)
    && (PieceType(b.squares[m.from]) == KING && m.to - m.from == -2 ==> m.from >= 4)
  }

  /** The square of the pawn taken en passant: the mover's rank and the
      target's file, `from & 0xF0 | to & 0x0F`. */
  function EpVictim(from: int, to: int): (sq: int)
    requires 0 <= from < 128 && 0 <= to < 128
    ensures 0 <= sq < 128 && Rank(sq) == Rank(from) && File(sq) == File(to)
  {
    RankFileJoin(from, to);
    RankBase(from) + File(to)
  }

  /** A pawn arriving on the en-passant square from another file. */
  predicate IsEpCapture(b: Board, m: Move)
  {
    m.to == b.ep && File(m.to) != File(m.from)
  }

  /** The board after the piece-specific part of a move, the undo record so
      far, and whether the en-passant square is to be cleared. */
  datatype Staged = Staged(board: Board, undo: MoveUndo, resetEp: bool)

  /** Pawn: an en-passant capture removes the pawn beside the mover and
      records it as captured; a double push sets the en-passant square to
      the square passed over. */
  function PawnStage(b: Board, m: Move, undo: MoveUndo): (st: Staged)
    requires 0 <= m.from < 128 && 0 <= m.to < 128
    ensures st.board.castling == b.castling && st.board.history == b.history
    ensures st.board.whiteKing == b.whiteKing && st.board.blackKing == b.blackKing
    ensures st.board.whiteToMove == b.whiteToMove && st.board.halfMove == b.halfMove
    ensures st.board.fullMove == b.fullMove
    ensures st.undo == undo.(captured := st.undo.captured)
    ensures st.board.squares[m.from] == b.squares[m.from]
  {
    if IsEpCapture(b, m) then
      var victim := EpVictim(m.from, m.to);
      Staged(b.(squares := b.squares[victim := EMPTY]), undo.(captured := b.squares[victim]), true)
    else
      var offset := m.to - m.from;
      if offset == 32 || offset == -32 then Staged(b.(ep := m.from + offset / 2), undo, false)
      else Staged(b, undo, true)
  }

  /** Masking keeps a subset of the rights. */
  lemma MaskedRights(c: bv4, mask: bv4)
    ensures (c & mask) & !c == 0
  {}

  /** The castling rook's move beside a king moving two files: king side
      from the corner `to + 1` to `from + 1`, queen side from `to - 2` to
      `from - 1`. */
  function CastleRook(squares: Cells, from: int, to: int): (r: Cells)
    requires 0 <= from < 128 && 0 <= to < 128
    requires to - from == 2 ==> from + 3 < 128
    requires to - from == -2 ==> from >= 4
    ensures r[from] == squares[from]
  {
    var offset := to - from;
    if offset == 2 then squares[from + 1 := squares[to + 1]][to + 1 := EMPTY]
    else if offset == -2 then squares[from - 1 := squares[to - 2]][to - 2 := EMPTY]
    else squares
  }

  /** The king's colour keeps only the other colour's rights. */
  function KingMovedRights(castling: bv4, colour: int): (c: bv4)
    ensures c & !castling == 0
  {
    MaskedRights(castling, 0x3);
    MaskedRights(castling, 0xC);
    if colour == WHITE then castling & 0x3 else castling & 0xC
  }

  /** King: move the cache, drop both of the colour's rights, and for a
      two-file move bring the rook over. */
  function KingStage(b: Board, m: Move): (st: Board)
    requires MakeMoveDefined(b, m) && PieceType(b.squares[m.from]) == KING
    ensures st.history == b.history && st.ep == b.ep && st.whiteToMove == b.whiteToMove
    ensures st.halfMove == b.halfMove && st.fullMove == b.fullMove
    ensures st.castling & !b.castling == 0
    ensures st.squares[m.from] == b.squares[m.from]
  {
    var colour := Colour(b.squares[m.from]);
    var squares := CastleRook(b.squares, m.from, m.to);
    var castling := KingMovedRights(b.castling, colour);
    if colour == WHITE then b.(whiteKing := m.to, castling := castling, squares := squares)
    else b.(blackKing := m.to, castling := castling, squares := squares)
  }

  /** Rook: leaving a corner drops that corner's right, for the side to
      move. */
  function RookMovedRights(b: Board, from: int): (c: bv4)
    ensures c & !b.castling == 0
  {
    if b.whiteToMove then
      if from == 0x00 && b.castling & 0x4 == 0x4 then b.castling & !0x4
      else if from == 0x07 && b.castling & 0x8 == 0x8 then b.castling & !0x8
      else b.castling
    else
      if from == 0x70 && b.castling & 0x1 == 0x1 then b.castling & !0x1
      else if from == 0x77 && b.castling & 0x2 == 0x2 then b.castling & !0x2
      else b.castling
  }

  /** `squares[to] & ROOK == ROOK`: true for the rooks, queens and kings of
      either colour (codes 4, 5, 6, 12, 13, 14), and for the unused codes 7
      and 15. */
  predicate RookBitSet(p: int)
  {
    (p % 8) / 4 == 1
  }

  /** A piece landing on an enemy corner that holds a rook-bit piece drops
      the enemy's right on that corner. */
  function CapturedRookRights(b: Board, m: Move): (c: bv4)
    requires 0 <= m.from < 128 && 0 <= m.to < 128
    ensures c & !b.castling == 0
  {
    if RookBitSet(b.squares[m.to]) then
      if Colour(b.squares[m.from]) == WHITE then
        if m.to == 0x70 then b.castling & !0x1
        else if m.to == 0x77 then b.castling & !0x2
        else b.castling
      else
        if m.to == 0x00 then b.castling & !0x4
        else if m.to == 0x07 then b.castling & !0x8
        else b.castling
    else b.castling
  }

  function PieceStage(b: Board, m: Move, undo: MoveUndo): (st: Staged)
    requires MakeMoveDefined(b, m)
    ensures st.board.history == b.history && st.board.whiteToMove == b.whiteToMove
    ensures st.board.halfMove == b.halfMove && st.board.fullMove == b.fullMove
    ensures st.board.castling & !b.castling == 0
    ensures st.undo == undo.(captured := st.undo.captured)
    ensures st.board.squares[m.from] == b.squares[m.from]
  {
    match PieceType(b.squares[m.from])
    case 1 => PawnStage(b, m, undo)
    case 6 => Staged(KingStage(b, m), undo, true)
    case 4 => Staged(b.(castling := RookMovedRights(b, m.from)), undo, true)
    case _ => Staged(b, undo, true)
  }

  /** Dropping rights twice drops rights. */
  lemma NoNewRights(a: bv4, b: bv4, c: bv4)
    requires b & !a == 0 && c & !b == 0
    ensures c & !a == 0
  {}

  /** Play a move: the piece (or its promotion) goes to `to`, `from` is
      emptied, the side to move flips, the undo record is pushed, and the
      en-passant square, king caches and castling rights follow.  The move
      counters are left alone. */
  function MakeMove(b: Board, m: Move): (r: Board)
    requires MakeMoveDefined(b, m)
    ensures r.whiteToMove == !b.whiteToMove
    ensures r.halfMove == b.halfMove && r.fullMove == b.fullMove
    ensures |r.history| == |b.history| + 1 && r.history[..|b.history|] == b.history
    ensures r.history[|b.history|].castling == b.castling && r.history[|b.history|].ep == b.ep
    ensures r.castling & !b.castling == 0
    ensures r.squares[m.from] == EMPTY
    ensures m.from != m.to ==>
      r.squares[m.to] == if m.promotion == EMPTY then b.squares[m.from] else m.promotion
  {
    var undo := MoveUndo(m.from, m.to, m.promotion != EMPTY, b.squares[m.to], b.ep, b.halfMove, b.castling);
    var st := PieceStage(b, m, undo);
    var b1 := st.board;
    var castling := CapturedRookRights(b1, m);
    NoNewRights(b.castling, b1.castling, castling);
    var b2 := b1.(castling := castling,
                  ep := if st.resetEp then -1 else b1.ep,
                  history := b1.history + [st.undo]);
    var piece := if m.promotion == EMPTY then b2.squares[m.from] else m.promotion;
    b2.(squares := b2.squares[m.to := piece][m.from := EMPTY], whiteToMove := !b.whiteToMove)
  }

  /** The record `UndoMove` pops. */
  function LastUndo(b: Board): MoveUndo
    requires |b.history| > 0
  {
    b.history[|b.history| - 1]
  }

  /** The piece type on `from` once the move is taken back: a promotion
      turns back into a pawn. */
  function UnmovedType(b: Board): int
    requires |b.history| > 0 && 0 <= LastUndo(b).to < 128
  {
    var u := LastUndo(b);
    if u.isPromotion then PAWN
    else if u.from == u.to then PieceType(u.captured)
    else PieceType(b.squares[u.to])
  }

  /** The indices `UndoMove` touches lie inside the array. */
  predicate UndoDefined(b: Board)
  {
    && |b.history| > 0
    && 0 <= LastUndo(b).from < 128 && 0 <= LastUndo(b).to < 128
    && (UnmovedType(b) == KING && LastUndo(b).to - LastUndo(b).from == 2 ==> LastUndo(b).to + 1 < 128)
    && (UnmovedType(b) == KING && LastUndo(b).to - LastUndo(b).from == -2 ==> LastUndo(b).to >= 2)
  }

  /** The castling rook's way back: king side from `from + 1` to the corner
      `to + 1`, queen side from `from - 1` to `to - 2`. */
  function UncastleRook(squares: Cells, from: int, to: int): (r: Cells)
    requires 0 <= from < 128 && 0 <= to < 128
    requires to - from == 2 ==> to + 1 < 128
    requires to - from == -2 ==> to >= 2
    ensures r[from] == squares[from]
  {
    var offset := to - from;
    if offset == 2 then squares[to + 1 := squares[from + 1]][from + 1 := EMPTY]
    else if offset == -2 then squares[to - 2 := squares[from - 1]][from - 1 := EMPTY]
    else squares
  }

  /** Take back the last move: pop its record, put the piece (a pawn, if it
      promoted) back, restore the captured piece, side to move, en-passant
      square, half-move clock and castling rights, and undo the en-passant
      removal, the king cache and the castling rook. */
  function UndoMove(b: Board): (r: Board)
    requires UndoDefined(b)
    ensures r.history == b.history[..|b.history| - 1]
    ensures r.whiteToMove == !b.whiteToMove && r.fullMove == b.fullMove
    ensures r.ep == LastUndo(b).ep && r.halfMove == LastUndo(b).halfMove
    ensures r.castling == LastUndo(b).castling
  {
    var u := LastUndo(b);
    var s1 := b.squares[u.from := b.squares[u.to]][u.to := u.captured];
    var s2 := if u.isPromotion then s1[u.from := PAWN + Colour(s1[u.from])] else s1;
    var moved := PieceType(s2[u.from]);
    var b1 := b.(squares := s2, history := b.history[..|b.history| - 1],
                 whiteToMove := !b.whiteToMove, ep := u.ep, halfMove := u.halfMove,
                 castling := u.castling);
    if moved == PAWN && u.to == u.ep && File(u.to) != File(u.from) then
      b1.(squares := s2[EpVictim(u.from, u.to) := u.captured][u.to := EMPTY])
    else if moved == KING then
      var b2 := if Colour(s2[u.from]) == WHITE then b1.(whiteKing := u.from) else b1.(blackKing := u.from);
      b2.(squares := UncastleRook(s2, u.from, u.to))
    else b1
  }
}

=== FILE: fen.dfy ===
/** Reading and writing positions in Forsyth-Edwards Notation: six fields
    separated by spaces (placement, side to move, castling rights,
    en-passant square, half-move clock, full-move number), the placement
    giving the ranks from the eighth down, separated by slashes, each rank
    as piece letters and digit runs of empty squares. */
module Fen {
  import opened Pieces
  import opened Squares
  import opened Position
  import opened Text

  /** The zero-valued board the reader starts from. */
  function Blank(): (b: Board)
    ensures forall i | 0 <= i < 128 :: b.squares[i] == EMPTY
  {
    var cells: Cells := seq(128, i => EMPTY);
    Board(cells, false, 0, 0, 0, 0, 0, 0, [])
  }

  /** Write a piece on a cell; a king also moves its colour's cache. */
  function Place(b: Board, square: int, piece: int): (r: Board)
    requires 0 <= square < 128
    ensures r.squares == b.squares[square := piece]
    ensures r.whiteKing == if piece == WHITE + KING then square else b.whiteKing
    ensures r.blackKing == if piece == BLACK + KING then square else b.blackKing
  {
    var r := b.(squares := b.squares[square := piece]);
    if piece == WHITE + KING then r.(whiteKing := square)
    else if piece == BLACK + KING then r.(blackKing := square)
    else r
  }

  /** Read one rank's characters from `file` on: a digit skips that many
      files, any other character is read as a piece letter and written at
      `(7 - rank) * 16 + file`.  A cell outside the 128-cell array stops
      the reading (the engine would index out of range). */
  function PlaceLine(b: Board, line: string, rank: int, file: int): (r: Option<Board>)
    decreases |line|
  {
    if line == [] then Some(b)
    else
      match Atoi([line[0]])
      case Some(n) => PlaceLine(b, line[1..], rank, file + n)
      case None =>
        var piece := PieceFromNotation(line[0]);
        var square := (7 - rank) * 16 + file;
        if !(0 <= square < 128) then None
        else PlaceLine(Place(b, square, piece), line[1..], rank, file + 1)
  }

  /** Read the ranks from the `rank`-th on, the first being the eighth. */
  function PlaceRanks(b: Board, lines: seq<string>, rank: nat): (r: Option<Board>)
    decreases |lines| - rank
  {
    if rank >= |lines| then Some(b)
    else
      match PlaceLine(b, lines[rank], rank, 0)
      case None => None
      case Some(next) => PlaceRanks(next, lines, rank + 1)
  }

  /** The castling rights named by the letters of a field, in any order;
      other characters, such as `-`, name none. */
  function ReadCastling(field: string): bv4
  {
    (if 'K' in field then WHITE_KINGSIDE else 0) | (if 'Q' in field then WHITE_QUEENSIDE else 0)
    | (if 'k' in field then BLACK_KINGSIDE else 0) | (if 'q' in field then BLACK_QUEENSIDE else 0)
  }

  /** The en-passant square a field of at least two characters, or `-`,
      names: -1 for `-`. */
  function ReadEp(field: string): int
    requires field == "-" || |field| >= 2
  {
    if field == "-" then -1 else NotationToSquareIndex(field)
  }

  /** The value of an optional counter field: the number it reads as, or 0
      when it does not read as one. */
  function ReadCounter(field: string): int
  {
    match Atoi(field)
    case Some(n) => n
    case None => 0
  }

  /** `FromFEN`.  The fields after the placement are read as: side `w` or
      anything else for black; the castling letters present; `-` or a
      square name; then the clocks, whose absence gives 0 and 1 but which,
      present and unreadable, are left at 0.  No result stands for the
      engine failing: fewer than four fields, a piece outside the array, or
      an en-passant field of one character. */
  function FromFEN(fen: string): (r: Option<Board>)
    ensures |Split(fen, ' ')| < 4 ==> r.None?
    ensures r.Some? ==> r.value.history == []
    ensures r.Some? ==> (r.value.whiteToMove <==> Split(fen, ' ')[1] == "w")
    ensures r.Some? && |Split(fen, ' ')| <= 4 ==> r.value.halfMove == 0
    ensures r.Some? && |Split(fen, ' ')| <= 5 ==> r.value.fullMove == 1
    ensures r.Some? && |Split(fen, ' ')| > 5 && Atoi(Split(fen, ' ')[5]).None? ==> r.value.fullMove == 0
  {
    FromFields(Split(fen, ' '))
  }

  /** The board the fields describe, read as `FromFEN` does. */
  function FromFields(parts: seq<string>): (r: Option<Board>)
    requires |parts| >= 1
    ensures |parts| < 4 ==> r.None?
    ensures r.Some? ==> r.value.history == []
    ensures r.Some? ==> (r.value.whiteToMove <==> parts[1] == "w")
  {
    match PlaceRanks(Blank(), Split(parts[0], '/'), 0)
    case None => None
    case Some(placed) =>
      if |parts| < 4 then None
      else if parts[3] != "-" && |parts[3]| < 2 then None
      else
        var ep := ReadEp(parts[3]);
        var halfMove := if |parts| > 4 then ReadCounter(parts[4]) else 0;
        var fullMove := if |parts| > 5 then ReadCounter(parts[5]) else 1;
        Some(placed.(whiteToMove := parts[1] == "w", castling := ReadCastling(parts[2]), ep := ep,
                     halfMove := halfMove, fullMove := fullMove, history := []))
  }

  /** One rank from file `i` on with `empties` empty squares before it not
      yet written: pieces as letters, runs of empty squares as their
      count. */
  function RankText(squares: Cells, start: int, i: int, empties: int): string
    requires 0 <= start <= 0x70 && 0 <= i <= 8 && 0 <= empties
    decreases 8 - i
  {
    if i == 8 then Pending(empties)
    else if squares[start + i] == EMPTY then RankText(squares, start, i + 1, empties + 1)
    else Pending(empties) + (PieceToNotation(squares[start + i]) + RankText(squares, start, i + 1, 0))
  }

  /** The count of a run of empty squares, nothing for no run. */
  function Pending(empties: int): string
  {
    if empties > 0 then Itoa(empties) else ""
  }

  /** The ranks from the one starting at `rankStart` down to the first,
      with a slash after each but the last. */
  function PlacementText(squares: Cells, rankStart: int): string
    requires 0 <= rankStart <= 0x70 && rankStart % 16 == 0
    decreases rankStart
  {
    RankText(squares, rankStart, 0, 0) + (if rankStart > 0 then "/" + PlacementText(squares, rankStart - 16) else "")
  }

  /** The castling letters `KQkq` of the rights held, in that order. */
  function CastlingText(castling: bv4): string
  {
    (if castling & WHITE_KINGSIDE != 0 then "K" else "") + (if castling & WHITE_QUEENSIDE != 0 then "Q" else "")
    + (if castling & BLACK_KINGSIDE != 0 then "k" else "") + (if castling & BLACK_QUEENSIDE != 0 then "q" else "")
  }

  /** The en-passant field: the square's name when the square is above
      `a1`, else `-`. */
  function EpText(ep: int): string
  {
    if ep > 0 then SquareIndexToNotation(ep) else "-"
  }

  /** The six fields in order. */
  function FieldList(b: Board, castling: string): (fields: seq<string>)
    ensures |fields| == 6
  {
    [PlacementText(b.squares, 0x70), if b.whiteToMove then "w" else "b", castling,
     EpText(b.ep), Itoa(b.halfMove), Itoa(b.fullMove)]
  }

  /** The six fields separated by spaces, with `castling` as the castling
      field. */
  function Fields(b: Board, castling: string): string
  {
    Join(FieldList(b, castling), ' ')
  }

  /** `ToFEN` as the engine writes it: with no castling rights the castling
      field is left empty. */
  function ToFEN(b: Board): string
  {
    Fields(b, CastlingText(b.castling))
  }

  /** `ToFEN` with a `-` for no castling rights, as the notation has it. */
  function ToFENIntended(b: Board): string
  {
    Fields(b, CastlingField(b.castling))
  }

  /** The castling field: the letters of the rights held, or `-`. */
  function CastlingField(castling: bv4): (s: string)
    ensures s != []
  {
    if castling == 0 then "-" else CastlingText(castling)
  }

  // Reading back what was written.

  /** The cells of a rank from file `j` on. */
  function Row(start: int, j: int): (xs: seq<int>)
    requires 0 <= j <= 8
    decreases 8 - j
    ensures |xs| == 8 - j
  {
    if j == 8 then [] else [start + j] + Row(start, j + 1)
  }

  /** A rank's cells from file `j` on are the cells from `start + j` to
      the end of the rank. */
  lemma {:induction false} RowMembers(start: int, j: int, x: int)
    requires 0 <= j <= 8
    decreases 8 - j
    ensures x in Row(start, j) <==> start + j <= x < start + 8
  {
    if j < 8 {
      RowMembers(start, j + 1, x);
    }
  }

  /** The board squares of the ranks from the `rank`-th on, the first
      being the eighth, in the order FEN lists them. */
  function Rows(rank: int): (xs: seq<int>)
    requires 0 <= rank <= 8
    decreases 8 - rank
    ensures |xs| == 8 * (8 - rank)
  {
    if rank == 8 then [] else Row((7 - rank) * 16, 0) + Rows(rank + 1)
  }

  /** A square is listed from the `rank`-th rank on exactly when it is a
      board square of that rank or a lower one. */
  lemma {:induction false} RowsMembers(rank: int, x: int)
    requires 0 <= rank <= 8
    decreases 8 - rank
    ensures x in Rows(rank) <==> OnBoard(x) && x < (8 - rank) * 16
  {
    if rank < 8 {
      RowsMembers(rank + 1, x);
      RowsStep(rank, x);
    }
  }

  /** One rank more: its row joins the lower ranks' squares. */
  lemma RowsStep(rank: int, x: int)
    requires 0 <= rank < 8
    requires x in Rows(rank + 1) <==> OnBoard(x) && x < (7 - rank) * 16
    ensures x in Rows(rank) <==> OnBoard(x) && x < (8 - rank) * 16
  {
    var row := Row((7 - rank) * 16, 0);
    assert Rows(rank) == row + Rows(rank + 1);
    RowMembers((7 - rank) * 16, 0, x);
    RankCells(7 - rank, x);
  }

  /** The cells from `16 * r` to `16 * r + 7` are the board squares of
      the rank `r`. */
  lemma RankCells(r: int, x: int)
    requires 0 <= r < 8
    ensures r * 16 <= x < r * 16 + 8 <==> OnBoard(x) && r * 16 <= x < r * 16 + 16
  {
    if r * 16 <= x < r * 16 + 16 {
      assert x % 16 == x - r * 16;
    }
  }

  /** Write the listed cells' pieces from `squares`, in order, skipping
      the empty ones and any outside the array. */
  function PlaceAll(b: Board, squares: Cells, xs: seq<int>): Board
    decreases |xs|
  {
    if xs == [] then b
    else PlaceAll(if 0 <= xs[0] < 128 && squares[xs[0]] != EMPTY then Place(b, xs[0], squares[xs[0]]) else b, squares, xs[1..])
  }

  lemma {:induction false} PlaceAllAppend(b: Board, squares: Cells, xs: seq<int>, ys: seq<int>)
    decreases |xs|
    ensures PlaceAll(b, squares, xs + ys) == PlaceAll(PlaceAll(b, squares, xs), squares, ys)
  {
    if xs != [] {
      var b1 := if 0 <= xs[0] < 128 && squares[xs[0]] != EMPTY then Place(b, xs[0], squares[xs[0]]) else b;
      assert (xs + ys)[1..] == xs[1..] + ys;
      PlaceAllAppend(b1, squares, xs[1..], ys);
    } else {
      assert xs + ys == ys;
    }
  }

  /** Each cell ends up with its piece from `squares` if it is listed and
      not empty there, and keeps its content otherwise. */
  lemma {:induction false} PlaceAllCell(b: Board, squares: Cells, xs: seq<int>, x: int)
    decreases |xs|
    requires 0 <= x < 128
    ensures PlaceAll(b, squares, xs).squares[x] == if x in xs && squares[x] != EMPTY then squares[x] else b.squares[x]
  {
    if xs != [] {
      var b1 := if 0 <= xs[0] < 128 && squares[xs[0]] != EMPTY then Place(b, xs[0], squares[xs[0]]) else b;
      PlaceAllCell(b1, squares, xs[1..], x);
      assert x in xs <==> x == xs[0] || x in xs[1..];
    }
  }

  /** The king cache of one colour. */
  function Cache(b: Board, white: bool): int
  {
    if white then b.whiteKing else b.blackKing
  }

  /** The king code of one colour. */
  function KingCode(white: bool): int
  {
    if white then WHITE + KING else BLACK + KING
  }

  /** Listing no king of a colour leaves that colour's cache. */
  lemma {:induction false} PlaceAllKeepsCache(b: Board, squares: Cells, xs: seq<int>, white: bool)
    decreases |xs|
    requires forall k | 0 <= k < |xs| && 0 <= xs[k] < 128 :: squares[xs[k]] != KingCode(white)
    ensures Cache(PlaceAll(b, squares, xs), white) == Cache(b, white)
  {
    if xs != [] {
      var b1 := if 0 <= xs[0] < 128 && squares[xs[0]] != EMPTY then Place(b, xs[0], squares[xs[0]]) else b;
      PlaceAllKeepsCache(b1, squares, xs[1..], white);
    }
  }

  /** Listing a colour's king on one cell only sets the cache to it. */
  lemma {:induction false} PlaceAllFindsKing(b: Board, squares: Cells, xs: seq<int>, white: bool, x: int)
    decreases |xs|
    requires x in xs && 0 <= x < 128 && squares[x] == KingCode(white)
    requires forall k | 0 <= k < |xs| && 0 <= xs[k] < 128 && squares[xs[k]] == KingCode(white) :: xs[k] == x
    ensures Cache(PlaceAll(b, squares, xs), white) == x
  {
    var b1 := if 0 <= xs[0] < 128 && squares[xs[0]] != EMPTY then Place(b, xs[0], squares[xs[0]]) else b;
    var rest := xs[1..];
    if x in rest {
      PlaceAllFindsKing(b1, squares, rest, white, x);
    } else {
      assert xs[0] == x;
      PlaceAllKeepsCache(b1, squares, rest, white);
    }
  }

  /** Cells that are empty in `squares` are passed over. */
  lemma {:induction false} PlaceAllSkip(b: Board, squares: Cells, start: int, j: int, i: int)
    requires 0 <= start <= 0x70 && 0 <= j <= i <= 8
    requires forall x | start + j <= x < start + i :: squares[x] == EMPTY
    decreases i - j
    ensures PlaceAll(b, squares, Row(start, j)) == PlaceAll(b, squares, Row(start, i))
  {
    if j < i {
      var row := Row(start, j);
      assert row[0] == start + j && row[1..] == Row(start, j + 1);
      PlaceAllSkip(b, squares, start, j + 1, i);
    }
  }

  /** A digit skips that many files. */
  lemma PlaceLineDigit(b: Board, c: char, rest: string, rank: int, file: int)
    requires IsDigit(c)
    ensures PlaceLine(b, [c] + rest, rank, file) == PlaceLine(b, rest, rank, file + (c as int - '0' as int))
  {
    AtoiChar(c);
    assert ([c] + rest)[0] == c && ([c] + rest)[1..] == rest;
  }

  /** A piece letter is written on the current file. */
  lemma PlaceLineLetter(b: Board, c: char, rest: string, rank: int, file: int)
    requires IsPieceLetter(c) && 0 <= (7 - rank) * 16 + file < 128
    ensures PlaceLine(b, [c] + rest, rank, file)
         == PlaceLine(Place(b, (7 - rank) * 16 + file, PieceFromNotation(c)), rest, rank, file + 1)
  {
    AtoiChar(c);
    assert ([c] + rest)[0] == c && ([c] + rest)[1..] == rest;
  }

  /** Reading the count of a pending run skips that many files, from
      `file` to `next`. */
  lemma PendingSkips(b: Board, empties: int, rest: string, rank: int, file: int, next: int)
    requires 0 <= empties <= 8 && next == file + empties
    ensures PlaceLine(b, Pending(empties) + rest, rank, file) == PlaceLine(b, rest, rank, next)
  {
    if empties > 0 {
      var c := ('0' as int + empties) as char;
      assert Pending(empties) == [c];
      PlaceLineDigit(b, c, rest, rank, file);
    } else {
      assert Pending(empties) + rest == rest;
    }
  }

  /** Reading a piece's letter writes the piece on the current file, the
      cell `square` of the rank. */
  lemma LetterPlaces(b: Board, piece: int, rest: string, rank: int, file: int, square: int)
    requires ValidPiece(piece) && piece != EMPTY
    requires square == (7 - rank) * 16 + file && 0 <= square < 128
    ensures PlaceLine(b, PieceToNotation(piece) + rest, rank, file)
         == PlaceLine(Place(b, square, piece), rest, rank, file + 1)
  {
    PieceNotationRoundTrip(piece);
    var letter := PieceToNotation(piece)[0];
    assert PieceToNotation(piece) == [letter];
    PlaceLineLetter(b, letter, rest, rank, file);
  }

  /** Listing a non-empty cell first writes its piece first. */
  lemma PlaceAllFirst(b: Board, squares: Cells, start: int, i: int)
    requires 0 <= start <= 0x70 && 0 <= i < 8 && squares[start + i] != EMPTY
    ensures PlaceAll(b, squares, Row(start, i)) == PlaceAll(Place(b, start + i, squares[start + i]), squares, Row(start, i + 1))
  {
    var row := Row(start, i);
    assert row[0] == start + i && row[1..] == Row(start, i + 1);
  }

  /** Reading the text of a rank, whose cells start at `start`, from file
      `i` on, with `empties` empty squares pending from file `from` on,
      writes that rank's pieces from `from` on. */
  lemma {:induction false} RankParse(b: Board, squares: Cells, rank: int, start: int, from: int, i: int, empties: int)
    requires 0 <= rank < 8 && start == (7 - rank) * 16 && 0 <= empties <= i <= 8 && from == i - empties
    requires forall x | 0 <= x < 128 :: ValidPiece(squares[x])
    requires forall x | start + from <= x < start + i :: squares[x] == EMPTY
    decreases 8 - i
    ensures PlaceLine(b, RankText(squares, start, i, empties), rank, from) == Some(PlaceAll(b, squares, Row(start, from)))
  {
    RankStart(rank, start);
    if i == 8 {
      RankParseEnd(b, squares, rank, start, from, empties);
    } else if squares[start + i] == EMPTY {
      RankParse(b, squares, rank, start, from, i + 1, empties + 1);
      assert RankText(squares, start, i, empties) == RankText(squares, start, i + 1, empties + 1);
    } else {
      PlaceAllSkip(b, squares, start, from, i);
      var b1 := Place(b, start + i, squares[start + i]);
      RankParse(b1, squares, rank, start, i + 1, i + 1, 0);
      RankParseLetter(b, squares, rank, start, from, i, empties);
    }
  }

  /** The end of a rank: only the pending run of empty squares is left. */
  lemma RankParseEnd(b: Board, squares: Cells, rank: int, start: int, from: int, empties: int)
    requires 0 <= rank < 8 && 0 <= start <= 0x70 && 0 <= empties <= 8 && from == 8 - empties
    requires forall x | start + from <= x < start + 8 :: squares[x] == EMPTY
    ensures PlaceLine(b, RankText(squares, start, 8, empties), rank, from) == Some(PlaceAll(b, squares, Row(start, from)))
  {
    PlaceAllSkip(b, squares, start, from, 8);
    PendingSkips(b, empties, [], rank, from, 8);
    assert Pending(empties) + [] == Pending(empties);
  }

  /** The step of `RankParse` at a piece: the pending run, then the
      piece's letter, then the rest of the rank. */
  lemma RankParseLetter(b: Board, squares: Cells, rank: int, start: int, from: int, i: int, empties: int)
    requires 0 <= rank < 8 && start == (7 - rank) * 16 && 0 <= empties <= i < 8 && from == i - empties
    requires ValidPiece(squares[start + i]) && squares[start + i] != EMPTY
    requires PlaceAll(b, squares, Row(start, from)) == PlaceAll(b, squares, Row(start, i))
    requires var b1 := Place(b, start + i, squares[start + i]);
      PlaceLine(b1, RankText(squares, start, i + 1, 0), rank, i + 1) == Some(PlaceAll(b1, squares, Row(start, i + 1)))
    ensures PlaceLine(b, RankText(squares, start, i, empties), rank, from) == Some(PlaceAll(b, squares, Row(start, from)))
  {
    var piece := squares[start + i];
    var tail := RankText(squares, start, i + 1, 0);
    var text := PieceToNotation(piece) + tail;
    assert RankText(squares, start, i, empties) == Pending(empties) + text;
    PendingSkips(b, empties, text, rank, from, i);
    LetterPlaces(b, piece, tail, rank, i, start + i);
    PlaceAllFirst(b, squares, start, i);
  }

  /** The texts of the ranks from the `rank`-th on, the first being the
      eighth. */
  function RankLines(squares: Cells, rank: int): (lines: seq<string>)
    requires 0 <= rank <= 7
    decreases 7 - rank
    ensures |lines| == 8 - rank
  {
    [RankText(squares, (7 - rank) * 16, 0, 0)] + if rank < 7 then RankLines(squares, rank + 1) else []
  }

  /** The `k`-th line from the `rank`-th on is the text of the rank
      `rank + k`, whose cells start at `start`. */
  lemma {:induction false} RankLinesAt(squares: Cells, rank: int, k: int, start: int)
    requires 0 <= rank <= 7 && 0 <= k < 8 - rank && start == (7 - rank - k) * 16
    decreases k
    ensures RankLines(squares, rank)[k] == RankText(squares, start, 0, 0)
  {
    if k > 0 {
      RankLinesAt(squares, rank + 1, k - 1, start);
      RankLinesShift(squares, rank, k);
    } else {
      RankLinesFirst(squares, rank, start);
    }
  }

  /** The first line is the text of the `rank`-th rank. */
  lemma RankLinesFirst(squares: Cells, rank: int, start: int)
    requires 0 <= rank <= 7 && start == (7 - rank) * 16
    ensures RankLines(squares, rank)[0] == RankText(squares, start, 0, 0)
  {}

  /** The later lines are those from the next rank on. */
  lemma RankLinesShift(squares: Cells, rank: int, k: int)
    requires 0 <= rank < 7 && 1 <= k < 8 - rank
    ensures RankLines(squares, rank)[k] == RankLines(squares, rank + 1)[k - 1]
  {}

  /** The placement from the rank whose cells start at `start` down is
      the ranks' texts joined by slashes. */
  lemma {:induction false} PlacementLines(squares: Cells, rank: int, start: int)
    requires 0 <= rank <= 7 && start == (7 - rank) * 16
    decreases 7 - rank
    ensures PlacementText(squares, start) == Join(RankLines(squares, rank), '/')
  {
    RankStart(rank, start);
    if rank < 7 {
      PlacementLines(squares, rank + 1, start - 16);
      PlacementStep(squares, rank, start);
    }
  }

  /** The placement text from the cells at `start` down is that rank's
      text, a slash and the text of the ranks below. */
  lemma PlacementStep(squares: Cells, rank: int, start: int)
    requires 0 <= rank < 7 && start == (7 - rank) * 16
    requires 16 <= start <= 0x70 && start % 16 == 0 && (start - 16) % 16 == 0
    requires PlacementText(squares, start - 16) == Join(RankLines(squares, rank + 1), '/')
    ensures PlacementText(squares, start) == Join(RankLines(squares, rank), '/')
  {
    assert RankLines(squares, rank) == [RankText(squares, start, 0, 0)] + RankLines(squares, rank + 1);
    JoinCons(RankText(squares, start, 0, 0), RankLines(squares, rank + 1), '/');
  }

  /** Where the cells of the `rank`-th line from the top start. */
  lemma RankStart(rank: int, start: int)
    requires 0 <= rank <= 7 && start == (7 - rank) * 16
    ensures 0 <= start <= 0x70 && start % 16 == 0
    ensures rank < 7 ==> start - 16 == (7 - (rank + 1)) * 16 && 16 <= start && (start - 16) % 16 == 0
  {}

  /** A character that separates ranks or fields. */
  predicate Separator(c: char)
  {
    c == '/' || c == ' '
  }

  /** No separator occurs in `s`. */
  predicate NoSeparator(s: string)
  {
    forall k | 0 <= k < |s| :: !Separator(s[k])
  }

  /** A string without separators contains neither separator. */
  lemma NoSeparatorNotIn(s: string)
    requires NoSeparator(s)
    ensures '/' !in s && ' ' !in s
  {
  }

  /** Neither piece letters nor run counts are separators. */
  lemma RankPiecesNoSeparator(empties: int, piece: int, tail: string)
    requires 0 <= empties && ValidPiece(piece) && piece != EMPTY && NoSeparator(tail)
    ensures NoSeparator(Pending(empties)) && NoSeparator(Pending(empties) + (PieceToNotation(piece) + tail))
  {
    PieceNotationRoundTrip(piece);
    var p := Pending(empties);
    assert AllDigits(p);
    var t := p + (PieceToNotation(piece) + tail);
    forall k | 0 <= k < |t|
      ensures !Separator(t[k])
    {
      if k < |p| {
        assert IsDigit(p[k]);
      } else if k == |p| {
        assert t[k] == PieceToNotation(piece)[0];
      } else {
        assert t[k] == tail[k - |p| - 1];
      }
    }
  }

  /** A rank's text holds only digits and piece letters, so no
      separator. */
  lemma {:induction false} RankTextChars(squares: Cells, start: int, i: int, empties: int)
    requires 0 <= start <= 0x70 && 0 <= i <= 8 && 0 <= empties
    requires forall x | 0 <= x < 128 :: ValidPiece(squares[x])
    decreases 8 - i
    ensures NoSeparator(RankText(squares, start, i, empties))
  {
    if i == 8 {
      RankPiecesNoSeparator(empties, KING, []);
    } else if squares[start + i] == EMPTY {
      RankTextChars(squares, start, i + 1, empties + 1);
    } else {
      RankTextChars(squares, start, i + 1, 0);
      RankPiecesNoSeparator(empties, squares[start + i], RankText(squares, start, i + 1, 0));
    }
  }

  /** Reading the ranks' texts from the `rank`-th on writes their pieces. */
  lemma {:induction false} RanksParse(b: Board, squares: Cells, rank: int)
    requires 0 <= rank <= 8
    requires forall x | 0 <= x < 128 :: ValidPiece(squares[x])
    decreases 8 - rank
    ensures PlaceRanks(b, RankLines(squares, 0), rank) == Some(PlaceAll(b, squares, Rows(rank)))
  {
    if rank < 8 {
      var start := (7 - rank) * 16;
      RankLinesAt(squares, 0, rank, start);
      RankParse(b, squares, rank, start, 0, 0, 0);
      var next := PlaceAll(b, squares, Row(start, 0));
      RanksParse(next, squares, rank + 1);
      PlaceAllAppend(b, squares, Row(start, 0), Rows(rank + 1));
    }
  }

  /** A board whose placement reads back: every cell holds a piece code,
      the cells off the board are empty, and each colour has exactly one
      king, standing on its cache.  Castling rights and the en-passant
      square play no part, unlike in `Valid`. */
  predicate KingsPlaced(b: Board)
  {
    && (forall i | 0 <= i < 128 :: ValidPiece(b.squares[i]))
    && (forall i | 0 <= i < 128 && !OnBoard(i) :: b.squares[i] == EMPTY)
    && (forall i | 0 <= i < 128 && b.squares[i] == WHITE + KING :: i == b.whiteKing)
    && (forall i | 0 <= i < 128 && b.squares[i] == BLACK + KING :: i == b.blackKing)
    && OnBoard(b.whiteKing) && OnBoard(b.blackKing)
    && b.squares[b.whiteKing] == WHITE + KING && b.squares[b.blackKing] == BLACK + KING
  }

  /** Splitting the placement at its slashes gives the ranks' texts. */
  lemma PlacementSplit(squares: Cells)
    requires forall x | 0 <= x < 128 :: ValidPiece(squares[x])
    ensures Split(PlacementText(squares, 0x70), '/') == RankLines(squares, 0)
  {
    var lines := RankLines(squares, 0);
    forall k | 0 <= k < |lines|
      ensures '/' !in lines[k]
    {
      RankLinesAt(squares, 0, k, (7 - k) * 16);
      RankTextChars(squares, (7 - k) * 16, 0, 0);
      NoSeparatorNotIn(lines[k]);
    }
    PlacementLines(squares, 0, 0x70);
    SplitJoin(lines, '/');
  }

  /** Writing every board cell of a board with both kings on the blank
      board gives its cells and its two king squares. */
  lemma PlaceAllRows(b: Board)
    requires KingsPlaced(b)
    ensures PlaceAll(Blank(), b.squares, Rows(0))
         == Blank().(squares := b.squares, whiteKing := b.whiteKing, blackKing := b.blackKing)
  {
    var sq := b.squares;
    var rows := Rows(0);
    var placed := PlaceAll(Blank(), sq, rows);
    forall x | 0 <= x < 128
      ensures placed.squares[x] == sq[x]
    {
      PlaceAllCell(Blank(), sq, rows, x);
      RowsMembers(0, x);
    }
    RowsMembers(0, b.whiteKing);
    RowsMembers(0, b.blackKing);
    PlaceAllFindsKing(Blank(), sq, rows, true, b.whiteKing);
    PlaceAllFindsKing(Blank(), sq, rows, false, b.blackKing);
    PlaceAllFields(Blank(), sq, rows);
  }

  /** Writing cells changes only the cells and the king caches. */
  lemma {:induction false} PlaceAllFields(b: Board, squares: Cells, xs: seq<int>)
    decreases |xs|
    ensures var r := PlaceAll(b, squares, xs);
      r.whiteToMove == b.whiteToMove && r.castling == b.castling && r.ep == b.ep
      && r.fullMove == b.fullMove && r.halfMove == b.halfMove && r.history == b.history
  {
    if xs != [] {
      var b1 := if 0 <= xs[0] < 128 && squares[xs[0]] != EMPTY then Place(b, xs[0], squares[xs[0]]) else b;
      PlaceAllFields(b1, squares, xs[1..]);
    }
  }

  /** Reading back the placement of a board with both kings on the blank
      board gives its cells and its two king squares. */
  lemma PlacementRoundTrip(b: Board)
    requires KingsPlaced(b)
    ensures PlaceRanks(Blank(), Split(PlacementText(b.squares, 0x70), '/'), 0)
         == Some(Blank().(squares := b.squares, whiteKing := b.whiteKing, blackKing := b.blackKing))
  {
    PlacementSplit(b.squares);
    RanksParse(Blank(), b.squares, 0);
    PlaceAllRows(b);
  }

  /** The placement holds no space. */
  lemma {:induction false} PlacementNoSpace(squares: Cells, start: int)
    requires 0 <= start <= 0x70 && start % 16 == 0
    requires forall x | 0 <= x < 128 :: ValidPiece(squares[x])
    decreases start
    ensures ' ' !in PlacementText(squares, start)
  {
    RankTextChars(squares, start, 0, 0);
    NoSeparatorNotIn(RankText(squares, start, 0, 0));
    if start > 0 {
      PlacementNoSpace(squares, start - 16);
    }
  }

  /** A printed number holds no space. */
  lemma ItoaNoSpace(n: int)
    ensures ' ' !in Itoa(n)
  {
    var d := Decimal(if n < 0 then -n else n);
    assert AllDigits(d);
  }

  /** The castling letters hold no space and read back as the rights. */
  lemma CastlingTextRoundTrip(castling: bv4)
    ensures ' ' !in CastlingText(castling) && ' ' !in CastlingField(castling)
    ensures ReadCastling(CastlingText(castling)) == castling
    ensures ReadCastling(CastlingField(castling)) == castling
  {
    var t := CastlingText(castling);
    assert 'K' in t <==> castling & WHITE_KINGSIDE != 0;
    assert 'Q' in t <==> castling & WHITE_QUEENSIDE != 0;
    assert 'k' in t <==> castling & BLACK_KINGSIDE != 0;
    assert 'q' in t <==> castling & BLACK_QUEENSIDE != 0;
  }

  /** A board the notation describes completely: its placement reads back,
      the en-passant square is none or a board square other than a1 (which
      `EpText` writes as `-`), and the clocks are within 64 bits.  Any castling rights qualify, held with or without
      the king and rook at home. */
  predicate Printable(b: Board)
  {
    && KingsPlaced(b)
    && (b.ep == -1 || (OnBoard(b.ep) && b.ep > 0))
    && INT_MIN <= b.halfMove <= INT_MAX && INT_MIN <= b.fullMove <= INT_MAX
  }

  /** Every well-formed board with both kings on their caches and the
      clocks within 64 bits is one the notation describes completely. */
  lemma ValidPrintable(b: Board)
    requires Valid(b) && b.squares[b.whiteKing] == WHITE + KING && b.squares[b.blackKing] == BLACK + KING
    requires INT_MIN <= b.halfMove <= INT_MAX && INT_MIN <= b.fullMove <= INT_MAX
    ensures Printable(b)
  {
  }

  /** No field holds a space. */
  lemma FieldsNoSpace(b: Board, castling: string)
    requires Printable(b) && ' ' !in castling
    ensures forall k | 0 <= k < 6 :: ' ' !in FieldList(b, castling)[k]
  {
    var f := FieldList(b, castling);
    forall k | 0 <= k < 6
      ensures ' ' !in f[k]
    {
      if k == 0 {
        BoardPlacementNoSpace(b);
      } else if k == 3 {
        EpNoSpace(b);
      } else if k == 4 {
        ItoaNoSpace(b.halfMove);
      } else if k == 5 {
        ItoaNoSpace(b.fullMove);
      }
    }
  }

  /** The placement of a board whose placement reads back holds no space. */
  lemma BoardPlacementNoSpace(b: Board)
    requires KingsPlaced(b)
    ensures ' ' !in PlacementText(b.squares, 0x70)
  {
    PlacementNoSpace(b.squares, 0x70);
  }

  /** The en-passant field holds no space. */
  lemma EpNoSpace(b: Board)
    requires Printable(b)
    ensures ' ' !in EpText(b.ep)
  {
    if b.ep != -1 {
      NotationOfSquare(b.ep);
    }
  }

  /** Splitting the written fields at spaces gives the six fields. */
  lemma FieldsSplit(b: Board, castling: string)
    requires Printable(b) && ' ' !in castling
    ensures Split(Fields(b, castling), ' ') == FieldList(b, castling)
  {
    FieldsNoSpace(b, castling);
    SplitJoin(FieldList(b, castling), ' ');
  }

  /** The en-passant field reads back as the en-passant square. */
  lemma EpRoundTrip(b: Board)
    requires Printable(b)
    ensures EpText(b.ep) == "-" <==> b.ep == -1
    ensures (EpText(b.ep) == "-" || |EpText(b.ep)| >= 2) && ReadEp(EpText(b.ep)) == b.ep
  {
    if b.ep != -1 {
      assert LegalSquareIndex(b.ep);
      NotationOfSquare(b.ep);
      assert EpText(b.ep) == SquareIndexToNotation(b.ep);
    }
  }

  /** Reading back fields written with a castling field that reads as the
      board's rights gives the board, without its history. */
  lemma ReadFields(b: Board, castling: string)
    requires Printable(b) && ' ' !in castling && ReadCastling(castling) == b.castling
    ensures FromFEN(Fields(b, castling)) == Some(b.(history := []))
  {
    FieldsSplit(b, castling);
    ReadFieldList(b, castling);
  }

  /** Reading the six fields gives the board without its history. */
  lemma ReadFieldList(b: Board, castling: string)
    requires Printable(b) && ReadCastling(castling) == b.castling
    ensures FromFields(FieldList(b, castling)) == Some(b.(history := []))
  {
    var parts := FieldList(b, castling);
    var placed := Blank().(squares := b.squares, whiteKing := b.whiteKing, blackKing := b.blackKing);
    assert PlaceRanks(Blank(), Split(parts[0], '/'), 0) == Some(placed) by {
      PlacementRoundTrip(b);
    }
    assert (parts[3] == "-" || |parts[3]| >= 2) && ReadEp(parts[3]) == b.ep by {
      EpRoundTrip(b);
    }
    assert ReadCounter(parts[4]) == b.halfMove by {
      AtoiItoa(b.halfMove);
    }
    assert ReadCounter(parts[5]) == b.fullMove by {
      AtoiItoa(b.fullMove);
    }
    ReadParts(b, parts, placed);
  }

  /** Fields each of which reads as the matching part of `b` read as `b`
      without its history. */
  lemma ReadParts(b: Board, parts: seq<string>, placed: Board)
    requires |parts| == 6
    requires PlaceRanks(Blank(), Split(parts[0], '/'), 0) == Some(placed)
    requires placed == Blank().(squares := b.squares, whiteKing := b.whiteKing, blackKing := b.blackKing)
    requires (parts[1] == "w") == b.whiteToMove && ReadCastling(parts[2]) == b.castling
    requires (parts[3] == "-" || |parts[3]| >= 2) && ReadEp(parts[3]) == b.ep
    requires ReadCounter(parts[4]) == b.halfMove && ReadCounter(parts[5]) == b.fullMove
    ensures FromFields(parts) == Some(b.(history := []))
  {
  }



  /** Reading the notation of a printable board gives the board back,
      without its move history, and writing that board gives the same
      notation. */
  lemma FenRoundTrip(b: Board)
    requires Printable(b)
    ensures FromFEN(ToFENIntended(b)) == Some(b.(history := []))
    ensures FromFEN(ToFENIntended(b)).Some? && ToFENIntended(FromFEN(ToFENIntended(b)).value) == ToFENIntended(b)
  {
    CastlingTextRoundTrip(b.castling);
    ReadFields(b, CastlingField(b.castling));
  }

  /** The two kings on their home squares with white still holding the
      king-side right, though no rook stands on h1: not a well-formed
      board, yet one the notation describes completely. */
  lemma LoneKingsRoundTrip()
    ensures var b := Board(seq(128, i => if i == 0x04 then WHITE + KING else if i == 0x74 then BLACK + KING else EMPTY),
                           true, WHITE_KINGSIDE, -1, 0x74, 0x04, 1, 0, []);
      !Valid(b) && FromFEN(ToFENIntended(b)) == Some(b)
  {
    var b := Board(seq(128, i => if i == 0x04 then WHITE + KING else if i == 0x74 then BLACK + KING else EMPTY),
                   true, WHITE_KINGSIDE, -1, 0x74, 0x04, 1, 0, []);
    assert !CastlingConsistent(b) by {
      assert HasRight(b, WHITE_KINGSIDE) && b.squares[0x07] == EMPTY;
    }
    FenRoundTrip(b);
  }

  /** The engine's own notation also reads back as the board: an empty
      castling field names no rights. */
  lemma ToFENReadsBack(b: Board)
    requires Printable(b)
    ensures FromFEN(ToFEN(b)) == Some(b.(history := []))
  {
    CastlingTextRoundTrip(b.castling);
    ReadFields(b, CastlingText(b.castling));
  }

  /** With no castling rights the engine's notation has an empty castling
      field where the notation requires `-`: it differs from the intended
      text, and writing the board read from the intended text does not give
      that text back. */
  lemma ToFENDropsDash(b: Board)
    requires Printable(b) && b.castling == 0
    ensures |Split(ToFEN(b), ' ')| == 6 && Split(ToFEN(b), ' ')[2] == ""
    ensures |Split(ToFENIntended(b), ' ')| == 6 && Split(ToFENIntended(b), ' ')[2] == "-"
    ensures FromFEN(ToFENIntended(b)).Some? && ToFEN(FromFEN(ToFENIntended(b)).value) != ToFENIntended(b)
  {
    CastlingTextRoundTrip(b.castling);
    FieldsSplit(b, CastlingText(b.castling));
    FieldsSplit(b, CastlingField(b.castling));
    FenRoundTrip(b);
    assert ToFEN(b.(history := [])) == ToFEN(b);
  }
}

=== FILE: hash.dfy ===
/** Zobrist hashing: a table of 64-bit keys filled from a random stream,
    and the key of a position as the XOR of the table entries it selects. */
module Zobrist {
  import opened Bits
  import opened Pieces
  import opened Squares
  import opened Position
  import opened Evaluation
  import opened PseudoLegal
  import opened Execute
  import opened MakeUndo
  import opened MoveLaws

  /** The key table: an entry per piece code (0 to 14) and cell, one for
      white to move, one per castling bit (bit `i` is `1 << i`) and one per
      en-passant file. */
  datatype Keys = Keys(piecePosition: seq<seq<bv64>>, whiteToMove: bv64, castling: seq<bv64>, epFile: seq<bv64>)

  predicate TableShape(t: seq<seq<bv64>>)
  {
    |t| == 15 && forall c | 0 <= c < 15 :: |t[c]| == 128
  }

  predicate WellSized(keys: Keys)
  {
    TableShape(keys.piecePosition) && |keys.castling| == 4 && |keys.epFile| == 8
  }

  /** The all-zero table Go starts from. */
  function ZeroTable(): (t: seq<seq<bv64>>)
    ensures TableShape(t)
    ensures forall c, q | 0 <= c < 15 && 0 <= q < 128 :: t[c][q] == 0
  {
    seq(15, c => seq(128, q => 0))
  }

  /** The legal cells below `sq`: eight per complete rank, plus the files
      of its own rank before it. */
  function LegalBelow(sq: int): (n: int)
    requires 0 <= sq <= 128
    ensures 0 <= n <= 64
  {
    8 * (sq / 16) + (if sq % 16 < 8 then sq % 16 else 8)
  }

  /** The number of draws taken before the loop reaches `piece` and `sq`:
      two per piece type and legal cell. */
  function Draws(piece: int, sq: int): (n: int)
    requires 1 <= piece <= 7 && 0 <= sq <= 128 && (piece == 7 ==> sq == 0)
    ensures 0 <= n <= 768
  {
    2 * (64 * (piece - 1) + LegalBelow(sq))
  }

  /** The draws the whole fill takes: 768 for the pieces, one for the side
      to move, four for castling and eight for the en-passant files. */
  const STREAM_LENGTH := 781

  /** The piece type whose loop pass writes slot `code`, or 0 if none does:
      the pass for type `t` writes `t` and then `t | second`. */
  function Writer(second: int, code: int): (t: int)
    requires second == WHITE || second == BLACK
    ensures 0 <= t <= 6
  {
    if 1 <= code <= 6 then code
    else if second == WHITE && 9 <= code <= 14 then code - 8
    else 0
  }

  /** Which draw the fill leaves in slot `code` of a legal cell `q`: the
      first of its pass's two draws, or the second when it is the slot
      written second. */
  function DrawIndex(second: int, code: int, q: int): (i: int)
    requires second == WHITE || second == BLACK
    requires Writer(second, code) != 0 && LegalSquareIndex(q) && q < 128
    ensures 0 <= i < 768
  {
    var t := Writer(second, code);
    Draws(t, q) + (if code == Code(second, t) then 1 else 0)
  }

  /** Slot `code` of cell `q` is written at or after the loop position
      `piece`, `square`. */
  predicate WrittenFrom(second: int, piece: int, square: int, code: int, q: int)
    requires second == WHITE || second == BLACK
  {
    var t := Writer(second, code);
    t != 0 && LegalSquareIndex(q) && (t > piece || (t == piece && q >= square))
  }

  /** One pass of the loop body: the first draw to slot `piece`, then the
      second to slot `piece | second`, both at cell `square`. */
  function PassWrite(t: seq<seq<bv64>>, second: int, piece: int, square: int, v1: bv64, v2: bv64)
    : (r: seq<seq<bv64>>)
    requires second == WHITE || second == BLACK
    requires TableShape(t) && 1 <= piece <= 6 && 0 <= square < 128
    ensures TableShape(r)
  {
    var t1 := t[piece := t[piece][square := v1]];
    var slot := Code(second, piece);
    t1[slot := t1[slot][square := v2]]
  }

  /** After the pass at a legal cell, the slots still to be written are
      those written from the next cell on, and the pass has left the right
      draws in its own two slots. */
  lemma PassWriteStep(stream: seq<bv64>, second: int, piece: int, square: int, t: seq<seq<bv64>>)
    requires second == WHITE || second == BLACK
    requires |stream| >= STREAM_LENGTH && TableShape(t)
    requires 1 <= piece <= 6 && 0 <= square < 128 && LegalSquareIndex(square)
    ensures var next := Draws(piece, square);
      var t2 := PassWrite(t, second, piece, square, stream[next], stream[next + 1]);
      && next + 2 == Draws(piece, square + 1)
      && forall c, q | 0 <= c < 15 && 0 <= q < 128 ::
        (if WrittenFrom(second, piece, square, c, q) then stream[DrawIndex(second, c, q)] else t[c][q])
        == (if WrittenFrom(second, piece, square + 1, c, q) then stream[DrawIndex(second, c, q)] else t2[c][q])
  {
    var next := Draws(piece, square);
    var t2 := PassWrite(t, second, piece, square, stream[next], stream[next + 1]);
    forall c, q | 0 <= c < 15 && 0 <= q < 128
      ensures (if WrittenFrom(second, piece, square, c, q) then stream[DrawIndex(second, c, q)] else t[c][q])
        == (if WrittenFrom(second, piece, square + 1, c, q) then stream[DrawIndex(second, c, q)] else t2[c][q])
    {
      PassWriteCell(stream, second, piece, square, t, c, q);
    }
  }

  /** The pass at a legal cell, for one slot and cell. */
  lemma PassWriteCell(stream: seq<bv64>, second: int, piece: int, square: int, t: seq<seq<bv64>>, c: int, q: int)
    requires second == WHITE || second == BLACK
    requires |stream| >= STREAM_LENGTH && TableShape(t)
    requires 1 <= piece <= 6 && 0 <= square < 128 && LegalSquareIndex(square)
    requires 0 <= c < 15 && 0 <= q < 128
    ensures var next := Draws(piece, square);
      var t2 := PassWrite(t, second, piece, square, stream[next], stream[next + 1]);
      (if WrittenFrom(second, piece, square, c, q) then stream[DrawIndex(second, c, q)] else t[c][q])
        == (if WrittenFrom(second, piece, square + 1, c, q) then stream[DrawIndex(second, c, q)] else t2[c][q])
  {
    var next := Draws(piece, square);
    if q == square && Writer(second, c) == piece {
      assert c == piece || c == Code(second, piece);
      assert DrawIndex(second, c, q) == next + (if c == Code(second, piece) then 1 else 0);
    }
  }

  /** Cells the loop skips, and the end of a pass over all cells, take no
      draws. */
  lemma SkipStep(second: int, piece: int, square: int)
    requires second == WHITE || second == BLACK
    requires 1 <= piece <= 6 && 0 <= square <= 128
    ensures square < 128 && !LegalSquareIndex(square) ==>
      && Draws(piece, square + 1) == Draws(piece, square)
      && forall c, q | 0 <= q < 128 ::
           WrittenFrom(second, piece, square, c, q) == WrittenFrom(second, piece, square + 1, c, q)
    ensures square == 128 ==>
      && Draws(piece + 1, 0) == Draws(piece, square)
      && forall c, q | 0 <= q < 128 ::
           WrittenFrom(second, piece, square, c, q) == WrittenFrom(second, piece + 1, 0, c, q)
  {}

  /** The fill loop from `piece`, `square` on, `next` draws taken: for each
      piece type 1 to 6 and legal cell, two draws, written to slot `piece`
      and then to slot `piece | second`. */
  function Fill(stream: seq<bv64>, second: int, piece: int, square: int, next: int, t: seq<seq<bv64>>)
    : (r: seq<seq<bv64>>)
    requires second == WHITE || second == BLACK
    requires |stream| >= STREAM_LENGTH && TableShape(t)
    requires 1 <= piece <= 7 && 0 <= square <= 128 && (piece == 7 ==> square == 0)
    requires next == Draws(piece, square)
    decreases 7 - piece, 128 - square
    ensures TableShape(r)
    ensures forall c, q | 0 <= c < 15 && 0 <= q < 128 ::
      r[c][q] == if WrittenFrom(second, piece, square, c, q) then stream[DrawIndex(second, c, q)] else t[c][q]
  {
    if piece == 7 then t
    else if square == 128 then
      SkipStep(second, piece, square);
      Fill(stream, second, piece + 1, 0, next, t)
    else if !LegalSquareIndex(square) then
      SkipStep(second, piece, square);
      Fill(stream, second, piece, square + 1, next, t)
    else
      PassWriteStep(stream, second, piece, square, t);
      Fill(stream, second, piece, square + 1, next + 2,
           PassWrite(t, second, piece, square, stream[next], stream[next + 1]))
  }

  /** The keys as the engine initialises them from its random stream: two
      draws per piece type and legal cell, both written to the slot of the
      type itself (`piece | BLACK` is `piece`), then the side-to-move key,
      four castling keys and eight en-passant file keys. */
  function InitZobristKeys(stream: seq<bv64>): (keys: Keys)
    requires |stream| >= STREAM_LENGTH
    ensures WellSized(keys)
    ensures keys.whiteToMove == stream[768]
    ensures keys.castling == stream[769..773] && keys.epFile == stream[773..781]
  {
    var table := Fill(stream, BLACK, 1, 0, 0, ZeroTable());
    Keys(table, stream[768], stream[769..773], stream[773..781])
  }

  /** Under the engine's initialisation the slot of each piece type and
      legal cell holds the second draw of its pass, the first having been
      overwritten, and every other slot, every white one included, keeps
      zero. */
  lemma AsWrittenTable(stream: seq<bv64>)
    requires |stream| >= STREAM_LENGTH
    ensures forall c, q | 0 <= c < 15 && 0 <= q < 128 ::
      InitZobristKeys(stream).piecePosition[c][q] ==
        if 1 <= c <= 6 && LegalSquareIndex(q) then stream[Draws(c, q) + 1] else 0
  {
    var table := Fill(stream, BLACK, 1, 0, 0, ZeroTable());
    assert InitZobristKeys(stream).piecePosition == table;
    forall c, q | 0 <= c < 15 && 0 <= q < 128 && 1 <= c <= 6 && LegalSquareIndex(q)
      ensures table[c][q] == stream[Draws(c, q) + 1]
    {
      assert DrawIndex(BLACK, c, q) == Draws(c, q) + 1;
    }
  }

  /** The initialisation as evidently intended, the second draw going to the
      white piece's slot `piece | WHITE`. */
  function InitZobristKeysIntended(stream: seq<bv64>): (keys: Keys)
    requires |stream| >= STREAM_LENGTH
    ensures WellSized(keys)
    ensures keys.whiteToMove == stream[768]
    ensures keys.castling == stream[769..773] && keys.epFile == stream[773..781]
  {
    var table := Fill(stream, WHITE, 1, 0, 0, ZeroTable());
    Keys(table, stream[768], stream[769..773], stream[773..781])
  }

  /** Under the intended initialisation every piece code and legal cell has
      the draw of its own pass, and every other slot keeps zero. */
  lemma IntendedTable(stream: seq<bv64>)
    requires |stream| >= STREAM_LENGTH
    ensures forall c, q | 0 <= c < 15 && 0 <= q < 128 ::
      InitZobristKeysIntended(stream).piecePosition[c][q] ==
        if ValidPiece(c) && c != EMPTY && LegalSquareIndex(q) then stream[DrawIndex(WHITE, c, q)] else 0
  {
    var table := Fill(stream, WHITE, 1, 0, 0, ZeroTable());
    assert InitZobristKeysIntended(stream).piecePosition == table;
  }

  /** Under the intended initialisation every piece code and legal cell
      takes its own draw of the stream. */
  lemma IntendedDrawsDistinct(c1: int, q1: int, c2: int, q2: int)
    requires ValidPiece(c1) && c1 != EMPTY && ValidPiece(c2) && c2 != EMPTY
    requires 0 <= q1 < 128 && LegalSquareIndex(q1) && 0 <= q2 < 128 && LegalSquareIndex(q2)
    requires DrawIndex(WHITE, c1, q1) == DrawIndex(WHITE, c2, q2)
    ensures c1 == c2 && q1 == q2
  {
    var t1, t2 := Writer(WHITE, c1), Writer(WHITE, c2);
    var l1, l2 := LegalBelow(q1), LegalBelow(q2);
    var e1 := if c1 == Code(WHITE, t1) then 1 else 0;
    var e2 := if c2 == Code(WHITE, t2) then 1 else 0;
    assert 2 * (64 * (t1 - 1) + l1) + e1 == 2 * (64 * (t2 - 1) + l2) + e2;
    assert e1 == e2;
    assert l1 < 64 && l2 < 64 by {
      LegalBelowSmall(q1);
      LegalBelowSmall(q2);
    }
    assert t1 == t2 && l1 == l2;
    LegalBelowUnique(q1, q2);
  }

  /** A legal cell has fewer than 64 legal cells below it. */
  lemma LegalBelowSmall(q: int)
    requires 0 <= q < 128 && LegalSquareIndex(q)
    ensures LegalBelow(q) < 64
  {
    assert q % 256 == q;
  }

  /** Distinct legal cells have different counts of legal cells below. */
  lemma LegalBelowUnique(q1: int, q2: int)
    requires 0 <= q1 < 128 && LegalSquareIndex(q1) && 0 <= q2 < 128 && LegalSquareIndex(q2)
    requires LegalBelow(q1) == LegalBelow(q2)
    ensures q1 == q2
  {
    assert q1 % 256 == q1 && q2 % 256 == q2;
    assert 8 * (q1 / 16) + q1 % 16 == 8 * (q2 / 16) + q2 % 16;
    assert q1 / 16 == q2 / 16;
  }

  /** Every board square holds a code the key table has a slot for. */
  predicate CodesInTable(s: Cells)
  {
    forall sq | 0 <= sq < 128 && OnBoard(sq) :: 0 <= s[sq] < 15
  }

  /** The key of what stands on a board square. */
  function CellKey(keys: Keys, s: Cells, sq: int): bv64
    requires WellSized(keys) && CodesInTable(s) && OnBoard(sq)
  {
    keys.piecePosition[s[sq]][sq]
  }

  /** The XOR of the cell keys of the first `k` board squares. */
  function SquaresKey(keys: Keys, s: Cells, k: int): bv64
    requires WellSized(keys) && CodesInTable(s) && 0 <= k <= 64
  {
    if k == 0 then 0
    else
      BoardSquareOnto(k - 1);
      Xor(SquaresKey(keys, s, k - 1), CellKey(keys, s, BoardSquare(k - 1)))
  }

  /** The castling bit `1 << i`. */
  function CastlingBit(i: int): (bit: bv4)
    requires 0 <= i < 4
  {
    [1, 2, 4, 8][i]
  }

  /** Bit `i` of the castling rights is set. */
  predicate HoldsRight(castling: bv4, i: int)
    requires 0 <= i < 4
  {
    castling & CastlingBit(i) != 0
  }

  /** The XOR of the castling keys of the rights among the first `i` bits. */
  function CastlingKey(keys: Keys, castling: bv4, i: int): bv64
    requires WellSized(keys) && 0 <= i <= 4
  {
    if i == 0 then 0
    else Xor(CastlingKey(keys, castling, i - 1), if HoldsRight(castling, i - 1) then keys.castling[i - 1] else 0)
  }

  /** The en-passant key: that of the square's file (`ep & 7`) when the
      square is set. */
  function EpKey(keys: Keys, ep: int): bv64
    requires WellSized(keys)
  {
    if ep > 0 then keys.epFile[ep % 8] else 0
  }

  /** The key of a position: the XOR of its cell keys, the side-to-move key
      when white is to move, the keys of its castling rights and the key of
      its en-passant file. */
  function Key(keys: Keys, b: Board): bv64
    requires WellSized(keys) && CodesInTable(b.squares)
  {
    Xor(Xor(Xor(SquaresKey(keys, b.squares, 64), if b.whiteToMove then keys.whiteToMove else 0),
            CastlingKey(keys, b.castling, 4)),
        EpKey(keys, b.ep))
  }

  /** The engine's double loop over ranks and files, XOR-ing in the key of
      each cell's contents. */
  method SquaresHash(keys: Keys, s: Cells) returns (key: bv64)
    requires WellSized(keys) && CodesInTable(s)
    ensures key == SquaresKey(keys, s, 64)
  {
    key := 0;
    var rank := 0;
    while rank < 8
      invariant 0 <= rank <= 8
      invariant key == SquaresKey(keys, s, 8 * rank)
    {
      var file := 0;
      while file < 8
        invariant 0 <= file <= 8
        invariant key == SquaresKey(keys, s, 8 * rank + file)
      {
        var square := 16 * rank + file;  // `rank<<4 | file`
        RankFileSquare(rank, file);
        key := Xor(key, keys.piecePosition[s[square]][square]);
        file := file + 1;
      }
      assert 8 * rank + 8 == 8 * (rank + 1);
      rank := rank + 1;
    }
  }

  /** The engine's loop over the four castling bits, XOR-ing in the key of
      each right held. */
  method CastlingHash(keys: Keys, castling: bv4) returns (rights: bv64)
    requires WellSized(keys)
    ensures rights == CastlingKey(keys, castling, 4)
  {
    rights := 0;
    var i := 0;
    while i < 4
      invariant 0 <= i <= 4
      invariant rights == CastlingKey(keys, castling, i)
    {
      if castling & CastlingBit(i) != 0 {
        assert HoldsRight(castling, i);
        rights := Xor(rights, keys.castling[i]);
      } else {
        XorZero(rights);
      }
      i := i + 1;
    }
  }

  /** The engine's key computation: the cell keys, then the side, castling
      and en-passant keys. */
  method CalculateZobristHash(keys: Keys, b: Board) returns (key: bv64)
    requires WellSized(keys) && CodesInTable(b.squares)
    ensures key == Key(keys, b)
  {
    key := SquaresHash(keys, b.squares);
    ghost var cells := key;
    ghost var side: bv64 := if b.whiteToMove then keys.whiteToMove else 0;
    if b.whiteToMove {
      key := Xor(key, keys.whiteToMove);
    } else {
      XorZero(key);
    }
    assert key == Xor(cells, side);
    var rights := CastlingHash(keys, b.castling);
    key := Xor(key, rights);
    ghost var withRights := key;
    ghost var ep: bv64 := EpKey(keys, b.ep);
    if b.ep > 0 {
      key := Xor(key, keys.epFile[b.ep % 8]);  // `ep & 7`
    } else {
      XorZero(key);
    }
    assert key == Xor(withRights, ep);
    KeyParts(keys, b, cells, side, rights, ep);
  }

  /** A key is the XOR of its four parts. */
  lemma KeyParts(keys: Keys, b: Board, cells: bv64, side: bv64, rights: bv64, ep: bv64)
    requires WellSized(keys) && CodesInTable(b.squares)
    requires cells == SquaresKey(keys, b.squares, 64)
    requires side == if b.whiteToMove then keys.whiteToMove else 0
    requires rights == CastlingKey(keys, b.castling, 4)
    requires ep == EpKey(keys, b.ep)
    ensures Key(keys, b) == Xor(Xor(Xor(cells, side), rights), ep)
  {}

  /** Changing one of the four parts of a key by `d` changes the key by
      `d`. */
  lemma XorPart(s: bv64, w: bv64, c: bv64, e: bv64, d: bv64)
    ensures Xor(Xor(Xor(Xor(s, d), w), c), e) == Xor(Xor(Xor(Xor(s, w), c), e), d)
    ensures Xor(Xor(Xor(s, Xor(w, d)), c), e) == Xor(Xor(Xor(Xor(s, w), c), e), d)
    ensures Xor(Xor(Xor(s, w), c), Xor(e, d)) == Xor(Xor(Xor(Xor(s, w), c), e), d)
  {
    XorSwap(s, d, w);
    XorSwap(Xor(s, w), d, c);
    XorSwap(Xor(Xor(s, w), c), d, e);
    XorAssoc(s, w, d);
    XorAssoc(Xor(Xor(s, w), c), e, d);
  }

  /** The key difference of what stands on a square before and after. */
  function CellDelta(keys: Keys, s: Cells, sq: int, p: int): bv64
    requires WellSized(keys) && CodesInTable(s) && OnBoard(sq) && 0 <= p < 15
  {
    Xor(keys.piecePosition[s[sq]][sq], keys.piecePosition[p][sq])
  }

  /** Writing one board square changes the XOR of any prefix that covers it
      by that square's difference, and leaves other prefixes alone. */
  lemma {:induction false} SquaresKeyWrite(keys: Keys, s: Cells, sq: int, p: int, k: int)
    requires WellSized(keys) && CodesInTable(s) && OnBoard(sq) && 0 <= p < 15 && 0 <= k <= 64
    ensures CodesInTable(s[sq := p])
    ensures SquaresKey(keys, s[sq := p], k) ==
      if BoardIndex(sq) < k then Xor(SquaresKey(keys, s, k), CellDelta(keys, s, sq, p)) else SquaresKey(keys, s, k)
  {
    var s' := s[sq := p];
    var d := CellDelta(keys, s, sq, p);
    if k > 0 {
      SquaresKeyWrite(keys, s, sq, p, k - 1);
      var q := BoardSquare(k - 1);
      BoardIndexOfSquare(k - 1);
      var before := SquaresKey(keys, s, k - 1);
      if q == sq {
        XorSelf(keys.piecePosition[s[sq]][sq], keys.piecePosition[s[sq]][sq]);
        XorAssoc(before, keys.piecePosition[s[sq]][sq], d);
        XorComm(keys.piecePosition[s[sq]][sq], keys.piecePosition[p][sq]);
        XorSelf(keys.piecePosition[p][sq], keys.piecePosition[s[sq]][sq]);
      } else if BoardIndex(sq) < k - 1 {
        var c := CellKey(keys, s, q);
        XorAssoc(before, d, c);
        XorComm(d, c);
        XorAssoc(before, c, d);
      }
    }
  }

  /** Writing a board square changes the key by that square's
      difference. */
  lemma KeyAfterWrite(keys: Keys, b: Board, sq: int, p: int)
    requires WellSized(keys) && CodesInTable(b.squares) && OnBoard(sq) && 0 <= p < 15
    ensures CodesInTable(b.squares[sq := p])
    ensures Key(keys, b.(squares := b.squares[sq := p])) == Xor(Key(keys, b), CellDelta(keys, b.squares, sq, p))
  {
    SquaresKeyWrite(keys, b.squares, sq, p, 64);
    XorPart(SquaresKey(keys, b.squares, 64), if b.whiteToMove then keys.whiteToMove else 0,
            CastlingKey(keys, b.castling, 4), EpKey(keys, b.ep), CellDelta(keys, b.squares, sq, p));
  }

  /** Handing the move to the other side toggles the side-to-move key. */
  lemma KeySideToggle(keys: Keys, b: Board)
    requires WellSized(keys) && CodesInTable(b.squares)
    ensures Key(keys, b.(whiteToMove := !b.whiteToMove)) == Xor(Key(keys, b), keys.whiteToMove)
  {
    var w := if b.whiteToMove then keys.whiteToMove else 0;
    XorZero(keys.whiteToMove);
    XorSelf(0, keys.whiteToMove);
    XorPart(SquaresKey(keys, b.squares, 64), w, CastlingKey(keys, b.castling, 4), EpKey(keys, b.ep), keys.whiteToMove);
  }

  /** Flipping castling bit `i` flips whether right `i` is held and leaves
      the other rights as they were. */
  lemma HoldsRightToggle(castling: bv4, i: int, j: int)
    requires 0 <= i < 4 && 0 <= j < 4
    ensures HoldsRight(castling ^ CastlingBit(i), j) == (if j == i then !HoldsRight(castling, j) else HoldsRight(castling, j))
  {}

  /** Over the first `n` bits, flipping bit `i` toggles the castling key of
      right `i` when that bit is among them and changes nothing otherwise. */
  lemma {:induction false} CastlingKeyToggle(keys: Keys, castling: bv4, i: int, n: int)
    requires WellSized(keys) && 0 <= i < 4 && 0 <= n <= 4
    ensures CastlingKey(keys, castling ^ CastlingBit(i), n)
      == if i < n then Xor(CastlingKey(keys, castling, n), keys.castling[i]) else CastlingKey(keys, castling, n)
  {
    if n > 0 {
      CastlingKeyToggle(keys, castling, i, n - 1);
      HoldsRightToggle(castling, i, n - 1);
      var before := CastlingKey(keys, castling, n - 1);
      var k := keys.castling[i];
      var t := if HoldsRight(castling, n - 1) then keys.castling[n - 1] else 0;
      if n - 1 == i {
        if HoldsRight(castling, i) {
          XorZero(before);
          XorSelf(before, k);
        } else {
          XorZero(before);
        }
      } else if i < n - 1 {
        XorSwap(before, k, t);
      }
    }
  }

  /** Toggling castling right `i` toggles exactly its key. */
  lemma KeyCastlingToggle(keys: Keys, b: Board, i: int)
    requires WellSized(keys) && CodesInTable(b.squares) && 0 <= i < 4
    ensures Key(keys, b.(castling := b.castling ^ CastlingBit(i))) == Xor(Key(keys, b), keys.castling[i])
  {
    CastlingKeyToggle(keys, b.castling, i, 4);
    XorPart(SquaresKey(keys, b.squares, 64), if b.whiteToMove then keys.whiteToMove else 0,
            CastlingKey(keys, b.castling, 4), EpKey(keys, b.ep), keys.castling[i]);
    XorAssoc(Xor(SquaresKey(keys, b.squares, 64), if b.whiteToMove then keys.whiteToMove else 0),
             CastlingKey(keys, b.castling, 4), keys.castling[i]);
    XorSwap(Xor(Xor(SquaresKey(keys, b.squares, 64), if b.whiteToMove then keys.whiteToMove else 0),
                CastlingKey(keys, b.castling, 4)), keys.castling[i], EpKey(keys, b.ep));
  }

  /** Moving the en-passant square swaps the old file key for the new. */
  lemma KeyEpChange(keys: Keys, b: Board, ep: int)
    requires WellSized(keys) && CodesInTable(b.squares)
    ensures Key(keys, b.(ep := ep)) == Xor(Key(keys, b), Xor(EpKey(keys, b.ep), EpKey(keys, ep)))
  {
    var e := EpKey(keys, b.ep);
    XorAssoc(e, e, EpKey(keys, ep));
    XorSelf(0, e);
    XorZero(e);
    XorZero(EpKey(keys, ep));
    assert Xor(e, Xor(e, EpKey(keys, ep))) == EpKey(keys, ep) by {
      XorComm(e, e);
      XorSelf(EpKey(keys, ep), e);
      XorAssoc(EpKey(keys, ep), e, e);
      XorComm(EpKey(keys, ep), Xor(e, e));
    }
    XorPart(SquaresKey(keys, b.squares, 64), if b.whiteToMove then keys.whiteToMove else 0,
            CastlingKey(keys, b.castling, 4), e, Xor(e, EpKey(keys, ep)));
  }

  /** A piece placed on an empty square whose empty slot holds zero changes
      the key by the piece's own entry. */
  lemma PlaceOnEmpty(keys: Keys, b: Board, sq: int, p: int)
    requires WellSized(keys) && CodesInTable(b.squares) && OnBoard(sq) && 0 <= p < 15
    requires b.squares[sq] == EMPTY && keys.piecePosition[EMPTY][sq] == 0
    ensures CodesInTable(b.squares[sq := p])
    ensures Key(keys, b.(squares := b.squares[sq := p])) == Xor(Key(keys, b), keys.piecePosition[p][sq])
  {
    KeyAfterWrite(keys, b, sq, p);
    XorZero(keys.piecePosition[p][sq]);
  }

  /** The engine's table on a board square: nothing for an empty square or
      a white piece. */
  lemma AsWrittenEntries(stream: seq<bv64>, sq: int, p: int)
    requires |stream| >= STREAM_LENGTH && OnBoard(sq) && 9 <= p <= 14
    ensures InitZobristKeys(stream).piecePosition[EMPTY][sq] == 0
    ensures InitZobristKeys(stream).piecePosition[p][sq] == 0
  {
    AsWrittenTable(stream);
  }

  /** The intended table on a board square: nothing for an empty square, the
      draw of the piece's code and square for a piece. */
  lemma IntendedEntries(stream: seq<bv64>, sq: int, p: int)
    requires |stream| >= STREAM_LENGTH && OnBoard(sq) && ValidPiece(p) && p != EMPTY
    ensures InitZobristKeysIntended(stream).piecePosition[EMPTY][sq] == 0
    ensures InitZobristKeysIntended(stream).piecePosition[p][sq] == PieceDraw(stream, p, sq)
  {
    OnBoardIsLegal(sq);
    IntendedTable(stream);
  }

  /** Under the engine's keys a white piece placed on an empty square leaves
      the key as it was: white pieces are invisible to the hash. */
  lemma WhitePieceIgnored(stream: seq<bv64>, b: Board, sq: int, p: int)
    requires |stream| >= STREAM_LENGTH && CodesInTable(b.squares) && OnBoard(sq)
    requires b.squares[sq] == EMPTY && 9 <= p <= 14
    ensures var keys := InitZobristKeys(stream);
      Key(keys, b.(squares := b.squares[sq := p])) == Key(keys, b)
  {
    var keys := InitZobristKeys(stream);
    AsWrittenEntries(stream, sq, p);
    PlaceOnEmpty(keys, b, sq, p);
    XorZero(Key(keys, b));
  }

  /** The stream draw the intended fill leaves in slot `p` of board square
      `sq`. */
  function PieceDraw(stream: seq<bv64>, p: int, sq: int): bv64
    requires |stream| >= STREAM_LENGTH && OnBoard(sq) && ValidPiece(p) && p != EMPTY
  {
    OnBoardIsLegal(sq);
    stream[DrawIndex(WHITE, p, sq)]
  }

  /** Under the intended keys every piece placed on an empty square changes
      the key by the stream draw of its own code and square. */
  lemma PiecePlacedChangesKey(stream: seq<bv64>, b: Board, sq: int, p: int)
    requires |stream| >= STREAM_LENGTH && CodesInTable(b.squares) && OnBoard(sq)
    requires b.squares[sq] == EMPTY && ValidPiece(p) && p != EMPTY
    ensures var keys := InitZobristKeysIntended(stream);
      Key(keys, b.(squares := b.squares[sq := p])) == Xor(Key(keys, b), PieceDraw(stream, p, sq))
  {
    var keys := InitZobristKeysIntended(stream);
    IntendedEntries(stream, sq, p);
    PlaceOnEmpty(keys, b, sq, p);
  }

  /** A pawn's double push changes the key by the pawn's keys on both
      squares, the side-to-move key, and the swap of en-passant file keys. */
  lemma DoublePushKey(keys: Keys, b: Board, m: Move)
    requires WellSized(keys) && CodesInTable(b.squares)
    requires OnBoard(m.from) && OnBoard(m.to) && (m.to - m.from == 32 || m.to - m.from == -32)
    requires PieceType(b.squares[m.from]) == PAWN && b.squares[m.to] == EMPTY && m.promotion == EMPTY
    ensures MakeMoveDefined(b, m) && CodesInTable(MakeMove(b, m).squares)
    ensures var p := b.squares[m.from];
      Key(keys, MakeMove(b, m)) ==
        Xor(Xor(Xor(Xor(Key(keys, b), Xor(keys.piecePosition[EMPTY][m.to], keys.piecePosition[p][m.to])),
                    Xor(keys.piecePosition[p][m.from], keys.piecePosition[EMPTY][m.from])),
                keys.whiteToMove),
            Xor(EpKey(keys, b.ep), EpKey(keys, (m.from + m.to) / 2)))
  {
    var p := b.squares[m.from];
    var mid := (m.from + m.to) / 2;
    DoublePushShape(b, m);
    var b1 := b.(squares := b.squares[m.to := p]);
    KeyAfterWrite(keys, b, m.to, p);
    var b2 := b1.(squares := b1.squares[m.from := EMPTY]);
    KeyAfterWrite(keys, b1, m.from, EMPTY);
    var b3 := b2.(whiteToMove := !b.whiteToMove);
    KeySideToggle(keys, b2);
    KeyEpChange(keys, b3, mid);
    SameKey(keys, MakeMove(b, m), b3.(ep := mid));
  }

  /** What a pawn's double push leaves on the board: the pawn moved, the
      other side to move, the square passed over as en-passant square. */
  lemma DoublePushShape(b: Board, m: Move)
    requires OnBoard(m.from) && OnBoard(m.to) && (m.to - m.from == 32 || m.to - m.from == -32)
    requires PieceType(b.squares[m.from]) == PAWN && b.squares[m.to] == EMPTY && m.promotion == EMPTY
    ensures MakeMoveDefined(b, m)
    ensures MakeMove(b, m).squares == b.squares[m.to := b.squares[m.from]][m.from := EMPTY]
    ensures MakeMove(b, m).castling == b.castling && MakeMove(b, m).whiteToMove == !b.whiteToMove
    ensures MakeMove(b, m).ep == (m.from + m.to) / 2
  {
    MadeSimple(b, m);
    EpAfterMove(b, m);
  }

  /** The key reads only the squares, the side to move, the castling
      rights and the en-passant square. */
  lemma SameKey(keys: Keys, x: Board, y: Board)
    requires WellSized(keys) && CodesInTable(x.squares)
    requires x.squares == y.squares && x.whiteToMove == y.whiteToMove
    requires x.castling == y.castling && x.ep == y.ep
    ensures CodesInTable(y.squares) && Key(keys, x) == Key(keys, y)
  {}

  /** A double push from a position without an en-passant square, by a pawn
      whose keys are zero on both squares, changes the key only by the
      side-to-move key and the key of the file passed over. */
  lemma ZeroPawnDoublePushKey(keys: Keys, b: Board, m: Move)
    requires WellSized(keys) && CodesInTable(b.squares) && b.ep == -1
    requires OnBoard(m.from) && OnBoard(m.to) && m.to - m.from == 32
    requires PieceType(b.squares[m.from]) == PAWN && b.squares[m.to] == EMPTY && m.promotion == EMPTY
    requires keys.piecePosition[b.squares[m.from]][m.from] == 0 && keys.piecePosition[b.squares[m.from]][m.to] == 0
    requires keys.piecePosition[EMPTY][m.from] == 0 && keys.piecePosition[EMPTY][m.to] == 0
    ensures MakeMoveDefined(b, m) && CodesInTable(MakeMove(b, m).squares)
    ensures Key(keys, MakeMove(b, m)) == Xor(Xor(Key(keys, b), keys.whiteToMove), keys.epFile[m.from % 8])
  {
    DoublePushKey(keys, b, m);
    PassedFileKey(keys, m);
    ZeroCellsChain(Key(keys, b), keys.whiteToMove, keys.epFile[m.from % 8]);
  }

  /** The square a white double push passes over is on the pawn's file. */
  lemma PassedFileKey(keys: Keys, m: Move)
    requires WellSized(keys) && OnBoard(m.from) && m.to - m.from == 32
    ensures EpKey(keys, (m.from + m.to) / 2) == keys.epFile[m.from % 8]
  {
    assert (m.from + m.to) / 2 == m.from + 16;
  }

  /** Zero cell keys and a zero old en-passant key drop out of the chain. */
  lemma ZeroCellsChain(k: bv64, w: bv64, e: bv64)
    ensures Xor(Xor(Xor(Xor(k, Xor(0, 0)), Xor(0, 0)), w), Xor(0, e)) == Xor(Xor(k, w), e)
  {
    XorZero(0);
    XorZero(k);
    XorZero(e);
  }

  /** The engine's own check on its keys: white's double push changes the
      key only by the side-to-move key and the en-passant file key, because
      the white pawn contributes nothing. */
  lemma WhiteDoublePushKey(stream: seq<bv64>, b: Board, m: Move)
    requires |stream| >= STREAM_LENGTH && CodesInTable(b.squares) && b.ep == -1
    requires OnBoard(m.from) && OnBoard(m.to) && m.to - m.from == 32
    requires b.squares[m.from] == WHITE + PAWN && b.squares[m.to] == EMPTY && m.promotion == EMPTY
    ensures MakeMoveDefined(b, m) && CodesInTable(MakeMove(b, m).squares)
    ensures var keys := InitZobristKeys(stream);
      Key(keys, MakeMove(b, m)) == Xor(Xor(Key(keys, b), keys.whiteToMove), keys.epFile[m.from % 8])
  {
    AsWrittenEntries(stream, m.from, WHITE + PAWN);
    AsWrittenEntries(stream, m.to, WHITE + PAWN);
    ZeroPawnDoublePushKey(InitZobristKeys(stream), b, m);
  }

  /** A well-formed board holds only codes the table has slots for. */
  lemma ValidCodesInTable(b: Board)
    requires Valid(b)
    ensures CodesInTable(b.squares)
  {}

  /** Making a pseudo-legal move and taking it back restores the key. */
  lemma KeyRestoredByUndo(keys: Keys, b: Board, m: Move)
    requires WellSized(keys) && Valid(b) && Pseudo(b, m)
    ensures MakeMoveDefined(b, m) && UndoDefined(MakeMove(b, m))
    ensures CodesInTable(UndoMove(MakeMove(b, m)).squares)
    ensures Key(keys, UndoMove(MakeMove(b, m))) == Key(keys, b)
  {
    MakeUndoRoundTrip(b, m);
    ValidCodesInTable(b);
  }
}


=== FILE: laws.dfy ===
/** What a move does to the en-passant square and the castling rights, and
    that pseudo-legal moves keep a board well formed. */
module MoveLaws {
  import opened Pieces
  import opened Squares
  import opened Position
  import opened Attacks
  import opened MoveGen
  import opened PseudoLegal
  import opened Execute
  import opened MakeUndo

  /** The code that lands on the target: the mover, or its promotion. */
  function Placed(b: Board, m: Move): int
    requires 0 <= m.from < 128
  {
    if m.promotion == EMPTY then b.squares[m.from] else m.promotion
  }

  /** A move of a piece other than a king, and not an en-passant capture,
      touches only its two squares. */
  lemma MadeSimple(b: Board, m: Move)
    requires MakeMoveDefined(b, m)
    requires PieceType(b.squares[m.from]) != KING
    requires PieceType(b.squares[m.from]) == PAWN ==> !IsEpCapture(b, m)
    ensures MakeMove(b, m).squares == b.squares[m.to := Placed(b, m)][m.from := EMPTY]
    ensures MakeMove(b, m).whiteKing == b.whiteKing && MakeMove(b, m).blackKing == b.blackKing
  {}

  /** An en-passant capture also empties the square of the pawn taken. */
  lemma MadeEp(b: Board, m: Move)
    requires MakeMoveDefined(b, m)
    requires PieceType(b.squares[m.from]) == PAWN && IsEpCapture(b, m)
    ensures MakeMove(b, m).squares ==
      b.squares[EpVictim(m.from, m.to) := EMPTY][m.to := Placed(b, m)][m.from := EMPTY]
    ensures MakeMove(b, m).whiteKing == b.whiteKing && MakeMove(b, m).blackKing == b.blackKing
  {}

  /** After a move the en-passant square is the square a pawn passed over
      by moving two ranks, and unset after any other move. */
  lemma EpAfterMove(b: Board, m: Move)
    requires MakeMoveDefined(b, m)
    ensures MakeMove(b, m).ep ==
      if PieceType(b.squares[m.from]) == PAWN && (m.to - m.from == 32 || m.to - m.from == -32)
      then (m.from + m.to) / 2
      else -1
  {
    if m.to - m.from == 32 || m.to - m.from == -32 {
      assert File(m.to) == File(m.from);
    }
  }

  /** Whether a move takes away `colour`'s right on `corner`: that colour's
      king moves; the side to move, being `colour`, moves a rook off the
      corner; or a piece of the other colour lands on the corner while it
      holds a rook (or anything the rook bit test takes for one). */
  predicate LosesRight(b: Board, m: Move, colour: int, corner: int)
    requires 0 <= m.from < 128 && 0 <= m.to < 128
  {
    var p := b.squares[m.from];
    || (PieceType(p) == KING && Colour(p) == colour)
    || (PieceType(p) == ROOK && ColourToMove(b) == colour && m.from == corner)
    || (RookBitSet(b.squares[m.to]) && Colour(p) != colour && m.to == corner)
  }

  /** The rights after the piece-specific step: a king drops its colour's
      two, a rook leaving a corner drops that corner's. */
  function StageRights(b: Board, m: Move): bv4
    requires 0 <= m.from < 128
  {
    var p := b.squares[m.from];
    if PieceType(p) == KING then KingMovedRights(b.castling, Colour(p))
    else if PieceType(p) == ROOK then RookMovedRights(b, m.from)
    else b.castling
  }

  lemma MadeRights(b: Board, m: Move)
    requires MakeMoveDefined(b, m)
    requires PieceType(b.squares[m.from]) == PAWN && IsEpCapture(b, m) ==> Rank(m.from) != Rank(m.to)
    ensures MakeMove(b, m).castling == CapturedRookRights(b.(castling := StageRights(b, m)), m)
  {
    var p := b.squares[m.from];
    var undo := MoveUndo(m.from, m.to, m.promotion != EMPTY, b.squares[m.to], b.ep, b.halfMove, b.castling);
    var st := PieceStage(b, m, undo);
    assert MakeMove(b, m).castling == CapturedRookRights(st.board, m);
    StageCastling(b, m, undo);
    StageKeepsTarget(b, m, undo);
    CapturedRookRightsFrom(st.board, b.(castling := StageRights(b, m)), m);
  }

  /** The piece step leaves the rights `StageRights` describes. */
  lemma StageCastling(b: Board, m: Move, undo: MoveUndo)
    requires MakeMoveDefined(b, m)
    ensures PieceStage(b, m, undo).board.castling == StageRights(b, m)
  {
    if PieceType(b.squares[m.from]) == KING {
      assert PieceStage(b, m, undo).board == KingStage(b, m);
    }
  }

  /** The piece step leaves the target cell alone (an en-passant victim
      sits beside it, a castling rook on another cell). */
  lemma StageKeepsTarget(b: Board, m: Move, undo: MoveUndo)
    requires MakeMoveDefined(b, m)
    requires PieceType(b.squares[m.from]) == PAWN && IsEpCapture(b, m) ==> Rank(m.from) != Rank(m.to)
    ensures PieceStage(b, m, undo).board.squares[m.to] == b.squares[m.to]
  {
    var p := b.squares[m.from];
    var st := PieceStage(b, m, undo);
    if PieceType(p) == KING {
      assert st.board.squares == CastleRook(b.squares, m.from, m.to);
    } else if PieceType(p) == PAWN && IsEpCapture(b, m) {
      assert EpVictim(m.from, m.to) != m.to;
    }
  }

  /** The capture step looks only at the rights and the two cells. */
  lemma CapturedRookRightsFrom(b1: Board, b2: Board, m: Move)
    requires 0 <= m.from < 128 && 0 <= m.to < 128
    requires b1.castling == b2.castling
    requires b1.squares[m.from] == b2.squares[m.from] && b1.squares[m.to] == b2.squares[m.to]
    ensures CapturedRookRights(b1, m) == CapturedRookRights(b2, m)
  {}

  /** The king step, right by right. */
  lemma KingRights(c: bv4, colour: int)
    requires colour == WHITE || colour == BLACK
    ensures var r := KingMovedRights(c, colour);
      && (r & 8 != 0 <==> c & 8 != 0 && colour != WHITE)
      && (r & 4 != 0 <==> c & 4 != 0 && colour != WHITE)
      && (r & 2 != 0 <==> c & 2 != 0 && colour != BLACK)
      && (r & 1 != 0 <==> c & 1 != 0 && colour != BLACK)
  {}

  /** The rook step, right by right. */
  lemma RookRights(b: Board, from: int)
    ensures var r := RookMovedRights(b, from);
      && (r & 8 != 0 <==> b.castling & 8 != 0 && !(b.whiteToMove && from == 0x07))
      && (r & 4 != 0 <==> b.castling & 4 != 0 && !(b.whiteToMove && from == 0x00))
      && (r & 2 != 0 <==> b.castling & 2 != 0 && !(!b.whiteToMove && from == 0x77))
      && (r & 1 != 0 <==> b.castling & 1 != 0 && !(!b.whiteToMove && from == 0x70))
  {}

  /** The capture step, right by right. */
  lemma CapturedRights(b: Board, m: Move)
    requires 0 <= m.from < 128 && 0 <= m.to < 128
    ensures var r := CapturedRookRights(b, m);
      var taken := RookBitSet(b.squares[m.to]);
      var white := Colour(b.squares[m.from]) == WHITE;
      && (r & 8 != 0 <==> b.castling & 8 != 0 && !(taken && !white && m.to == 0x07))
      && (r & 4 != 0 <==> b.castling & 4 != 0 && !(taken && !white && m.to == 0x00))
      && (r & 2 != 0 <==> b.castling & 2 != 0 && !(taken && white && m.to == 0x77))
      && (r & 1 != 0 <==> b.castling & 1 != 0 && !(taken && white && m.to == 0x70))
  {}

  /** Castling rights after a move, right by right: a right survives
      exactly when it was held and the move does not take it away. */
  lemma CastlingAfterMove(b: Board, m: Move)
    requires MakeMoveDefined(b, m)
    requires PieceType(b.squares[m.from]) == PAWN && IsEpCapture(b, m) ==> Rank(m.from) != Rank(m.to)
    ensures var a := MakeMove(b, m);
      && (HasRight(a, WHITE_KINGSIDE) <==> HasRight(b, WHITE_KINGSIDE) && !LosesRight(b, m, WHITE, 0x07))
      && (HasRight(a, WHITE_QUEENSIDE) <==> HasRight(b, WHITE_QUEENSIDE) && !LosesRight(b, m, WHITE, 0x00))
      && (HasRight(a, BLACK_KINGSIDE) <==> HasRight(b, BLACK_KINGSIDE) && !LosesRight(b, m, BLACK, 0x77))
      && (HasRight(a, BLACK_QUEENSIDE) <==> HasRight(b, BLACK_QUEENSIDE) && !LosesRight(b, m, BLACK, 0x70))
  {
    var p := b.squares[m.from];
    MadeRights(b, m);
    var b1 := b.(castling := StageRights(b, m));
    CapturedRights(b1, m);
    if PieceType(p) == KING {
      KingRights(b.castling, Colour(p));
    } else if PieceType(p) == ROOK {
      RookRights(b, m.from);
    }
  }

  /** A held right survives only if its king and rook stay put: the
      squares and caches it needs are unchanged. */
  lemma ConsistentKept(b: Board, a: Board)
    requires CastlingConsistent(b)
    requires HasRight(a, WHITE_KINGSIDE) ==>
      HasRight(b, WHITE_KINGSIDE) && a.whiteKing == b.whiteKing && a.squares[0x07] == b.squares[0x07]
    requires HasRight(a, WHITE_QUEENSIDE) ==>
      HasRight(b, WHITE_QUEENSIDE) && a.whiteKing == b.whiteKing && a.squares[0x00] == b.squares[0x00]
    requires HasRight(a, BLACK_KINGSIDE) ==>
      HasRight(b, BLACK_KINGSIDE) && a.blackKing == b.blackKing && a.squares[0x77] == b.squares[0x77]
    requires HasRight(a, BLACK_QUEENSIDE) ==>
      HasRight(b, BLACK_QUEENSIDE) && a.blackKing == b.blackKing && a.squares[0x70] == b.squares[0x70]
    ensures CastlingConsistent(a)
  {}

  /** Every cell holds a piece code, and cells off the board are empty. */
  predicate CellsValid(s: Cells)
  {
    && (forall i | 0 <= i < 128 :: ValidPiece(s[i]))
    && (forall i | 0 <= i < 128 && !OnBoard(i) :: s[i] == EMPTY)
  }

  /** Every king of a colour stands on the given square. */
  predicate KingsAt(s: Cells, code: int, sq: int)
  {
    forall i | 0 <= i < 128 && s[i] == code :: i == sq
  }

  lemma ValidParts(b: Board)
    ensures Valid(b) <==>
      && CellsValid(b.squares)
      && KingsAt(b.squares, WHITE + KING, b.whiteKing) && KingsAt(b.squares, BLACK + KING, b.blackKing)
      && OnBoard(b.whiteKing) && OnBoard(b.blackKing) && EpValid(b) && CastlingConsistent(b)
  {}

  /** Writing a piece code on a board square keeps the cells valid; so
      does emptying any cell. */
  lemma WriteCell(s: Cells, i: int, x: int)
    requires CellsValid(s) && 0 <= i < 128 && ValidPiece(x) && (x != EMPTY ==> OnBoard(i))
    ensures CellsValid(s[i := x])
  {}

  /** Writing something other than `code` keeps the kings of that code
      where they were, except on the written cell. */
  lemma WriteOther(s: Cells, code: int, sq: int, i: int, x: int)
    requires KingsAt(s, code, sq) && 0 <= i < 128 && x != code
    ensures KingsAt(s[i := x], code, sq)
  {}

  /** A king moving off its square takes the colour's kings with it. */
  lemma MoveKing(s: Cells, code: int, from: int, to: int)
    requires KingsAt(s, code, from) && 0 <= from < 128 && 0 <= to < 128 && code != EMPTY
    ensures KingsAt(s[to := code][from := EMPTY], code, to)
  {}

  /** Moving a piece that is not a king keeps the cells valid and the
      kings on their squares. */
  lemma SimpleCells(s: Cells, from: int, to: int, x: int, wk: int, bk: int)
    requires CellsValid(s) && KingsAt(s, WHITE + KING, wk) && KingsAt(s, BLACK + KING, bk)
    requires OnBoard(from) && OnBoard(to)
    requires ValidPiece(x) && x != WHITE + KING && x != BLACK + KING
    ensures var t := s[to := x][from := EMPTY];
      CellsValid(t) && KingsAt(t, WHITE + KING, wk) && KingsAt(t, BLACK + KING, bk)
  {
    WriteCell(s, to, x);
    WriteCell(s[to := x], from, EMPTY);
    WriteOther(s, WHITE + KING, wk, to, x);
    WriteOther(s[to := x], WHITE + KING, wk, from, EMPTY);
    WriteOther(s, BLACK + KING, bk, to, x);
    WriteOther(s[to := x], BLACK + KING, bk, from, EMPTY);
  }

  /** A double push leaves the square passed over, on the third or sixth
      rank and empty, as the en-passant square. */
  lemma EpAfterPush(b: Board, m: Move)
    requires MakeMoveDefined(b, m) && OnBoard(m.from)
    requires PieceType(b.squares[m.from]) == PAWN ==> !IsEpCapture(b, m)
    requires PieceType(b.squares[m.from]) == PAWN && (m.to - m.from == 32 || m.to - m.from == -32) ==>
      && m.to - m.from == 2 * Forward(b)
      && RankBase(m.from) == (if b.whiteToMove then 0x10 else 0x60)
      && b.squares[(m.from + m.to) / 2] == EMPTY
    requires MakeMove(b, m).squares == b.squares[m.to := Placed(b, m)][m.from := EMPTY]
    ensures EpValid(MakeMove(b, m))
  {
    EpAfterMove(b, m);
    if MakeMove(b, m).ep != -1 {
      Coordinates(m.from);
    }
  }

  /** A move of a piece other than a king, and not an en-passant capture,
      keeps the castling rights consistent. */
  lemma CastlingAfterSimple(b: Board, m: Move)
    requires CastlingConsistent(b)
    requires MakeMoveDefined(b, m)
    requires var p := b.squares[m.from];
      && p != EMPTY && Colour(p) == ColourToMove(b) && PieceType(p) != KING
      && (PieceType(p) == PAWN ==> !IsEpCapture(b, m))
      && (b.squares[m.to] == EMPTY || Colour(b.squares[m.to]) != Colour(p))
    requires MakeMove(b, m).squares == b.squares[m.to := Placed(b, m)][m.from := EMPTY]
    requires MakeMove(b, m).whiteKing == b.whiteKing && MakeMove(b, m).blackKing == b.blackKing
    ensures CastlingConsistent(MakeMove(b, m))
  {
    CastlingAfterMove(b, m);
    SimpleKeepsCorner(b, m, MakeMove(b, m), WHITE_KINGSIDE, WHITE, 0x07);
    SimpleKeepsCorner(b, m, MakeMove(b, m), WHITE_QUEENSIDE, WHITE, 0x00);
    SimpleKeepsCorner(b, m, MakeMove(b, m), BLACK_KINGSIDE, BLACK, 0x77);
    SimpleKeepsCorner(b, m, MakeMove(b, m), BLACK_QUEENSIDE, BLACK, 0x70);
    ConsistentKept(b, MakeMove(b, m));
  }

  /** A right that survives a move of a piece other than a king, and not an
      en-passant capture, leaves its corner as it was; `a` is the board the
      move leads to. */
  lemma SimpleKeepsCorner(b: Board, m: Move, a: Board, right: bv4, colour: int, corner: int)
    requires MakeMoveDefined(b, m) && 0 <= corner < 128
    requires colour == WHITE || colour == BLACK
    requires var p := b.squares[m.from];
      && p != EMPTY && Colour(p) == ColourToMove(b) && PieceType(p) != KING
      && (b.squares[m.to] == EMPTY || Colour(b.squares[m.to]) != Colour(p))
    requires a.squares == b.squares[m.to := Placed(b, m)][m.from := EMPTY]
    requires HasRight(b, right) ==> b.squares[corner] == colour + ROOK
    requires HasRight(a, right) <==> HasRight(b, right) && !LosesRight(b, m, colour, corner)
    ensures HasRight(a, right) ==> a.squares[corner] == b.squares[corner]
  {
  }

  /** A move of a piece other than a king, and not an en-passant capture,
      keeps a board well formed. */
  lemma ValidAfterSimple(b: Board, m: Move)
    requires Valid(b)
    requires MakeMoveDefined(b, m) && OnBoard(m.from) && OnBoard(m.to) && m.from != m.to
    requires var p := b.squares[m.from];
      && ValidPiece(p) && p != EMPTY && Colour(p) == ColourToMove(b) && PieceType(p) != KING
      && (PieceType(p) == PAWN ==> !IsEpCapture(b, m))
      && (m.promotion != EMPTY ==>
            PieceType(p) == PAWN && 2 <= PieceType(m.promotion) <= 5
            && m.promotion == Colour(p) + PieceType(m.promotion))
      && (b.squares[m.to] == EMPTY || Colour(b.squares[m.to]) != Colour(p))
    requires PieceType(b.squares[m.from]) == PAWN && (m.to - m.from == 32 || m.to - m.from == -32) ==>
      && m.to - m.from == 2 * Forward(b)
      && RankBase(m.from) == (if b.whiteToMove then 0x10 else 0x60)
      && b.squares[(m.from + m.to) / 2] == EMPTY
    ensures Valid(MakeMove(b, m))
  {
    var a := MakeMove(b, m);
    ValidParts(b);
    MadeSimple(b, m);
    SimpleCells(b.squares, m.from, m.to, Placed(b, m), b.whiteKing, b.blackKing);
    EpAfterPush(b, m);
    CastlingAfterSimple(b, m);
    ValidParts(a);
  }

  /** An en-passant capture keeps a board well formed: the pawn taken
      stands beside the mover, off the back ranks. */
  lemma ValidAfterEp(b: Board, m: Move)
    requires Valid(b)
    requires MakeMoveDefined(b, m) && OnBoard(m.from) && OnBoard(m.to)
    requires var p := b.squares[m.from];
      && p == ColourToMove(b) + PAWN && IsEpCapture(b, m) && m.promotion == EMPTY
      && Rank(m.from) != Rank(m.to) && 1 <= Rank(m.from) <= 6
    ensures Valid(MakeMove(b, m))
  {
    var a := MakeMove(b, m);
    var v := EpVictim(m.from, m.to);
    EpMoveCells(b, m);
    EpAfterMove(b, m);
    assert EpValid(a);
    assert b.squares[m.to] == EMPTY;
    CastlingAfterMove(b, m);
    assert Rank(v) == Rank(m.from);
    ConsistentKept(b, a);
    ValidParts(a);
  }

  /** After an en-passant capture the cells are valid, the kings stay on
      their caches, and only the three cells involved changed. */
  lemma EpMoveCells(b: Board, m: Move)
    requires Valid(b)
    requires MakeMoveDefined(b, m) && OnBoard(m.from) && OnBoard(m.to)
    requires var p := b.squares[m.from];
      && p == ColourToMove(b) + PAWN && IsEpCapture(b, m) && m.promotion == EMPTY
      && Rank(m.from) != Rank(m.to) && 1 <= Rank(m.from) <= 6
    ensures var a := MakeMove(b, m);
      && CellsValid(a.squares) && OnBoard(a.whiteKing) && OnBoard(a.blackKing)
      && KingsAt(a.squares, WHITE + KING, a.whiteKing) && KingsAt(a.squares, BLACK + KING, a.blackKing)
    ensures var v := EpVictim(m.from, m.to);
      && OnBoard(v) && v != m.from && v != m.to
      && MakeMove(b, m).squares == b.squares[v := EMPTY][m.to := b.squares[m.from]][m.from := EMPTY]
  {
    var p := b.squares[m.from];
    var v := EpVictim(m.from, m.to);
    ValidParts(b);
    MadeEp(b, m);
    Coordinates(m.from);
    Coordinates(m.to);
    assert OnBoard(v) && v != m.from && v != m.to;
    var s := b.squares[v := EMPTY];
    WriteCell(b.squares, v, EMPTY);
    WriteOther(b.squares, WHITE + KING, b.whiteKing, v, EMPTY);
    WriteOther(b.squares, BLACK + KING, b.blackKing, v, EMPTY);
    SimpleCells(s, m.from, m.to, p, b.whiteKing, b.blackKing);
  }

  /** The castling rook's move writes only on the king's rank: the cells
      beside and two or three beside `from`. */
  lemma CastleRookCells(s: Cells, from: int, to: int, i: int)
    requires 0 <= from < 128 && 0 <= to < 128
    requires to - from == 2 ==> from + 3 < 128
    requires to - from == -2 ==> from >= 4
    requires 0 <= i < 128
    requires to - from == 2 || to - from == -2 ==> i < from - 4 || from + 3 < i
    ensures CastleRook(s, from, to)[i] == s[i]
  {}

  /** The king moves, and for a castling its rook: the cells stay valid and
      the mover's kings follow it. */
  lemma KingCells(s: Cells, from: int, to: int, code: int, other: int, ks: int, os: int)
    requires CellsValid(s) && KingsAt(s, code, from) && KingsAt(s, other, os)
    requires (code == WHITE + KING && other == BLACK + KING) || (code == BLACK + KING && other == WHITE + KING)
    requires OnBoard(from) && OnBoard(to) && s[from] == code
    requires to - from == 2 ==> from + 3 < 128 && OnBoard(from + 1) && s[from + 3] != other
    requires to - from == -2 ==> from >= 4 && OnBoard(from - 1) && s[from - 4] != other
    ensures var t := CastleRook(s, from, to)[to := code][from := EMPTY];
      CellsValid(t) && KingsAt(t, code, to) && KingsAt(t, other, os)
  {
    var c := CastleRook(s, from, to);
    var d := to - from;
    if d == 2 {
      WriteCell(s, from + 1, s[to + 1]);
      WriteCell(s[from + 1 := s[to + 1]], to + 1, EMPTY);
      WriteOther(s, code, from, from + 1, s[to + 1]);
      WriteOther(s[from + 1 := s[to + 1]], code, from, to + 1, EMPTY);
      WriteOther(s, other, os, from + 1, s[to + 1]);
      WriteOther(s[from + 1 := s[to + 1]], other, os, to + 1, EMPTY);
    } else if d == -2 {
      WriteCell(s, from - 1, s[to - 2]);
      WriteCell(s[from - 1 := s[to - 2]], to - 2, EMPTY);
      WriteOther(s, code, from, from - 1, s[to - 2]);
      WriteOther(s[from - 1 := s[to - 2]], code, from, to - 2, EMPTY);
      WriteOther(s, other, os, from - 1, s[to - 2]);
      WriteOther(s[from - 1 := s[to - 2]], other, os, to - 2, EMPTY);
    }
    assert CellsValid(c) && KingsAt(c, code, from) && KingsAt(c, other, os);
    WriteCell(c, to, code);
    WriteCell(c[to := code], from, EMPTY);
    MoveKing(c, code, from, to);
    WriteOther(c, other, os, to, code);
    WriteOther(c[to := code], other, os, from, EMPTY);
  }

  /** A king move keeps the other colour's rights consistent and drops the
      mover's own. */
  lemma CastlingAfterKing(b: Board, m: Move)
    requires CastlingConsistent(b)
    requires MakeMoveDefined(b, m) && m.promotion == EMPTY && m.from != m.to
    requires var p := b.squares[m.from];
      && PieceType(p) == KING && p != WHITE + ROOK && p != BLACK + ROOK
      && (b.squares[m.to] == EMPTY || Colour(b.squares[m.to]) != Colour(p))
    requires m.to - m.from == 2 || m.to - m.from == -2 ==>
      m.from == (if Colour(b.squares[m.from]) == WHITE then 0x04 else 0x74)
    ensures CastlingConsistent(MakeMove(b, m))
  {
    var a := MakeMove(b, m);
    var p := b.squares[m.from];
    MadeKing(b, m);
    CastlingAfterMove(b, m);
    var c := CastleRook(b.squares, m.from, m.to);
    if Colour(p) == WHITE {
      if HasRight(a, BLACK_KINGSIDE) {
        CastleRookCells(b.squares, m.from, m.to, 0x77);
      }
      if HasRight(a, BLACK_QUEENSIDE) {
        CastleRookCells(b.squares, m.from, m.to, 0x70);
      }
    } else {
      if HasRight(a, WHITE_KINGSIDE) {
        CastleRookCells(b.squares, m.from, m.to, 0x07);
      }
      if HasRight(a, WHITE_QUEENSIDE) {
        CastleRookCells(b.squares, m.from, m.to, 0x00);
      }
    }
    ConsistentKept(b, a);
  }

  /** What a well-formed board says about a king of the side to move that
      may castle: it stands on its cache, at home, with its rook in the
      corner the castling uses. */
  lemma KingFacts(b: Board, m: Move)
    requires Valid(b)
    requires 0 <= m.from < 128 && 0 <= m.to < 128 && b.squares[m.from] == ColourToMove(b) + KING
    requires m.to - m.from == 2 ==> RightToCastle(b, E)
    requires m.to - m.from == -2 ==> RightToCastle(b, W)
    ensures m.from == KingSquare(b, ColourToMove(b))
    ensures m.to - m.from == 2 || m.to - m.from == -2 ==>
      m.from == (if b.whiteToMove then 0x04 else 0x74)
    ensures m.to - m.from == 2 ==> b.squares[m.from + 3] == ColourToMove(b) + ROOK
    ensures m.to - m.from == -2 ==> b.squares[m.from - 4] == ColourToMove(b) + ROOK
  {}

  /** A king move, castling included, keeps a board well formed. */
  lemma ValidAfterKing(b: Board, m: Move)
    requires Valid(b)
    requires MakeMoveDefined(b, m) && OnBoard(m.from) && OnBoard(m.to) && m.from != m.to
    requires m.promotion == EMPTY && b.squares[m.from] == ColourToMove(b) + KING
    requires b.squares[m.to] == EMPTY || Colour(b.squares[m.to]) != ColourToMove(b)
    requires m.to - m.from == 2 ==> RightToCastle(b, E)
    requires m.to - m.from == -2 ==> RightToCastle(b, W)
    ensures Valid(MakeMove(b, m))
  {
    var a := MakeMove(b, m);
    KingFacts(b, m);
    KingMoveCells(b, m);
    EpAfterMove(b, m);
    CastlingAfterKing(b, m);
    ValidParts(a);
  }

  /** After a king move, castling included, the cells are valid and each
      colour's kings sit on its cache. */
  lemma KingMoveCells(b: Board, m: Move)
    requires Valid(b)
    requires MakeMoveDefined(b, m) && OnBoard(m.from) && OnBoard(m.to) && m.from != m.to
    requires m.promotion == EMPTY && b.squares[m.from] == ColourToMove(b) + KING
    requires b.squares[m.to] == EMPTY || Colour(b.squares[m.to]) != ColourToMove(b)
    requires m.to - m.from == 2 ==> RightToCastle(b, E)
    requires m.to - m.from == -2 ==> RightToCastle(b, W)
    ensures var a := MakeMove(b, m);
      && CellsValid(a.squares) && OnBoard(a.whiteKing) && OnBoard(a.blackKing)
      && KingsAt(a.squares, WHITE + KING, a.whiteKing) && KingsAt(a.squares, BLACK + KING, a.blackKing)
  {
    var white := b.whiteToMove;
    var code := ColourToMove(b) + KING;
    var other := (if white then BLACK else WHITE) + KING;
    KingFacts(b, m);
    ValidParts(b);
    MadeKing(b, m);
    if white {
      KingCells(b.squares, m.from, m.to, code, other, m.from, b.blackKing);
    } else {
      KingCells(b.squares, m.from, m.to, code, other, m.from, b.whiteKing);
    }
  }

  /** A pseudo-legal pawn move of two ranks is a double push from the home
      rank over an empty square; an en-passant capture starts off the back
      ranks. */
  lemma PseudoPawn(b: Board, m: Move)
    requires Valid(b) && Pseudo(b, m) && PieceType(b.squares[m.from]) == PAWN
    ensures m.to - m.from == 32 || m.to - m.from == -32 ==>
      && m.to - m.from == 2 * Forward(b)
      && RankBase(m.from) == (if b.whiteToMove then 0x10 else 0x60)
      && b.squares[(m.from + m.to) / 2] == EMPTY
    ensures IsEpCapture(b, m) ==> 1 <= Rank(m.from) <= 6
  {
    if m.to - m.from == 32 || m.to - m.from == -32 {
      PseudoDoublePush(b, m);
    }
    if IsEpCapture(b, m) {
      PseudoEpRank(b, m);
    }
  }

  /** A pseudo-legal pawn move of two ranks is a double push. */
  lemma PseudoDoublePush(b: Board, m: Move)
    requires Valid(b) && Pseudo(b, m) && PieceType(b.squares[m.from]) == PAWN
    requires m.to - m.from == 32 || m.to - m.from == -32
    ensures m.to - m.from == 2 * Forward(b)
    ensures RankBase(m.from) == (if b.whiteToMove then 0x10 else 0x60)
    ensures b.squares[(m.from + m.to) / 2] == EMPTY
  {
    assert PawnMove(b, m);
    assert (m.from + m.to) / 2 == m.from + Forward(b);
  }

  /** An en-passant capture starts off the back ranks. */
  lemma PseudoEpRank(b: Board, m: Move)
    requires Valid(b) && Pseudo(b, m) && PieceType(b.squares[m.from]) == PAWN
    requires IsEpCapture(b, m)
    ensures 1 <= Rank(m.from) <= 6
  {
    assert PawnMove(b, m);
    assert EpValid(b);
    Coordinates(m.from);
    Coordinates(m.to);
  }

  /** A pseudo-legal move keeps a well-formed board well formed. */
  lemma MakeMovePreservesValid(b: Board, m: Move)
    requires Valid(b) && Pseudo(b, m)
    ensures MakeMoveDefined(b, m)
    ensures Valid(MakeMove(b, m))
  {
    PseudoMover(b, m);
    var p := b.squares[m.from];
    if PieceType(p) == KING {
      assert KingMove(b, m);
      if m.to - m.from == 2 || m.to - m.from == -2 {
        PseudoCastle(b, m);
        var dir := if m.to - m.from == 2 then E else W;
        CastlingLegalNeeds(b, m.from, dir);
      }
      ValidAfterKing(b, m);
    } else if PieceType(p) == PAWN && IsEpCapture(b, m) {
      PseudoEp(b, m);
      PseudoPawn(b, m);
      ValidAfterEp(b, m);
    } else {
      if m.promotion != EMPTY {
        PseudoPromotion(b, m);
      }
      if PieceType(p) == PAWN {
        PseudoPawn(b, m);
      }
      ValidAfterSimple(b, m);
    }
  }
}

=== FILE: legal.dfy ===
/** Trying a move for legality, and moves written as four-character
    coordinate strings. */
module Legality {
  import opened Pieces
  import opened Squares
  import opened Position
  import opened Attacks
  import opened MoveGen
  import opened PseudoLegal
  import opened Execute
  import opened MakeUndo
  import opened MoveLaws

  /** The colour that is not to move. */
  function OpponentToMove(b: Board): (c: int)
    ensures (c == WHITE || c == BLACK) && c != ColourToMove(b)
  {
    if b.whiteToMove then BLACK else WHITE
  }

  /** What trying a move needs: the move can be made, the mover's king cache
      then indexes the board, and the move can be taken back. */
  predicate LegalMoveDefined(b: Board, m: Move)
  {
    && MakeMoveDefined(b, m)
    && 0 <= KingSquare(MakeMove(b, m), ColourToMove(b)) < 128
    && UndoDefined(MakeMove(b, m))
  }

  /** The verdict on a move and the board as the trial leaves it. */
  datatype Trial = Trial(legal: bool, board: Board)

  /** Play the move, ask whether the mover is in check, take the move back. */
  function LegalMove(b: Board, m: Move): (r: Trial)
    requires LegalMoveDefined(b, m)
    ensures var a := MakeMove(b, m);
      r.legal <==> !Attacked(a, KingSquare(a, ColourToMove(b)), OpponentToMove(b))
    ensures r.board == UndoMove(MakeMove(b, m))
  {
    var colour := ColourToMove(b);
    var a := MakeMove(b, m);
    var result := !IsCheck(a, colour);
    IsAttackedExactly(a, KingSquare(a, colour), OpponentToMove(b));
    Trial(result, UndoMove(a))
  }

  /** A pseudo-legal move on a well-formed board can be tried, and the trial
      leaves the board exactly as it found it. */
  lemma LegalMoveRestores(b: Board, m: Move)
    requires Valid(b) && Pseudo(b, m)
    ensures LegalMoveDefined(b, m)
    ensures LegalMove(b, m).board == b
  {
    MakeUndoRoundTrip(b, m);
    MakeMovePreservesValid(b, m);
  }

  /** The generated moves of a well-formed board are its pseudo-legal
      moves. */
  lemma GeneratedPseudo(b: Board)
    requires Valid(b)
    ensures Generable(b)
    ensures forall m | m in GenerateMoves(b) :: Pseudo(b, m)
  {
    forall m | m in GenerateMoves(b)
      ensures Pseudo(b, m)
    {
      GeneratedExactlyPseudo(b, m);
    }
  }

  /** Whether a pseudo-legal move passes `LegalMove`. */
  predicate IsLegal(b: Board, m: Move)
    requires Valid(b) && Pseudo(b, m)
  {
    LegalMoveRestores(b, m);
    LegalMove(b, m).legal
  }

  /** `LegalMove` on a pseudo-legal move of a well-formed board: the board
      comes back unchanged. */
  function TryMove(b: Board, m: Move): (t: Trial)
    requires Valid(b) && Pseudo(b, m)
    ensures t.board == b && t.legal == IsLegal(b, m)
  {
    LegalMoveRestores(b, m);
    LegalMove(b, m)
  }

  /** A move as the four characters of its two squares; a promotion is not
      written. */
  function MoveString(m: Move): (s: string)
    ensures |s| == 4
  {
    SquareIndexToNotation(m.from) + SquareIndexToNotation(m.to)
  }

  /** The move named by the first four characters of a string, never a
      promotion. */
  function NotationMove(s: string): (m: Move)
    requires |s| >= 4
    ensures m.promotion == EMPTY && 0 <= m.from < 256 && 0 <= m.to < 256
  {
    Move(NotationToSquareIndex(s[..2]), NotationToSquareIndex(s[2..4]), EMPTY)
  }

  /** Reading back the string of a move between board squares gives the
      move without its promotion. */
  lemma MoveStringRoundTrip(m: Move)
    requires OnBoard(m.from) && OnBoard(m.to)
    ensures NotationMove(MoveString(m)) == m.(promotion := EMPTY)
  {
    var s := MoveString(m);
    OnBoardIsLegal(m.from);
    OnBoardIsLegal(m.to);
    NotationOfSquare(m.from);
    NotationOfSquare(m.to);
    assert s[..2] == SquareIndexToNotation(m.from);
    assert s[2..4] == SquareIndexToNotation(m.to);
  }

  /** Play a move given by its squares. */
  function MakeMoveFromNotation(b: Board, s: string): (r: Board)
    requires |s| >= 4 && MakeMoveDefined(b, NotationMove(s))
    ensures r.whiteToMove == !b.whiteToMove
    ensures r.squares[NotationMove(s).from] == EMPTY
  {
    MakeMove(b, NotationMove(s))
  }

  /** A move between board squares without a promotion, written out and
      played from the string, is the move itself. */
  lemma MakeMoveFromNotationPlays(b: Board, m: Move)
    requires MakeMoveDefined(b, m) && OnBoard(m.from) && OnBoard(m.to) && m.promotion == EMPTY
    ensures MakeMoveDefined(b, NotationMove(MoveString(m)))
    ensures MakeMoveFromNotation(b, MoveString(m)) == MakeMove(b, m)
  {
    MoveStringRoundTrip(m);
  }

  /** A move in coordinate notation with the promotion written after the
      squares as a lower-case letter, so that the four promotions of one
      pawn get four different names. */
  function MoveName(m: Move): (s: string)
    ensures |s| == if m.promotion == EMPTY then 4 else 5
    ensures s[..4] == MoveString(m)
  {
    MoveString(m) + if m.promotion == EMPTY then "" else [ToLower(PieceToNotation(m.promotion)[0])]
  }

  /** Promotion codes of one colour are told apart by their letters. */
  lemma PromotionLetters(own: int, p1: int, p2: int)
    requires own == WHITE || own == BLACK
    requires p1 == own + PieceType(p1) && KNIGHT <= PieceType(p1) <= QUEEN
    requires p2 == own + PieceType(p2) && KNIGHT <= PieceType(p2) <= QUEEN
    requires ToLower(PieceToNotation(p1)[0]) == ToLower(PieceToNotation(p2)[0])
    ensures p1 == p2
  {}

  /** Two pseudo-legal moves of one position with the same name are the
      same move. */
  lemma MoveNameDistinct(b: Board, m1: Move, m2: Move)
    requires Valid(b) && Pseudo(b, m1) && Pseudo(b, m2)
    requires MoveName(m1) == MoveName(m2)
    ensures m1 == m2
  {
    MoveStringRoundTrip(m1);
    MoveStringRoundTrip(m2);
    assert MoveString(m1) == MoveString(m2);
    if m1.promotion != EMPTY {
      assert m2.promotion != EMPTY;
      PseudoPromotion(b, m1);
      PseudoPromotion(b, m2);
      assert MoveName(m1)[4] == MoveName(m2)[4];
      PromotionLetters(Colour(b.squares[m1.from]), m1.promotion, m2.promotion);
    }
  }
}

=== FILE: makeundo.dfy ===
/** Laws of making and taking back pseudo-legal moves on well-formed
    boards. */
module MakeUndo {
  import opened Pieces
  import opened Squares
  import opened Position
  import opened Attacks
  import opened MoveGen
  import opened PseudoLegal
  import opened Execute

  /** The mover of a pseudo-legal move on a well-formed board is a piece
      of the side to move, and a king two files from its home square only
      when castling over empty squares. */
  lemma PseudoMover(b: Board, m: Move)
    requires Valid(b) && Pseudo(b, m)
    ensures MakeMoveDefined(b, m)
    ensures m.from != m.to
    ensures var p := b.squares[m.from];
      && ValidPiece(p) && p == ColourToMove(b) + PieceType(p) && 1 <= PieceType(p) <= 6
      && (PieceType(p) == KING ==> m.from == KingSquare(b, Colour(p)))
  {
    var p := b.squares[m.from];
    OwnCode(b, m.from);
    if PieceType(p) == KING && (m.to - m.from == 2 || m.to - m.from == -2) {
      PseudoCastle(b, m);
    }
  }

  /** A piece of the side to move on a well-formed board is the side's
      colour flag plus its type. */
  lemma OwnCode(b: Board, i: int)
    requires Valid(b) && 0 <= i < 128 && OwnPiece(b, i)
    ensures ValidPiece(b.squares[i])
    ensures b.squares[i] == ColourToMove(b) + PieceType(b.squares[i])
    ensures 1 <= PieceType(b.squares[i]) <= 6 && OnBoard(i)
  {
    assert ValidPiece(b.squares[i]);
    ValidPieceParts(b.squares[i]);
  }

  /** What a legal castling needs: the right and empty squares. */
  lemma CastlingLegalNeeds(b: Board, i: int, dir: int)
    requires 0 <= i < 128 && 0 <= b.whiteKing < 128 && 0 <= b.blackKing < 128
    requires dir == E || dir == W
    requires dir == W && RightToCastle(b, W) ==> i >= 3
    requires dir == E && RightToCastle(b, E) ==> i + 2 < 128
    requires CastlingLegal(b, i, dir)
    ensures RightToCastle(b, dir)
    ensures b.squares[i + dir] == EMPTY && b.squares[i + 2 * dir] == EMPTY
  {}

  lemma PseudoCastle(b: Board, m: Move)
    requires Valid(b) && Pseudo(b, m)
    requires PieceType(b.squares[m.from]) == KING && (m.to - m.from == 2 || m.to - m.from == -2)
    ensures m.from == 0x04 || m.from == 0x74
    ensures m.to - m.from == 2 ==> b.squares[m.from + 1] == EMPTY && b.squares[m.to] == EMPTY
    ensures m.to - m.from == -2 ==> b.squares[m.from - 1] == EMPTY && b.squares[m.to] == EMPTY
  {
    assert KingMove(b, m);
    var dir := if m.to - m.from == 2 then E else W;
    assert m.to == m.from + 2 * dir;
    assert CastlingLegal(b, m.from, dir) && (dir == W ==> m.from >= 3);
    CastlingLegalNeeds(b, m.from, dir);
    OwnCode(b, m.from);
    KingHome(b, m.from);
  }

  /** A promotion code is a queen, rook, bishop or knight of the pawn's
      colour. */
  lemma PseudoPromotion(b: Board, m: Move)
    requires Valid(b) && Pseudo(b, m) && m.promotion != EMPTY
    ensures PieceType(b.squares[m.from]) == PAWN
    ensures m.promotion == Colour(b.squares[m.from]) + PieceType(m.promotion)
    ensures 2 <= PieceType(m.promotion) <= 5
  {
    assert PawnMove(b, m);
    var p := b.squares[m.from];
    var k :| 0 <= k < 4 && m.promotion == Colour(p) + PROMOTION_PIECES[k];
  }

  /** An en-passant capture lands on an empty square of another rank and
      never promotes. */
  lemma PseudoEp(b: Board, m: Move)
    requires Valid(b) && Pseudo(b, m)
    requires IsEpCapture(b, m) && PieceType(b.squares[m.from]) == PAWN
    ensures b.squares[m.to] == EMPTY && Rank(m.to) != Rank(m.from) && m.promotion == EMPTY
  {
    var p := b.squares[m.from];
    assert EpValid(b);
    assert PawnMove(b, m);
    Coordinates(m.from);
    Coordinates(m.to);
    assert !PromotesFrom(m.from, Colour(p)) by {
      assert 0x20 <= m.to < 0x28 || 0x50 <= m.to < 0x58;
    }
  }

  /** The squares once the record is reverted: piece back, captured piece
      back, and a promoted piece back to a pawn. */
  function Reverted(a: Board): Cells
    requires UndoDefined(a)
  {
    var u := LastUndo(a);
    var s1 := a.squares[u.from := a.squares[u.to]][u.to := u.captured];
    if u.isPromotion then s1[u.from := PAWN + Colour(s1[u.from])] else s1
  }

  /** Taking back a move of a piece other than a king, and not an
      en-passant capture, only reverts the record. */
  lemma UndoSimple(a: Board)
    requires UndoDefined(a)
    requires UnmovedType(a) != KING
    requires UnmovedType(a) == PAWN ==> !(LastUndo(a).to == LastUndo(a).ep && File(LastUndo(a).to) != File(LastUndo(a).from))
    ensures UndoMove(a).squares == Reverted(a)
    ensures UndoMove(a).whiteKing == a.whiteKing && UndoMove(a).blackKing == a.blackKing
  {
    var u := LastUndo(a);
    assert PieceType(Reverted(a)[u.from]) == UnmovedType(a);
  }

  /** A move that only relocates the mover, possibly promoting a pawn: no
      en-passant removal and no king. */
  lemma RoundTripSimple(b: Board, m: Move)
    requires MakeMoveDefined(b, m) && m.from != m.to
    requires PieceType(b.squares[m.from]) != KING
    requires PieceType(b.squares[m.from]) == PAWN ==> !IsEpCapture(b, m)
    requires m.promotion != EMPTY ==>
      && b.squares[m.from] == Colour(b.squares[m.from]) + PAWN
      && m.promotion == Colour(b.squares[m.from]) + PieceType(m.promotion)
      && 2 <= PieceType(m.promotion) <= 5
    ensures UndoDefined(MakeMove(b, m))
    ensures UndoMove(MakeMove(b, m)).squares == b.squares
    ensures UndoMove(MakeMove(b, m)).whiteKing == b.whiteKing
    ensures UndoMove(MakeMove(b, m)).blackKing == b.blackKing
  {
    var p := b.squares[m.from];
    var a := MakeMove(b, m);
    var u := LastUndo(a);
    assert u.from == m.from && u.to == m.to && u.captured == b.squares[m.to] && u.ep == b.ep;
    assert a.squares == b.squares[m.to := if m.promotion == EMPTY then p else m.promotion][m.from := EMPTY];
    assert a.whiteKing == b.whiteKing && a.blackKing == b.blackKing;
    assert UnmovedType(a) == PieceType(p);
    UndoSimple(a);
    assert Reverted(a) == b.squares;
  }

  /** Taking back an en-passant capture puts the taken pawn back beside
      the mover and empties the en-passant square. */
  lemma UndoEp(a: Board)
    requires UndoDefined(a) && UnmovedType(a) == PAWN
    requires LastUndo(a).to == LastUndo(a).ep && File(LastUndo(a).to) != File(LastUndo(a).from)
    ensures UndoMove(a).squares ==
      Reverted(a)[EpVictim(LastUndo(a).from, LastUndo(a).to) := LastUndo(a).captured][LastUndo(a).to := EMPTY]
    ensures UndoMove(a).whiteKing == a.whiteKing && UndoMove(a).blackKing == a.blackKing
  {
    var u := LastUndo(a);
    assert PieceType(Reverted(a)[u.from]) == UnmovedType(a);
  }

  lemma RoundTripEp(b: Board, m: Move)
    requires MakeMoveDefined(b, m) && m.from != m.to
    requires PieceType(b.squares[m.from]) == PAWN && IsEpCapture(b, m)
    requires b.squares[m.to] == EMPTY && Rank(m.to) != Rank(m.from) && m.promotion == EMPTY
    ensures UndoDefined(MakeMove(b, m))
    ensures UndoMove(MakeMove(b, m)).squares == b.squares
    ensures UndoMove(MakeMove(b, m)).whiteKing == b.whiteKing
    ensures UndoMove(MakeMove(b, m)).blackKing == b.blackKing
  {
    var p := b.squares[m.from];
    var v := EpVictim(m.from, m.to);
    var a := MakeMove(b, m);
    var u := LastUndo(a);
    assert u.from == m.from && u.to == m.to && u.captured == b.squares[v] && u.ep == b.ep;
    assert a.squares == b.squares[v := EMPTY][m.to := p][m.from := EMPTY];
    assert a.whiteKing == b.whiteKing && a.blackKing == b.blackKing;
    assert UnmovedType(a) == PAWN;
    UndoEp(a);
    assert v != m.from && v != m.to;
    assert Reverted(a)[v := u.captured][m.to := EMPTY] == b.squares;
  }

  /** Taking back a king move puts the king's cache back and, after a
      two-file move, the rook back in its corner. */
  lemma UndoKing(a: Board)
    requires UndoDefined(a) && UnmovedType(a) == KING
    ensures var u := LastUndo(a);
      && UndoMove(a).squares == UncastleRook(Reverted(a), u.from, u.to)
      && (if Colour(Reverted(a)[u.from]) == WHITE
          then UndoMove(a).whiteKing == u.from && UndoMove(a).blackKing == a.blackKing
          else UndoMove(a).blackKing == u.from && UndoMove(a).whiteKing == a.whiteKing)
  {
    var u := LastUndo(a);
    assert PieceType(Reverted(a)[u.from]) == UnmovedType(a);
  }

  /** A king move: the castling rook moves, then the king; the mover's
      cache follows it. */
  lemma MadeKing(b: Board, m: Move)
    requires MakeMoveDefined(b, m) && PieceType(b.squares[m.from]) == KING && m.promotion == EMPTY
    ensures var a := MakeMove(b, m);
      && LastUndo(a) == MoveUndo(m.from, m.to, false, b.squares[m.to], b.ep, b.halfMove, b.castling)
      && a.squares == CastleRook(b.squares, m.from, m.to)[m.to := b.squares[m.from]][m.from := EMPTY]
      && (if Colour(b.squares[m.from]) == WHITE
          then a.whiteKing == m.to && a.blackKing == b.blackKing
          else a.blackKing == m.to && a.whiteKing == b.whiteKing)
  {}

  /** Moving the castling rook over and back restores the squares, given
      the square it lands on was empty. */
  lemma CastleThenUncastle(sq: Cells, from: int, to: int)
    requires 0 <= from < 128 && 0 <= to < 128 && from != to
    requires to - from == 2 ==> from + 3 < 128 && sq[from + 1] == EMPTY
    requires to - from == -2 ==> from >= 4 && sq[from - 1] == EMPTY
    ensures UncastleRook(CastleRook(sq, from, to)[to := sq[to]], from, to) == sq
  {
    var d := to - from;
    if d == 2 {
      assert CastleRook(sq, from, to) == sq[from + 1 := sq[to + 1]][to + 1 := EMPTY];
    } else if d == -2 {
      assert CastleRook(sq, from, to) == sq[from - 1 := sq[to - 2]][to - 2 := EMPTY];
    }
  }

  lemma RoundTripKingSquares(b: Board, m: Move)
    requires MakeMoveDefined(b, m) && m.from != m.to
    requires PieceType(b.squares[m.from]) == KING && m.promotion == EMPTY
    requires m.to - m.from == 2 ==> b.squares[m.from + 1] == EMPTY
    requires m.to - m.from == -2 ==> b.squares[m.from - 1] == EMPTY
    ensures UndoDefined(MakeMove(b, m))
    ensures UndoMove(MakeMove(b, m)).squares == b.squares
  {
    var a := MakeMove(b, m);
    RevertedKing(b, m);
    UndoKing(a);
    CastleThenUncastle(b.squares, m.from, m.to);
  }

  lemma RevertedKing(b: Board, m: Move)
    requires MakeMoveDefined(b, m) && m.from != m.to
    requires PieceType(b.squares[m.from]) == KING && m.promotion == EMPTY
    ensures UndoDefined(MakeMove(b, m)) && UnmovedType(MakeMove(b, m)) == KING
    ensures Reverted(MakeMove(b, m)) == CastleRook(b.squares, m.from, m.to)[m.to := b.squares[m.to]]
  {
    var c := CastleRook(b.squares, m.from, m.to);
    MadeKing(b, m);
    var a := MakeMove(b, m);
    assert UnmovedType(a) == KING;
    assert Reverted(a) == c[m.to := b.squares[m.to]];
  }

  lemma RoundTripKing(b: Board, m: Move)
    requires MakeMoveDefined(b, m) && m.from != m.to
    requires PieceType(b.squares[m.from]) == KING && m.promotion == EMPTY
    requires m.from == KingSquare(b, Colour(b.squares[m.from]))
    requires m.to - m.from == 2 ==> b.squares[m.from + 1] == EMPTY
    requires m.to - m.from == -2 ==> b.squares[m.from - 1] == EMPTY
    ensures UndoDefined(MakeMove(b, m))
    ensures UndoMove(MakeMove(b, m)).squares == b.squares
    ensures UndoMove(MakeMove(b, m)).whiteKing == b.whiteKing
    ensures UndoMove(MakeMove(b, m)).blackKing == b.blackKing
  {
    RoundTripKingSquares(b, m);
    var a := MakeMove(b, m);
    MadeKing(b, m);
    assert UnmovedType(a) == KING;
    UndoKing(a);
    assert Reverted(a)[m.from] == b.squares[m.from];
  }

  /** Taking back a pseudo-legal move restores the board exactly: squares,
      side to move, castling rights, en-passant square, king caches,
      counters and the undo stack. */
  lemma MakeUndoRoundTrip(b: Board, m: Move)
    requires Valid(b) && Pseudo(b, m)
    ensures MakeMoveDefined(b, m)
    ensures UndoDefined(MakeMove(b, m))
    ensures UndoMove(MakeMove(b, m)) == b
  {
    PseudoMover(b, m);
    var p := b.squares[m.from];
    if PieceType(p) == KING {
      if m.to - m.from == 2 || m.to - m.from == -2 {
        PseudoCastle(b, m);
      }
      RoundTripKing(b, m);
    } else if PieceType(p) == PAWN && IsEpCapture(b, m) {
      PseudoEp(b, m);
      RoundTripEp(b, m);
    } else {
      if m.promotion != EMPTY {
        PseudoPromotion(b, m);
      }
      RoundTripSimple(b, m);
    }
    var a := MakeMove(b, m);
    assert a.history[..|a.history| - 1] == b.history;
    assert LastUndo(a).ep == b.ep && LastUndo(a).halfMove == b.halfMove && LastUndo(a).castling == b.castling;
  }
}

=== FILE: movegen.dfy ===
/** Pseudo-legal move generation: piece movement and occupancy rules, with
    castling only when it is already fully legal, but without checking that
    the mover's own king is safe afterwards. */
module MoveGen {
  import opened Pieces
  import opened Squares
  import opened Position
  import opened Attacks

  /** `t & 0x88 == 0` without the sign test: the generator's pawn code uses
      this form. */
  predicate Clear88(t: int)
  {
    t % 16 < 8 && t % 256 < 128
  }

  /** The bit test and the board test agree on the cells the pawn code
      reaches. */
  lemma Clear88OnBoard(t: int)
    requires -128 <= t < 256
    ensures Clear88(t) <==> OnBoard(t)
  {}

  /** The piece on `i` may move onto `t`: it is empty or holds a piece of
      the other colour. */
  predicate Enterable(b: Board, i: int, t: int)
    requires 0 <= i < 128 && 0 <= t < 128
  {
    b.squares[t] == EMPTY || Colour(b.squares[t]) != Colour(b.squares[i])
  }

  predicate SmallOffsets(offsets: seq<int>)
  {
    forall k | 0 <= k < |offsets| :: -40 <= offsets[k] <= 40 && offsets[k] != 0
  }

  /** The direction tables are small nonzero offsets; the eight king steps
      are the diagonals followed by the lines. */
  lemma OffsetTables()
    ensures DIAGONALS_AND_LINES == [NE, SE, SW, NW, N, S, E, W]
    ensures SmallOffsets(DIAGONALS) && SmallOffsets(LINES) && SmallOffsets(DIAGONALS_AND_LINES)
    ensures SmallOffsets(KNIGHT_MOVES) && SmallOffsets(N_DIAGONALS) && SmallOffsets(S_DIAGONALS)
  {}

  /** The bit test and the board test agree on the cells a piece can reach
      in one offset. */
  lemma LegalIndexOnBoard(t: int)
    requires -128 <= t < 256
    ensures LegalSquareIndex(t) <==> OnBoard(t)
  {}

  /** One step by each offset that lands on the board and not on a friendly
      piece (knights and kings). */
  function GenerateSingleMoves(b: Board, i: int, offsets: seq<int>): (r: seq<Move>)
    requires 0 <= i < 128 && SmallOffsets(offsets)
    ensures forall m :: m in r <==>
      && m.from == i && m.promotion == EMPTY && (m.to - i) in offsets
      && OnBoard(m.to) && Enterable(b, i, m.to)
  {
    if |offsets| == 0 then []
    else
      var toSquare := i + offsets[0];
      var rest := GenerateSingleMoves(b, i, offsets[1..]);
      assert offsets == [offsets[0]] + offsets[1..];
      LegalIndexOnBoard(toSquare);
      if LegalSquareIndex(toSquare)
         && (b.squares[toSquare] == EMPTY || Colour(b.squares[toSquare]) != Colour(b.squares[i]))
      then [Move(i, toSquare, EMPTY)] + rest
      else rest
  }

  /** Every cell from `t` up to, not including, `to` along `off` is an empty
      board square: the path of a slide. */
  predicate PathClear(b: Board, t: int, to: int, off: int)
    requires -40 <= off <= 40 && off != 0 && -128 <= t < 256
    decreases if off > 0 then 256 - t else t + 128
  {
    t == to || (LegalSquareIndex(t) && b.squares[t] == EMPTY && PathClear(b, t + off, to, off))
  }

  /** The slide of the piece on `i` along `off` from cell `t` on: empty
      squares, then the first opposing piece; a friendly piece or the board
      edge ends it. */
  function SlideRay(b: Board, i: int, off: int, t: int): (r: seq<Move>)
    requires 0 <= i < 128 && -40 <= off <= 40 && off != 0 && -128 <= t < 256
    decreases if off > 0 then 256 - t else t + 128
    ensures forall m :: m in r <==>
      && m.from == i && m.promotion == EMPTY && OnBoard(m.to) && Enterable(b, i, m.to)
      && PathClear(b, t, m.to, off)
  {
    LegalIndexOnBoard(t);
    if !(t >= 0 && LegalSquareIndex(t)) then []
    else if b.squares[t] == EMPTY then [Move(i, t, EMPTY)] + SlideRay(b, i, off, t + off)
    else if Colour(b.squares[t]) != Colour(b.squares[i]) then [Move(i, t, EMPTY)]
    else []
  }

  /** Some offset of `offsets` leads from `i` to `to` over empty squares
      only. */
  predicate ClearAlong(b: Board, i: int, to: int, offsets: seq<int>)
    requires 0 <= i < 128 && SmallOffsets(offsets)
  {
    exists k | 0 <= k < |offsets| :: PathClear(b, i + offsets[k], to, offsets[k])
  }

  /** The slides along every offset, in order (bishops, rooks, queens). */
  function GenerateSlides(b: Board, i: int, offsets: seq<int>): (r: seq<Move>)
    requires 0 <= i < 128 && SmallOffsets(offsets)
    ensures forall m :: m in r <==>
      m.from == i && m.promotion == EMPTY && OnBoard(m.to) && Enterable(b, i, m.to) && ClearAlong(b, i, m.to, offsets)
  {
    if |offsets| == 0 then []
    else
      var rest := GenerateSlides(b, i, offsets[1..]);
      assert forall k | 1 <= k < |offsets| :: offsets[k] == offsets[1..][k - 1];
      SlideRay(b, i, offsets[0], i + offsets[0]) + rest
  }

  /** The non-capturing moves of a pawn on its home rank: one step if that
      square is empty, then two steps if that one is empty too. */
  function GeneratePawnSlides(b: Board, i: int, offset: int): (r: seq<Move>)
    requires 0 <= i + offset < 128 && 0 <= i + 2 * offset < 128
    ensures forall m | m in r :: m.from == i && m.promotion == EMPTY
    ensures Move(i, i + offset, EMPTY) in r <==> b.squares[i + offset] == EMPTY
    ensures Move(i, i + 2 * offset, EMPTY) in r <==>
      b.squares[i + offset] == EMPTY && b.squares[i + 2 * offset] == EMPTY
    ensures forall m | m in r :: m.to == i + offset || m.to == i + 2 * offset
  {
    var toSquare := i + offset;
    if b.squares[toSquare] == EMPTY then
      var next := toSquare + offset;
      if b.squares[next] == EMPTY then [Move(i, toSquare, EMPTY), Move(i, next, EMPTY)]
      else [Move(i, toSquare, EMPTY)]
    else []
  }

  /** A pawn of `ownColour` may capture onto `t`: a board square that is
      the en-passant square or holds a piece of the other colour. */
  predicate CaptureTarget(b: Board, t: int, ownColour: int)
  {
    OnBoard(t) && (t == b.ep || (b.squares[t] != EMPTY && Colour(b.squares[t]) != ownColour))
  }

  /** The diagonal moves of a pawn: onto the en-passant square, or onto a
      square holding a piece of the other colour. */
  function PawnCaptures(b: Board, i: int, captureOffsets: seq<int>, ownColour: int): (r: seq<Move>)
    requires 0 <= i < 128 && SmallOffsets(captureOffsets)
    ensures forall m :: m in r <==>
      m.from == i && m.promotion == EMPTY && (m.to - i) in captureOffsets && CaptureTarget(b, m.to, ownColour)
  {
    if |captureOffsets| == 0 then []
    else
      var rest := PawnCaptures(b, i, captureOffsets[1..], ownColour);
      assert captureOffsets == [captureOffsets[0]] + captureOffsets[1..];
      CaptureOnto(b, i, i + captureOffsets[0], ownColour) + rest
  }

  /** The capture loop's body for one target cell: skip it off the board,
      take the en-passant square, skip an empty square or a friendly
      piece, else capture. */
  function CaptureOnto(b: Board, i: int, toSquare: int, ownColour: int): (r: seq<Move>)
    requires 0 <= i < 128 && -128 <= toSquare < 256
    ensures forall m :: m in r <==> m == Move(i, toSquare, EMPTY) && CaptureTarget(b, toSquare, ownColour)
  {
    Clear88OnBoard(toSquare);
    if !Clear88(toSquare) then []
    else if b.ep == toSquare then [Move(i, toSquare, EMPTY)]
    else if b.squares[toSquare] == EMPTY then []
    else if Colour(b.squares[toSquare]) == ownColour then []
    else [Move(i, toSquare, EMPTY)]
  }

  /** The moves of `moves` with the promotion code `code`. */
  function Promote(moves: seq<Move>, code: int): (r: seq<Move>)
    ensures |r| == |moves|
    ensures forall k | 0 <= k < |moves| :: r[k] == Move(moves[k].from, moves[k].to, code)
    ensures forall m | m in r :: exists k | 0 <= k < |moves| :: m == Move(moves[k].from, moves[k].to, code)
  {
    seq(|moves|, k requires 0 <= k < |moves| => Move(moves[k].from, moves[k].to, code))
  }

  /** Each move four times: first all queen promotions, then rooks, bishops
      and knights, each coded with the pawn's colour. */
  function Promotions(moves: seq<Move>, ownColour: int): (r: seq<Move>)
    requires ownColour == WHITE || ownColour == BLACK
    ensures |r| == 4 * |moves|
  {
    Promote(moves, ownColour + QUEEN) + Promote(moves, ownColour + ROOK)
      + Promote(moves, ownColour + BISHOP) + Promote(moves, ownColour + KNIGHT)
  }

  /** Promotions keep the squares of the moves they come from. */
  lemma PromotionsFrom(moves: seq<Move>, ownColour: int, i: int)
    requires ownColour == WHITE || ownColour == BLACK
    requires forall m | m in moves :: m.from == i
    ensures forall m | m in Promotions(moves, ownColour) :: m.from == i
  {
    forall m | m in Promotions(moves, ownColour)
      ensures m.from == i
    {
      var code := if m in Promote(moves, ownColour + QUEEN) then ownColour + QUEEN
        else if m in Promote(moves, ownColour + ROOK) then ownColour + ROOK
        else if m in Promote(moves, ownColour + BISHOP) then ownColour + BISHOP
        else ownColour + KNIGHT;
      var k :| 0 <= k < |moves| && m == Move(moves[k].from, moves[k].to, code);
      assert moves[k] in moves;
    }
  }

  /** The promotions are laid out piece by piece: block `p` holds every
      move with the `p`-th promotion piece, in the order of `moves`. */
  lemma PromotionsLayout(moves: seq<Move>, ownColour: int, p: int, k: int)
    requires ownColour == WHITE || ownColour == BLACK
    requires 0 <= p < 4 && 0 <= k < |moves|
    ensures Promotions(moves, ownColour)[p * |moves| + k] ==
      Move(moves[k].from, moves[k].to, ownColour + PROMOTION_PIECES[p])
  {
    var n := |moves|;
    var q, r := Promote(moves, ownColour + QUEEN), Promote(moves, ownColour + ROOK);
    var bi, kn := Promote(moves, ownColour + BISHOP), Promote(moves, ownColour + KNIGHT);
    assert Promotions(moves, ownColour) == q + r + bi + kn;
    if p == 0 {
    } else if p == 1 {
      assert p * n + k == n + k;
    } else if p == 2 {
      assert p * n + k == 2 * n + k;
    } else {
      assert p * n + k == 3 * n + k;
    }
  }

  /** A pawn on the rank before its last: its own colour decides this. */
  predicate PromotesFrom(i: int, ownColour: int)
  {
    (ownColour == WHITE && RankBase(i) == 0x60) || (ownColour == BLACK && RankBase(i) == 0x10)
  }

  /** The pushes of a pawn: two-step slides from the home rank, otherwise a
      single step when that square is on the board and empty. */
  function PawnPushes(b: Board, i: int, forward: int, onHomeRank: bool): (r: seq<Move>)
    requires 0 <= i < 128 && (forward == N || forward == S)
    requires onHomeRank ==> 0 <= i + 2 * forward < 128
    ensures forall m | m in r ::
      && m.from == i && m.promotion == EMPTY && 0 <= m.to < 128
      && (!onHomeRank ==> OnBoard(m.to))
      && b.squares[m.to] == EMPTY
      && (m.to == i + forward || (onHomeRank && m.to == i + 2 * forward && b.squares[i + forward] == EMPTY))
  {
    if onHomeRank then GeneratePawnSlides(b, i, forward)
    else
      var toSquare := i + forward;
      if Clear88(toSquare) && b.squares[toSquare] == EMPTY then [Move(i, toSquare, EMPTY)] else []
  }

  /** All moves of a pawn moving towards `forward`; on the rank before its
      last each move becomes four promotions. */
  function GeneratePawnMoves(b: Board, i: int, forward: int, captureOffsets: seq<int>,
                             onHomeRank: bool): (r: seq<Move>)
    requires 0 <= i < 128 && (forward == N || forward == S)
    requires SmallOffsets(captureOffsets)
    requires onHomeRank ==> 0 <= i + 2 * forward < 128
    ensures forall m | m in r :: m.from == i
  {
    var ownColour := Colour(b.squares[i]);
    var result := PawnPushes(b, i, forward, onHomeRank) + PawnCaptures(b, i, captureOffsets, ownColour);
    if PromotesFrom(i, ownColour) then PromotionsFrom(result, ownColour, i); Promotions(result, ownColour)
    else result
  }

  /** The castling index conditions: a king that holds a right stands where
      the path to its rook lies inside the array. */
  predicate CastleIndexable(b: Board, i: int)
  {
    && (RightToCastle(b, W) ==> i >= 3)
    && (RightToCastle(b, E) ==> i + 2 < 128)
  }

  /** The moves of a king: one step in each of the eight directions, then
      castling king side and queen side when the right is held and
      `CastlingLegal` agrees. */
  function GenerateKingMoves(b: Board, i: int): (r: seq<Move>)
    requires 0 <= i < 128 && 0 <= b.whiteKing < 128 && 0 <= b.blackKing < 128
    requires CastleIndexable(b, i)
    ensures forall m | m in r :: m.from == i
  {
    var kingMoves := GenerateSingleMoves(b, i, DIAGONALS_AND_LINES);
    var kingside := RightToCastle(b, E) && CastlingLegal(b, i, E);
    var queenside := RightToCastle(b, W) && CastlingLegal(b, i, W);
    kingMoves + (if kingside then [Move(i, i + 2, EMPTY)] else [])
              + (if queenside then [Move(i, i - 2, EMPTY)] else [])
  }

  /** The pseudo-legal moves of the piece on `i`.  The pawn direction is
      chosen by the side to move, not by the pawn's colour; an empty or
      unknown code has no moves. */
  function GeneratePieceMoves(b: Board, i: int): (r: seq<Move>)
    requires 0 <= i < 128 && 0 <= b.whiteKing < 128 && 0 <= b.blackKing < 128
    requires PieceType(b.squares[i]) == KING ==> CastleIndexable(b, i)
    ensures forall m | m in r :: m.from == i
  {
    match PieceType(b.squares[i])
    case 1 =>
      if b.whiteToMove then GeneratePawnMoves(b, i, N, N_DIAGONALS, RankBase(i) == 0x10)
      else GeneratePawnMoves(b, i, S, S_DIAGONALS, RankBase(i) == 0x60)
    case 2 => GenerateSingleMoves(b, i, KNIGHT_MOVES)
    case 3 => GenerateSlides(b, i, DIAGONALS)
    case 4 => GenerateSlides(b, i, LINES)
    case 5 => GenerateSlides(b, i, DIAGONALS_AND_LINES)
    case 6 => GenerateKingMoves(b, i)
    case _ => []
  }

  /** The piece on `i` belongs to the side to move. */
  predicate OwnPiece(b: Board, i: int)
    requires 0 <= i < 128
  {
    b.squares[i] != EMPTY && Colour(b.squares[i]) == ColourToMove(b)
  }

  /** What generation needs of a board: king caches inside the array, and every
      king of the side to move placed so its castling path is indexable. */
  predicate Generable(b: Board)
  {
    && 0 <= b.whiteKing < 128 && 0 <= b.blackKing < 128
    && forall i | 0 <= i < 128 && OwnPiece(b, i) && PieceType(b.squares[i]) == KING :: CastleIndexable(b, i)
  }

  /** A well-formed board can be generated from: a king holding a right is
      on its home square. */
  lemma ValidIsGenerable(b: Board)
    requires Valid(b)
    ensures Generable(b)
  {
    forall i | 0 <= i < 128 && OwnPiece(b, i) && PieceType(b.squares[i]) == KING
      ensures CastleIndexable(b, i)
    {
      assert ValidPiece(b.squares[i]);
    }
  }

  /** The moves of the pieces on cells `i` .. 127. */
  function GenerateFrom(b: Board, i: int): (r: seq<Move>)
    requires 0 <= i <= 128 && Generable(b)
    decreases 128 - i
    ensures forall m | m in r ::
      i <= m.from < 128 && OwnPiece(b, m.from) && m in GeneratePieceMoves(b, m.from)
    ensures forall j, m | i <= j < 128 && OwnPiece(b, j) && m in GeneratePieceMoves(b, j) :: m in r
  {
    if i == 128 then []
    else
      var rest := GenerateFrom(b, i + 1);
      if OwnPiece(b, i) then GeneratePieceMoves(b, i) + rest else rest
  }

  /** The pseudo-legal moves of the side to move: exactly the moves of its
      pieces, square by square. */
  function GenerateMoves(b: Board): (r: seq<Move>)
    requires Generable(b)
    ensures forall m | m in r ::
      0 <= m.from < 128 && OwnPiece(b, m.from) && m in GeneratePieceMoves(b, m.from)
    ensures forall j, m | 0 <= j < 128 && OwnPiece(b, j) && m in GeneratePieceMoves(b, j) :: m in r
  {
    GenerateFrom(b, 0)
  }
}

=== FILE: perft.dfy ===
/** Node counting: `perft` counts the lines of legal moves of a given
    length, and `divide` splits that count by the first move.  Both make
    each legal move, count below it and take it back; the board is threaded
    through in the same order and handed back unchanged. */
module Perft {
  import opened Pieces
  import opened Position
  import opened MoveGen
  import opened PseudoLegal
  import opened Execute
  import opened MakeUndo
  import opened MoveLaws
  import opened Legality
  import opened Tally
  import opened Distinctness

  /** A count and the board as the count leaves it. */
  datatype Counted = Counted(nodes: int, board: Board)

  /** Whether a sequence of moves can be played from `b`, each move
      pseudo-legal and passing `LegalMove` in the position before it. */
  ghost predicate LegalLine(b: Board, line: seq<Move>)
    requires Valid(b)
    decreases |line|
  {
    || line == []
    || (&& Pseudo(b, line[0]) && IsLegal(b, line[0])
        && (MakeMovePreservesValid(b, line[0]); LegalLine(MakeMove(b, line[0]), line[1..])))
  }

  /** Each line of `lines` with `m` put in front. */
  function Extend(m: Move, lines: seq<seq<Move>>): (r: seq<seq<Move>>)
    ensures |r| == |lines|
    ensures forall k | 0 <= k < |r| :: r[k] == [m] + lines[k]
  {
    if lines == [] then [] else [[m] + lines[0]] + Extend(m, lines[1..])
  }

  /** The lines of `depth` legal moves from `b`, in generation order. */
  ghost function Lines(b: Board, depth: nat): seq<seq<Move>>
    requires Valid(b)
    decreases depth, 1
  {
    if depth == 0 then [[]]
    else
      GeneratedPseudo(b);
      LinesFrom(b, GenerateMoves(b), 0, depth)
  }

  /** The lines that start with a legal move from the `i`-th of `moves`
      on. */
  ghost function LinesFrom(b: Board, moves: seq<Move>, i: int, depth: nat): seq<seq<Move>>
    requires Valid(b) && depth > 0 && 0 <= i <= |moves|
    requires forall m | m in moves :: Pseudo(b, m)
    decreases depth, 0, |moves| - i
  {
    if i == |moves| then []
    else (if IsLegal(b, moves[i]) then Extend(moves[i], ChildLines(b, moves[i], depth - 1)) else [])
         + LinesFrom(b, moves, i + 1, depth)
  }

  /** The lines from the position after a pseudo-legal move. */
  ghost function ChildLines(b: Board, m: Move, depth: nat): seq<seq<Move>>
    requires Valid(b) && Pseudo(b, m)
    decreases depth, 2
  {
    MakeMovePreservesValid(b, m);
    Lines(MakeMove(b, m), depth)
  }

  /** `perft`: one node at depth 0; else the nodes below every legal move,
      each made, counted and taken back. */
  function Perft(b: Board, depth: nat): (r: Counted)
    requires Valid(b)
    decreases depth, 1
    ensures r.board == b && r.nodes == |Lines(b, depth)|
  {
    if depth == 0 then Counted(1, b)
    else
      GeneratedPseudo(b);
      PerftLoop(b, GenerateMoves(b), 0, depth, 0)
  }

  /** Make a pseudo-legal move, count below it and take it back. */
  function PerftChild(b: Board, m: Move, depth: nat): (r: Counted)
    requires Valid(b) && Pseudo(b, m)
    decreases depth, 2
    ensures r.board == b && r.nodes == |ChildLines(b, m, depth)|
  {
    MakeMovePreservesValid(b, m);
    MakeUndoRoundTrip(b, m);
    var child := Perft(MakeMove(b, m), depth);
    Counted(child.nodes, UndoMove(child.board))
  }

  /** The move loop of `perft` from the `i`-th move on, with the nodes
      counted so far. */
  function PerftLoop(b: Board, moves: seq<Move>, i: int, depth: nat, nodes: int): (r: Counted)
    requires Valid(b) && depth > 0 && 0 <= i <= |moves|
    requires forall m | m in moves :: Pseudo(b, m)
    decreases depth, 0, |moves| - i
    ensures r.board == b && r.nodes == nodes + |LinesFrom(b, moves, i, depth)|
  {
    if i == |moves| then Counted(nodes, b)
    else
      var m := moves[i];
      var trial := TryMove(b, m);
      if !trial.legal then PerftLoop(trial.board, moves, i + 1, depth, nodes)
      else
        var child := PerftChild(trial.board, m, depth - 1);
        PerftLoop(child.board, moves, i + 1, depth, nodes + child.nodes)
  }

  /** The lines of `Extend(m, lines)` are those starting with `m` and going
      on with a line of `lines`. */
  lemma ExtendMembers(m: Move, lines: seq<seq<Move>>, line: seq<Move>)
    ensures line in Extend(m, lines) <==> line != [] && line[0] == m && line[1..] in lines
  {
    var r := Extend(m, lines);
    if line != [] && line[0] == m && line[1..] in lines {
      var k :| 0 <= k < |lines| && lines[k] == line[1..];
      assert r[k] == line;
    }
  }

  /** A line counted by `LinesFrom` starts with a legal move from the
      `i`-th of `moves` on and goes on with a line from the position after
      it, and every such line is counted. */
  lemma {:induction false} LinesFromMembers(b: Board, moves: seq<Move>, i: int, depth: nat, line: seq<Move>)
    requires Valid(b) && depth > 0 && 0 <= i <= |moves|
    requires forall m | m in moves :: Pseudo(b, m)
    decreases |moves| - i
    ensures line in LinesFrom(b, moves, i, depth) <==>
      && line != [] && line[0] in moves[i..]
      && (assert line[0] in moves; IsLegal(b, line[0]) && line[1..] in ChildLines(b, line[0], depth - 1))
  {
    if i < |moves| {
      LinesFromMembers(b, moves, i + 1, depth, line);
      DropFirst(moves, i);
      assert Pseudo(b, moves[i]) by { assert moves[i] in moves; }
      if IsLegal(b, moves[i]) {
        ExtendMembers(moves[i], ChildLines(b, moves[i], depth - 1), line);
      }
    }
  }

  /** One step of `LegalLine` at a pseudo-legal first move. */
  lemma LegalLineStep(b: Board, line: seq<Move>)
    requires Valid(b) && line != [] && Pseudo(b, line[0])
    ensures MakeMoveDefined(b, line[0]) && Valid(MakeMove(b, line[0]))
    ensures LegalLine(b, line) <==> IsLegal(b, line[0]) && LegalLine(MakeMove(b, line[0]), line[1..])
  {
    MakeMovePreservesValid(b, line[0]);
  }

  /** A legal line starts with a pseudo-legal move. */
  lemma LegalLineStarts(b: Board, line: seq<Move>)
    requires Valid(b) && line != []
    ensures LegalLine(b, line) ==> Pseudo(b, line[0])
  {}

  /** The lines after a move are those of the position it leads to. */
  lemma ChildLinesStep(b: Board, m: Move, depth: nat)
    requires Valid(b) && Pseudo(b, m)
    ensures MakeMoveDefined(b, m) && Valid(MakeMove(b, m))
    ensures ChildLines(b, m, depth) == Lines(MakeMove(b, m), depth)
  {
    MakeMovePreservesValid(b, m);
  }

  /** A line of `depth > 0` moves from `b` starts with a pseudo-legal move
      that passes `LegalMove`, and goes on with a line after it. */
  lemma LinesStep(b: Board, d: nat, line: seq<Move>)
    requires Valid(b)
    ensures line in Lines(b, d + 1) <==>
      line != [] && Pseudo(b, line[0]) && IsLegal(b, line[0]) && line[1..] in ChildLines(b, line[0], d)
  {
    var depth := d + 1;
    GeneratedPseudo(b);
    var moves := GenerateMoves(b);
    assert Lines(b, depth) == LinesFrom(b, moves, 0, depth);
    LinesFromMembers(b, moves, 0, depth, line);
    assert moves[0..] == moves;
    if line != [] {
      GeneratedExactlyPseudo(b, line[0]);
    }
  }

  /** A line not starting with a pseudo-legal move is neither a line of
      `Lines` nor a legal line. */
  lemma NoLinesWithoutFirstMove(b: Board, d: nat, line: seq<Move>)
    requires Valid(b)
    requires line == [] || !Pseudo(b, line[0])
    ensures line !in Lines(b, d + 1)
    ensures !(|line| == d + 1 && LegalLine(b, line))
  {
    LinesStep(b, d, line);
    if line != [] {
      LegalLineStarts(b, line);
    }
  }

  /** The lines after a pseudo-legal move are the legal lines of the
      position it leads to. */
  lemma {:induction false} ChildLinesAreLegalLines(b: Board, m: Move, depth: nat, rest: seq<Move>)
    requires Valid(b) && Pseudo(b, m)
    decreases depth, 2
    ensures MakeMoveDefined(b, m) && Valid(MakeMove(b, m))
    ensures rest in ChildLines(b, m, depth) <==> |rest| == depth && LegalLine(MakeMove(b, m), rest)
  {
    ChildLinesStep(b, m, depth);
    LinesAreLegalLines(MakeMove(b, m), depth, rest);
  }

  /** The lines of `depth` moves from `b` are exactly the legal lines of
      that length. */
  lemma {:induction false} LinesAreLegalLines(b: Board, depth: nat, line: seq<Move>)
    requires Valid(b)
    decreases depth, 1
    ensures line in Lines(b, depth) <==> |line| == depth && LegalLine(b, line)
  {
    if depth > 0 {
      var d: nat := depth - 1;
      if line != [] && Pseudo(b, line[0]) {
        ChildLinesAreLegalLines(b, line[0], d, line[1..]);
        LegalLineStep(b, line);
        LinesStep(b, d, line);
      } else {
        NoLinesWithoutFirstMove(b, d, line);
      }
    }
  }

  /** The counts of `divide`, keyed by the name of each legal first move,
      and the board as it leaves it. */
  datatype Divided = Divided(counts: map<string, int>, board: Board)

  /** `divide`: nothing at depth 0; else, for every legal move in
      generation order, the nodes below it stored under the move's
      four-character string. */
  function Divide(b: Board, depth: nat): (r: Divided)
    requires Valid(b)
    ensures r.board == b
    ensures depth == 0 ==> r.counts == map[]
  {
    DivideBy(b, depth, MoveString)
  }

  /** `divide` with the promotion written in the key, so that each legal
      move has a key of its own. */
  function DivideIntended(b: Board, depth: nat): (r: Divided)
    requires Valid(b)
    ensures r.board == b
    ensures depth == 0 ==> r.counts == map[]
  {
    DivideBy(b, depth, MoveName)
  }

  /** `divide` with the moves named by `name`. */
  function DivideBy(b: Board, depth: nat, name: Move -> string): (r: Divided)
    requires Valid(b)
    ensures r.board == b
    ensures depth == 0 ==> r.counts == map[]
  {
    if depth == 0 then Divided(map[], b)
    else
      GeneratedPseudo(b);
      DivideLoop(b, GenerateMoves(b), 0, depth, name, map[])
  }

  /** The move loop of `divide` from the `i`-th move on. */
  function DivideLoop(b: Board, moves: seq<Move>, i: int, depth: nat, name: Move -> string,
                      counts: map<string, int>): (r: Divided)
    requires Valid(b) && depth > 0 && 0 <= i <= |moves|
    requires forall m | m in moves :: Pseudo(b, m)
    decreases |moves| - i
    ensures r.board == b
  {
    if i == |moves| then Divided(counts, b)
    else
      var m := moves[i];
      var trial := TryMove(b, m);
      if !trial.legal then DivideLoop(trial.board, moves, i + 1, depth, name, counts)
      else
        var child := PerftChild(trial.board, m, depth - 1);
        DivideLoop(child.board, moves, i + 1, depth, name, counts[name(m) := child.nodes])
  }

  /** The legal moves among `moves` from the `i`-th on, in order. */
  function LegalFrom(b: Board, moves: seq<Move>, i: int): (r: seq<Move>)
    requires Valid(b) && 0 <= i <= |moves|
    requires forall m | m in moves :: Pseudo(b, m)
    decreases |moves| - i
    ensures forall m | m in r :: m in moves
  {
    if i == |moves| then []
    else (if IsLegal(b, moves[i]) then [moves[i]] else []) + LegalFrom(b, moves, i + 1)
  }

  /** A move is listed by `LegalFrom` exactly when it is one of the moves
      from the `i`-th on and legal. */
  lemma {:induction false} LegalFromMembers(b: Board, moves: seq<Move>, i: int, m: Move)
    requires Valid(b) && 0 <= i <= |moves|
    requires forall m | m in moves :: Pseudo(b, m)
    decreases |moves| - i
    ensures m in LegalFrom(b, moves, i) <==> m in moves[i..] && (assert m in moves; IsLegal(b, m))
  {
    if i < |moves| {
      LegalFromMembers(b, moves, i + 1, m);
      LegalFromLegal(b, moves, i);
      DropFirst(moves, i);
      var legal := IsLegal(b, moves[i]);
      assert m in LegalFrom(b, moves, i) <==> (legal && m == moves[i]) || m in LegalFrom(b, moves, i + 1);
      assert m in moves[i..] <==> m == moves[i] || m in moves[i + 1..];
    } else {
      assert LegalFrom(b, moves, i) == [];
      assert moves[i..] == [];
    }
  }

  /** No move is listed twice by `LegalFrom` when none is listed twice in
      `moves`. */
  lemma {:induction false} LegalFromOnce(b: Board, moves: seq<Move>, i: int)
    requires Valid(b) && 0 <= i <= |moves|
    requires forall m | m in moves :: Pseudo(b, m)
    requires Once(moves)
    decreases |moves| - i
    ensures Once(LegalFrom(b, moves, i))
  {
    if i < |moves| {
      LegalFromOnce(b, moves, i + 1);
      LegalFromOnceStep(b, moves, i);
    } else {
      assert LegalFrom(b, moves, i) == [];
    }
  }

  /** `LegalFrom` keeps each move once when the moves after the `i`-th
      are kept once. */
  lemma LegalFromOnceStep(b: Board, moves: seq<Move>, i: int)
    requires Valid(b) && 0 <= i < |moves|
    requires forall m | m in moves :: Pseudo(b, m)
    requires Once(moves) && Once(LegalFrom(b, moves, i + 1))
    ensures Once(LegalFrom(b, moves, i))
  {
    LegalFromMembers(b, moves, i + 1, moves[i]);
    OnceDrop(moves, i);
    LegalFromLegal(b, moves, i);
    if IsLegal(b, moves[i]) {
      OnceCons(moves[i], LegalFrom(b, moves, i + 1));
    }
  }

  /** In a list with each move once, no move comes back after itself. */
  lemma OnceDrop(moves: seq<Move>, i: int)
    requires Once(moves) && 0 <= i < |moves|
    ensures moves[i] !in moves[i + 1..]
  {}

  /** The moves from the `i`-th on are the `i`-th and those after it. */
  lemma DropFirst(moves: seq<Move>, i: int)
    requires 0 <= i < |moves|
    ensures moves[i..] == [moves[i]] + moves[i + 1..]
  {}

  /** The entries `divide` stores for the legal moves `legal`: each move's
      name and the number of lines below it. */
  ghost function Entries(b: Board, legal: seq<Move>, depth: nat, name: Move -> string): (r: seq<Entry>)
    requires Valid(b) && depth > 0
    requires forall m | m in legal :: Pseudo(b, m)
    ensures |r| == |legal|
    ensures forall k | 0 <= k < |r| :: r[k].0 == name(legal[k])
  {
    if legal == [] then []
    else [(name(legal[0]), |ChildLines(b, legal[0], depth - 1)|)] + Entries(b, legal[1..], depth, name)
  }

  /** The count stored for the `k`-th legal move is the number of lines
      below it. */
  lemma {:induction false} EntryCount(b: Board, legal: seq<Move>, depth: nat, name: Move -> string, k: int)
    requires Valid(b) && depth > 0
    requires forall m | m in legal :: Pseudo(b, m)
    requires 0 <= k < |legal|
    ensures Entries(b, legal, depth, name)[k].1 == |ChildLines(b, legal[k], depth - 1)|
  {
    if k > 0 {
      EntryCount(b, legal[1..], depth, name, k - 1);
    }
  }

  /** The `divide` loop stores the entries of the legal moves it meets,
      in order. */
  lemma {:induction false} DivideLoopStores(b: Board, moves: seq<Move>, i: int, depth: nat, name: Move -> string,
                                            counts: map<string, int>)
    requires Valid(b) && depth > 0 && 0 <= i <= |moves|
    requires forall m | m in moves :: Pseudo(b, m)
    decreases |moves| - i
    ensures DivideLoop(b, moves, i, depth, name, counts).counts == Store(counts, Entries(b, LegalFrom(b, moves, i), depth, name))
  {
    if i < |moves| {
      var rest := LegalFrom(b, moves, i + 1);
      if IsLegal(b, moves[i]) {
        var n := |ChildLines(b, moves[i], depth - 1)|;
        DivideLoopStep(b, moves, i, depth, name, counts, n);
        DivideLoopStores(b, moves, i + 1, depth, name, counts[name(moves[i]) := n]);
        LegalFromLegal(b, moves, i);
        EntriesCons(b, moves[i], rest, depth, name);
        StoreCons(counts, (name(moves[i]), n), Entries(b, rest, depth, name));
      } else {
        DivideLoopSkip(b, moves, i, depth, name, counts);
        DivideLoopStores(b, moves, i + 1, depth, name, counts);
        LegalFromLegal(b, moves, i);
      }
    } else {
      assert LegalFrom(b, moves, i) == [];
      assert Entries(b, [], depth, name) == [];
    }
  }

  /** `LegalFrom` at a legal move puts it in front. */
  lemma LegalFromLegal(b: Board, moves: seq<Move>, i: int)
    requires Valid(b) && 0 <= i < |moves|
    requires forall m | m in moves :: Pseudo(b, m)
    ensures LegalFrom(b, moves, i) == if IsLegal(b, moves[i]) then [moves[i]] + LegalFrom(b, moves, i + 1) else LegalFrom(b, moves, i + 1)
  {}

  /** The entries of a first legal move and the rest. */
  lemma EntriesCons(b: Board, m: Move, rest: seq<Move>, depth: nat, name: Move -> string)
    requires Valid(b) && depth > 0 && Pseudo(b, m)
    requires forall m | m in rest :: Pseudo(b, m)
    ensures Entries(b, [m] + rest, depth, name) == [(name(m), |ChildLines(b, m, depth - 1)|)] + Entries(b, rest, depth, name)
  {
    assert ([m] + rest)[1..] == rest;
  }

  /** One step of the `divide` loop at a legal move with `n` lines below
      it. */
  lemma DivideLoopStep(b: Board, moves: seq<Move>, i: int, depth: nat, name: Move -> string,
                       counts: map<string, int>, n: int)
    requires Valid(b) && depth > 0 && 0 <= i < |moves|
    requires forall m | m in moves :: Pseudo(b, m)
    requires IsLegal(b, moves[i]) && n == |ChildLines(b, moves[i], depth - 1)|
    ensures DivideLoop(b, moves, i, depth, name, counts) == DivideLoop(b, moves, i + 1, depth, name, counts[name(moves[i]) := n])
  {}

  /** The `divide` loop passes over an illegal move. */
  lemma DivideLoopSkip(b: Board, moves: seq<Move>, i: int, depth: nat, name: Move -> string,
                       counts: map<string, int>)
    requires Valid(b) && depth > 0 && 0 <= i < |moves|
    requires forall m | m in moves :: Pseudo(b, m)
    requires !IsLegal(b, moves[i])
    ensures DivideLoop(b, moves, i, depth, name, counts) == DivideLoop(b, moves, i + 1, depth, name, counts)
  {}

  /** The counts of the entries add up to the lines `LinesFrom` counts. */
  lemma {:induction false} EntriesTotal(b: Board, moves: seq<Move>, i: int, depth: nat, name: Move -> string)
    requires Valid(b) && depth > 0 && 0 <= i <= |moves|
    requires forall m | m in moves :: Pseudo(b, m)
    decreases |moves| - i
    ensures Total(Entries(b, LegalFrom(b, moves, i), depth, name)) == |LinesFrom(b, moves, i, depth)|
  {
    if i < |moves| {
      EntriesTotal(b, moves, i + 1, depth, name);
      LegalFromLegal(b, moves, i);
      LinesFromStep(b, moves, i, depth);
      var rest := LegalFrom(b, moves, i + 1);
      if IsLegal(b, moves[i]) {
        var n := |ChildLines(b, moves[i], depth - 1)|;
        EntriesCons(b, moves[i], rest, depth, name);
        TotalCons((name(moves[i]), n), Entries(b, rest, depth, name));
      }
    } else {
      assert LegalFrom(b, moves, i) == [];
      assert Entries(b, [], depth, name) == [];
    }
  }

  /** `LinesFrom` counts the lines below the `i`-th move if it is legal,
      then those of the moves after it. */
  lemma LinesFromStep(b: Board, moves: seq<Move>, i: int, depth: nat)
    requires Valid(b) && depth > 0 && 0 <= i < |moves|
    requires forall m | m in moves :: Pseudo(b, m)
    ensures |LinesFrom(b, moves, i, depth)| ==
      (if IsLegal(b, moves[i]) then |ChildLines(b, moves[i], depth - 1)| else 0) + |LinesFrom(b, moves, i + 1, depth)|
  {}

  /** The legal moves of `b`, in generation order. */
  ghost function LegalMoves(b: Board): (r: seq<Move>)
    requires Valid(b)
    ensures forall m | m in r :: Pseudo(b, m)
  {
    GeneratedPseudo(b);
    LegalFrom(b, GenerateMoves(b), 0)
  }

  /** The legal moves are the pseudo-legal moves that pass `LegalMove`. */
  lemma LegalMovesMembers(b: Board, m: Move)
    requires Valid(b)
    ensures m in LegalMoves(b) <==> Pseudo(b, m) && IsLegal(b, m)
  {
    GeneratedPseudo(b);
    var moves := GenerateMoves(b);
    LegalFromMembers(b, moves, 0, m);
    assert moves[0..] == moves;
    GeneratedExactlyPseudo(b, m);
  }

  /** `divide` stores the entries of the legal moves in generation order
      into an empty map, and `perft` is the total of those entries. */
  lemma DivideStores(b: Board, depth: nat, name: Move -> string)
    requires Valid(b) && depth > 0
    ensures DivideBy(b, depth, name).counts == Store(map[], Entries(b, LegalMoves(b), depth, name))
    ensures Perft(b, depth).nodes == Total(Entries(b, LegalMoves(b), depth, name))
  {
    GeneratedPseudo(b);
    var moves := GenerateMoves(b);
    DivideLoopStores(b, moves, 0, depth, name, map[]);
    EntriesTotal(b, moves, 0, depth, name);
  }

  /** Every legal move's name is a key of `divide`'s result. */
  lemma DivideHasMove(b: Board, depth: nat, name: Move -> string, m: Move)
    requires Valid(b) && depth > 0 && Pseudo(b, m) && IsLegal(b, m)
    ensures name(m) in DivideBy(b, depth, name).counts
  {
    DivideStores(b, depth, name);
    var legal := LegalMoves(b);
    var es := Entries(b, legal, depth, name);
    LegalMovesMembers(b, m);
    var k :| 0 <= k < |legal| && legal[k] == m;
    assert es[k].0 == name(m);
    StoreNames(map[], es);
  }

  /** Every key of `divide`'s result is the name of a legal move. */
  lemma DivideKeyFrom(b: Board, depth: nat, name: Move -> string, s: string) returns (m: Move)
    requires Valid(b) && depth > 0
    requires s in DivideBy(b, depth, name).counts
    ensures Pseudo(b, m) && IsLegal(b, m) && name(m) == s
  {
    DivideStores(b, depth, name);
    var legal := LegalMoves(b);
    var es := Entries(b, legal, depth, name);
    StoreNames(map[], es);
    var k := NameFrom(es, s);
    m := legal[k];
    LegalMovesMembers(b, m);
  }

  /** The count `divide` stores under the name of a legal move that no
      other legal move shares is the `perft` count of the position after
      it, one ply shallower. */
  lemma DivideValue(b: Board, depth: nat, name: Move -> string, m: Move)
    requires Valid(b) && depth > 0 && Pseudo(b, m) && IsLegal(b, m)
    requires forall n | Pseudo(b, n) && IsLegal(b, n) && name(n) == name(m) :: n == m
    ensures MakeMoveDefined(b, m) && Valid(MakeMove(b, m))
    ensures name(m) in DivideBy(b, depth, name).counts
    ensures DivideBy(b, depth, name).counts[name(m)] == Perft(MakeMove(b, m), depth - 1).nodes
  {
    DivideStores(b, depth, name);
    ChildLinesStep(b, m, depth - 1);
    var legal := LegalMoves(b);
    var es := Entries(b, legal, depth, name);
    LegalMovesMembers(b, m);
    forall k | 0 <= k < |legal| && name(legal[k]) == name(m)
      ensures legal[k] == m
    {
      LegalMovesMembers(b, legal[k]);
    }
    forall k | 0 <= k < |legal| && legal[k] == m
      ensures es[k].1 == |ChildLines(b, m, depth - 1)|
    {
      EntryCount(b, legal, depth, name, k);
    }
    var k0 :| 0 <= k0 < |legal| && legal[k0] == m;
    UniformEntries(es, legal, name, m, |ChildLines(b, m, depth - 1)|);
    assert es[k0].0 == name(m);
    StoreUniform(map[], es, name(m), |ChildLines(b, m, depth - 1)|);
  }

  /** Entries named after their moves, where only `m` carries the name of `m` and every entry of `m` counts `v`: every entry
      under that name counts `v`. */
  lemma UniformEntries(es: seq<Entry>, legal: seq<Move>, name: Move -> string, m: Move, v: int)
    requires |es| == |legal|
    requires forall k | 0 <= k < |es| :: es[k].0 == name(legal[k])
    requires forall k | 0 <= k < |legal| && name(legal[k]) == name(m) :: legal[k] == m
    requires forall k | 0 <= k < |legal| && legal[k] == m :: es[k].1 == v
    ensures forall k | 0 <= k < |es| && es[k].0 == name(m) :: es[k].1 == v
  {
    var n := name(m);
    forall k | 0 <= k < |es| && es[k].0 == n
      ensures es[k].1 == v
    {
      assert name(legal[k]) == n;
    }
  }

  /** Each legal move adds one line of one move. */
  lemma {:induction false} EntriesAtOne(b: Board, legal: seq<Move>, name: Move -> string)
    requires Valid(b)
    requires forall m | m in legal :: Pseudo(b, m)
    ensures Total(Entries(b, legal, 1, name)) == |legal|
  {
    if legal != [] {
      EntriesAtOne(b, legal[1..], name);
      TotalHead(b, legal, 1, name);
      OneLineBelow(b, legal[0]);
    }
  }

  /** The total of the entries: the first move's lines, then the rest. */
  lemma TotalHead(b: Board, legal: seq<Move>, depth: nat, name: Move -> string)
    requires Valid(b) && depth > 0 && legal != []
    requires forall m | m in legal :: Pseudo(b, m)
    ensures Total(Entries(b, legal, depth, name)) ==
      |ChildLines(b, legal[0], depth - 1)| + Total(Entries(b, legal[1..], depth, name))
  {
    TotalCons((name(legal[0]), |ChildLines(b, legal[0], depth - 1)|), Entries(b, legal[1..], depth, name));
  }

  /** Below any move there is exactly one line of no further moves. */
  lemma OneLineBelow(b: Board, m: Move)
    requires Valid(b) && Pseudo(b, m)
    ensures |ChildLines(b, m, 0)| == 1
  {
    ChildLinesStep(b, m, 0);
  }

  /** `perft` to depth one counts the legal moves. */
  lemma LegalCount(b: Board)
    requires Valid(b)
    ensures Perft(b, 1).nodes == |LegalMoves(b)|
  {
    DivideStores(b, 1, MoveString);
    EntriesAtOne(b, LegalMoves(b), MoveString);
  }

  /** With no two legal moves sharing a name, `divide` has one key per
      legal move and its counts add up to `perft`. */
  lemma DivideTotal(b: Board, depth: nat, name: Move -> string)
    requires Valid(b) && depth > 0
    requires forall m1, m2 | Pseudo(b, m1) && IsLegal(b, m1) && Pseudo(b, m2) && IsLegal(b, m2) && name(m1) == name(m2) :: m1 == m2
    ensures SumMap(DivideBy(b, depth, name).counts) == Perft(b, depth).nodes
    ensures |DivideBy(b, depth, name).counts| == Perft(b, 1).nodes
  {
    DivideStores(b, depth, name);
    LegalCount(b);
    GeneratedPseudo(b);
    GenerateMovesOnce(b);
    LegalFromOnce(b, GenerateMoves(b), 0);
    var legal := LegalMoves(b);
    var es := Entries(b, legal, depth, name);
    forall j, k | 0 <= j < k < |es|
      ensures es[j].0 != es[k].0
    {
      LegalMovesMembers(b, legal[j]);
      LegalMovesMembers(b, legal[k]);
    }
    StoreTotal(map[], es);
    StoreCount(es);
    assert SumMap(map[]) == 0;
  }

  /** With the promotion in the key, `divide` has one key per legal move
      and its counts add up to `perft`. */
  lemma DivideIntendedTotal(b: Board, depth: nat)
    requires Valid(b) && depth > 0
    ensures SumMap(DivideIntended(b, depth).counts) == Perft(b, depth).nodes
    ensures |DivideIntended(b, depth).counts| == Perft(b, 1).nodes
  {
    forall m1, m2 | Pseudo(b, m1) && IsLegal(b, m1) && Pseudo(b, m2) && IsLegal(b, m2) && MoveName(m1) == MoveName(m2)
      ensures m1 == m2
    {
      MoveNameDistinct(b, m1, m2);
    }
    DivideTotal(b, depth, MoveName);
  }

  /** Two legal moves between the same squares, such as the promotions of
      one pawn, share one key of `divide`, which therefore has fewer keys
      than there are legal moves. */
  lemma DivideMergesPromotions(b: Board, depth: nat, m1: Move, m2: Move)
    requires Valid(b) && depth > 0
    requires Pseudo(b, m1) && IsLegal(b, m1) && Pseudo(b, m2) && IsLegal(b, m2)
    requires m1 != m2 && m1.from == m2.from && m1.to == m2.to
    ensures MoveString(m1) == MoveString(m2)
    ensures |Divide(b, depth).counts| < Perft(b, 1).nodes
  {
    var j1 := LegalIndex(b, m1);
    var j2 := LegalIndex(b, m2);
    MergedCount(b, depth, j1, j2);
  }

  /** Where a legal move stands in the list of legal moves. */
  lemma LegalIndex(b: Board, m: Move) returns (j: int)
    requires Valid(b) && Pseudo(b, m) && IsLegal(b, m)
    ensures 0 <= j < |LegalMoves(b)| && LegalMoves(b)[j] == m
  {
    LegalMovesMembers(b, m);
    j :| 0 <= j < |LegalMoves(b)| && LegalMoves(b)[j] == m;
  }

  /** Two legal moves with one name leave fewer keys than there are legal
      moves. */
  lemma MergedCount(b: Board, depth: nat, j1: int, j2: int)
    requires Valid(b) && depth > 0
    requires 0 <= j1 < |LegalMoves(b)| && 0 <= j2 < |LegalMoves(b)| && j1 != j2
    requires MoveString(LegalMoves(b)[j1]) == MoveString(LegalMoves(b)[j2])
    ensures |Divide(b, depth).counts| < Perft(b, 1).nodes
  {
    SharedName(b, LegalMoves(b), depth, MoveString, j1, j2);
    DivideStores(b, depth, MoveString);
    LegalCount(b);
    StoreCount(Entries(b, LegalMoves(b), depth, MoveString));
  }

  /** Two legal moves with one name make the entries' names not
      distinct. */
  lemma SharedName(b: Board, legal: seq<Move>, depth: nat, name: Move -> string, j1: int, j2: int)
    requires Valid(b) && depth > 0
    requires forall m | m in legal :: Pseudo(b, m)
    requires 0 <= j1 < |legal| && 0 <= j2 < |legal| && j1 != j2
    requires name(legal[j1]) == name(legal[j2])
    ensures !Distinct(Entries(b, legal, depth, name))
  {
    var es := Entries(b, legal, depth, name);
    if j1 < j2 {
      assert es[j1].0 == es[j2].0;
    } else {
      assert es[j2].0 == es[j1].0;
    }
  }
}

=== FILE: perftlaws.dfy ===
/** Perft counts no line twice: the lines of a depth are pairwise
    different, so the count is the number of different legal lines. */
module PerftLaws {
  import opened Pieces
  import opened Position
  import opened MoveGen
  import opened PseudoLegal
  import opened Execute
  import opened MoveLaws
  import opened Legality
  import opened Distinctness
  import opened Perft

  /** No line of `lines` appears twice: the first is not among the rest,
      and neither is any later one. */
  ghost predicate DistinctLines(lines: seq<seq<Move>>)
    decreases |lines|
  {
    || lines == []
    || (lines[0] !in lines[1..] && DistinctLines(lines[1..]))
  }

  /** Whether the lines after a pseudo-legal move are pairwise different. */
  ghost predicate ChildLinesDistinct(b: Board, m: Move, depth: nat)
    requires Valid(b) && Pseudo(b, m)
  {
    DistinctLines(ChildLines(b, m, depth))
  }

  /** `DistinctLines` says that lines at different positions differ. */
  lemma {:induction false} DistinctLinesIndex(lines: seq<seq<Move>>)
    decreases |lines|
    ensures DistinctLines(lines) <==> forall j, k | 0 <= j < k < |lines| :: lines[j] != lines[k]
  {
    if lines != [] {
      var rest := lines[1..];
      DistinctLinesIndex(rest);
      assert forall k | 0 <= k < |rest| :: rest[k] == lines[k + 1];
      if forall j, k | 0 <= j < k < |lines| :: lines[j] != lines[k] {
        assert lines[0] !in rest by {
          forall k | 0 <= k < |rest|
            ensures rest[k] != lines[0]
          {
            assert lines[0] != lines[k + 1];
          }
        }
      }
      if DistinctLines(lines) {
        forall j, k | 0 <= j < k < |lines|
          ensures lines[j] != lines[k]
        {
          if j == 0 {
            assert lines[k] == rest[k - 1];
          } else {
            assert lines[j] == rest[j - 1] && lines[k] == rest[k - 1];
          }
        }
      }
    }
  }

  /** Putting the same move in front keeps distinct lines distinct. */
  lemma {:induction false} ExtendDistinct(m: Move, lines: seq<seq<Move>>)
    requires DistinctLines(lines)
    decreases |lines|
    ensures DistinctLines(Extend(m, lines))
  {
    if lines != [] {
      ExtendDistinct(m, lines[1..]);
      ExtendMembers(m, lines[1..], [m] + lines[0]);
      assert ([m] + lines[0])[1..] == lines[0];
      assert Extend(m, lines)[1..] == Extend(m, lines[1..]);
    }
  }

  /** Two lists of distinct lines with no line in common join into one. */
  lemma {:induction false} ConcatDistinct(a: seq<seq<Move>>, c: seq<seq<Move>>)
    requires DistinctLines(a) && DistinctLines(c)
    requires forall l | l in a :: l !in c
    decreases |a|
    ensures DistinctLines(a + c)
  {
    if a == [] {
      assert a + c == c;
    } else {
      ConcatDistinct(a[1..], c);
      assert (a + c)[1..] == a[1..] + c;
      assert a[0] in a;
    }
  }

  /** `perft` counts no line twice: the lines of a depth are distinct,
      because the generator lists each move once and lines starting with
      different moves differ. */
  lemma {:induction false} LinesOnce(b: Board, depth: nat)
    requires Valid(b)
    decreases depth, 1
    ensures DistinctLines(Lines(b, depth))
  {
    if depth > 0 {
      GeneratedPseudo(b);
      ValidIsGenerable(b);
      GenerateMovesOnce(b);
      ChildrenOnce(b, GenerateMoves(b), 0, depth);
      LinesFromOnce(b, GenerateMoves(b), 0, depth);
    }
  }

  /** The lines below each move from the `i`-th of `moves` on are
      distinct. */
  ghost predicate ChildrenDistinct(b: Board, moves: seq<Move>, i: int, depth: nat)
    requires Valid(b) && depth > 0 && 0 <= i <= |moves|
    requires forall m | m in moves :: Pseudo(b, m)
    decreases |moves| - i
  {
    || i == |moves|
    || (&& (assert moves[i] in moves; ChildLinesDistinct(b, moves[i], depth - 1))
        && ChildrenDistinct(b, moves, i + 1, depth))
  }

  /** Below every pseudo-legal move the lines are distinct, by induction
      on the depth. */
  lemma {:induction false} ChildrenOnce(b: Board, moves: seq<Move>, i: int, depth: nat)
    requires Valid(b) && depth > 0 && 0 <= i <= |moves|
    requires forall m | m in moves :: Pseudo(b, m)
    decreases depth, 0, |moves| - i, 1
    ensures ChildrenDistinct(b, moves, i, depth)
  {
    if i < |moves| {
      ChildrenOnce(b, moves, i + 1, depth);
      ChildrenStep(b, moves, i, depth);
    }
  }

  /** One step of `ChildrenOnce`: the lines below the `i`-th move are
      distinct too. */
  lemma ChildrenStep(b: Board, moves: seq<Move>, i: int, depth: nat)
    requires Valid(b) && depth > 0 && 0 <= i < |moves|
    requires forall m | m in moves :: Pseudo(b, m)
    requires ChildrenDistinct(b, moves, i + 1, depth)
    decreases depth, 0, |moves| - i, 0
    ensures ChildrenDistinct(b, moves, i, depth)
  {
    assert moves[i] in moves;
    ChildLinesOnce(b, moves[i], depth - 1);
  }

  /** The lines after a pseudo-legal move are distinct. */
  lemma {:induction false} ChildLinesOnce(b: Board, m: Move, depth: nat)
    requires Valid(b) && Pseudo(b, m)
    decreases depth, 2
    ensures ChildLinesDistinct(b, m, depth)
  {
    ChildLinesStep(b, m, depth);
    LinesOnce(MakeMove(b, m), depth);
  }

  /** The lines from the `i`-th of a repeat-free list of moves on are
      distinct when the lines below each move are. */
  lemma {:induction false} LinesFromOnce(b: Board, moves: seq<Move>, i: int, depth: nat)
    requires Valid(b) && depth > 0 && 0 <= i <= |moves|
    requires forall m | m in moves :: Pseudo(b, m)
    requires ChildrenDistinct(b, moves, i, depth) && Once(moves)
    decreases |moves| - i
    ensures DistinctLines(LinesFrom(b, moves, i, depth))
  {
    if i < |moves| {
      LinesFromOnce(b, moves, i + 1, depth);
      LinesFromOnceStep(b, moves, i, depth);
    }
  }

  /** One step of `LinesFromOnce`: the `i`-th move adds no repeated line
      to the distinct lines from the next move on. */
  lemma LinesFromOnceStep(b: Board, moves: seq<Move>, i: int, depth: nat)
    requires Valid(b) && depth > 0 && 0 <= i < |moves|
    requires forall m | m in moves :: Pseudo(b, m)
    requires ChildrenDistinct(b, moves, i, depth) && Once(moves)
    requires DistinctLines(LinesFrom(b, moves, i + 1, depth))
    ensures DistinctLines(LinesFrom(b, moves, i, depth))
  {
    var m := moves[i];
    assert Pseudo(b, m) by { assert m in moves; }
    if IsLegal(b, m) {
      LinesFromConsDistinct(b, moves, i, depth);
    } else {
      LinesFromIllegal(b, moves, i, depth);
    }
  }

  /** At an illegal move, the lines from it on are those from the next
      move on. */
  lemma LinesFromIllegal(b: Board, moves: seq<Move>, i: int, depth: nat)
    requires Valid(b) && depth > 0 && 0 <= i < |moves|
    requires forall m | m in moves :: Pseudo(b, m)
    requires !IsLegal(b, moves[i])
    ensures LinesFrom(b, moves, i, depth) == LinesFrom(b, moves, i + 1, depth)
  {
    assert LinesFrom(b, moves, i, depth) == [] + LinesFrom(b, moves, i + 1, depth);
  }

  /** At a legal move of a repeat-free list, distinct lines below the move
      and distinct lines from the next move on give distinct lines from
      the move on: every line through the move starts with it, and no line
      from a later move does. */
  lemma LinesFromConsDistinct(b: Board, moves: seq<Move>, i: int, depth: nat)
    requires Valid(b) && depth > 0 && 0 <= i < |moves|
    requires forall m | m in moves :: Pseudo(b, m)
    requires Once(moves) && IsLegal(b, moves[i])
    requires ChildLinesDistinct(b, moves[i], depth - 1)
    requires DistinctLines(LinesFrom(b, moves, i + 1, depth))
    ensures DistinctLines(LinesFrom(b, moves, i, depth))
  {
    var m := moves[i];
    var below := ChildLines(b, m, depth - 1);
    var head := Extend(m, below);
    var tail := LinesFrom(b, moves, i + 1, depth);
    assert LinesFrom(b, moves, i, depth) == head + tail;
    ExtendDistinct(m, below);
    OnceDrop(moves, i);
    forall l | l in head
      ensures l !in tail
    {
      ExtendMembers(m, below, l);
      LinesFromMembers(b, moves, i + 1, depth, l);
    }
    ConcatDistinct(head, tail);
  }

  /** A list of distinct lines has as many lines as the set of its lines. */
  lemma {:induction false} DistinctCard(lines: seq<seq<Move>>)
    requires DistinctLines(lines)
    decreases |lines|
    ensures |set l | l in lines| == |lines|
  {
    if lines != [] {
      var rest := lines[1..];
      DistinctCard(rest);
      assert (set l | l in lines) == {lines[0]} + (set l | l in rest) by {
        assert lines == [lines[0]] + rest;
      }
    }
  }

  /** No line of `depth` legal moves is listed twice by `Lines`. */
  lemma LinesDistinct(b: Board, depth: nat)
    requires Valid(b)
    ensures forall j, k | 0 <= j < k < |Lines(b, depth)| :: Lines(b, depth)[j] != Lines(b, depth)[k]
  {
    LinesOnce(b, depth);
    DistinctLinesIndex(Lines(b, depth));
  }

  /** `perft` is the number of different legal lines of `depth` moves. */
  lemma PerftCountsLines(b: Board, depth: nat)
    requires Valid(b)
    ensures Perft.Perft(b, depth).nodes == |set l | l in Lines(b, depth)|
  {
    LinesOnce(b, depth);
    DistinctCard(Lines(b, depth));
  }
}

=== FILE: pieces.dfy ===
/** Piece codes: a three-bit piece type combined with a colour flag, and the
    one-letter notation used by FEN. */
module Pieces {
  import opened Bits

  const EMPTY := 0
  const PAWN := 1
  const KNIGHT := 2
  const BISHOP := 3
  const ROOK := 4
  const QUEEN := 5
  const KING := 6

  const BLACK := 0
  /** The colour flag; a black piece code is its bare type. */
  const WHITE := 8

  /** Promotion pieces in the order the generator expands them. */
  const PROMOTION_PIECES: seq<int> := [QUEEN, ROOK, BISHOP, KNIGHT]

  /** `p & 7`. */
  function PieceType(p: int): (t: int)
    ensures 0 <= t < 8
  {
    p % 8
  }

  lemma PieceTypeIsMask(p: int)
    ensures PieceType(p) == And8(p, 7)
  {
    Mask7(p);
  }

  /** `p & WHITE`. */
  function Colour(p: int): (c: int)
    ensures c == WHITE || c == BLACK
  {
    if p % 16 >= 8 then WHITE else BLACK
  }

  lemma ColourIsMask(p: int)
    ensures Colour(p) == And8(p, 8)
  {
    Mask8(p);
  }

  /** `p & WHITE ^ WHITE`: the colour flag flipped. */
  function OpponentColour(p: int): (c: int)
    ensures c == WHITE || c == BLACK
    ensures c != Colour(p)
  {
    if Colour(p) == WHITE then BLACK else WHITE
  }

  /** The codes a board cell can hold: empty, or a black or white pawn,
      knight, bishop, rook, queen or king. */
  predicate ValidPiece(p: int)
  {
    p == EMPTY || (1 <= p <= 6) || (9 <= p <= 14)
  }

  /** `colour | type` for a colour flag and a type below 8. */
  function Code(colour: int, pieceType: int): (p: int)
    requires colour == WHITE || colour == BLACK
    requires 0 <= pieceType < 8
    ensures PieceType(p) == pieceType && Colour(p) == colour
  {
    colour + pieceType
  }

  lemma ValidPieceParts(p: int)
    requires ValidPiece(p) && p != EMPTY
    ensures p == Code(Colour(p), PieceType(p))
    ensures 1 <= PieceType(p) <= 6
  {}

  predicate IsAsciiLower(c: char) { 'a' <= c <= 'z' }
  predicate IsAsciiUpper(c: char) { 'A' <= c <= 'Z' }

  /** Lower-casing restricted to ASCII letters. */
  function ToLower(c: char): char
  {
    if IsAsciiUpper(c) then (c as int + 32) as char else c
  }

  /** The piece letter's code, with case taken in ASCII only: an ASCII
      lower-case letter gives its piece type, or 0 when it names none; any
      other character is its own upper-case form here, so it gets the WHITE
      flag on top of the type of its lower-case form, and an unknown one
      gives a bare 8.  Letters outside ASCII that have another case are
      read differently by Unicode case mapping. */
  function PieceFromNotation(symbol: char): (p: int)
    ensures 0 <= p <= 14
    ensures p >= WHITE <==> !IsAsciiLower(symbol)
  {
    var base :=
      match ToLower(symbol)
      case 'p' => PAWN
      case 'n' => KNIGHT
      case 'b' => BISHOP
      case 'r' => ROOK
      case 'q' => QUEEN
      case 'k' => KING
      case _ => EMPTY;
    if IsAsciiLower(symbol) then base else base + WHITE
  }

  /** The FEN letter of a piece; a blank for a code with no piece type. */
  function PieceToNotation(piece: int): (s: string)
    ensures |s| == 1
  {
    var lower :=
      match PieceType(piece)
      case 1 => 'p'
      case 2 => 'n'
      case 3 => 'b'
      case 4 => 'r'
      case 5 => 'q'
      case 6 => 'k'
      case _ => ' ';
    if Colour(piece) == WHITE && lower != ' ' then [(lower as int - 32) as char] else [lower]
  }

  /** Letters are neither digits, rank separators nor field separators. */
  predicate IsPieceLetter(c: char)
  {
    c in "pnbrqkPNBRQK"
  }

  /** Printing a piece and reading the letter back gives the same code. */
  lemma PieceNotationRoundTrip(p: int)
    requires ValidPiece(p) && p != EMPTY
    ensures IsPieceLetter(PieceToNotation(p)[0])
    ensures PieceFromNotation(PieceToNotation(p)[0]) == p
  {}

  /** Reading a letter and printing it back gives the same letter. */
  lemma PieceLetterRoundTrip(c: char)
    requires IsPieceLetter(c)
    ensures ValidPiece(PieceFromNotation(c)) && PieceFromNotation(c) != EMPTY
    ensures PieceToNotation(PieceFromNotation(c)) == [c]
  {
    assert c == 'p' || c == 'n' || c == 'b' || c == 'r' || c == 'q' || c == 'k'
        || c == 'P' || c == 'N' || c == 'B' || c == 'R' || c == 'Q' || c == 'K';
  }
}

=== FILE: pseudolegal.dfy ===
/** An independent, move-by-move description of pseudo-legality, and the
    theorem that the generator produces exactly the moves it admits. */
module PseudoLegal {
  import opened Pieces
  import opened Squares
  import opened Position
  import opened Attacks
  import opened MoveGen

  /** Some direction of `dirs` leads from `m.from` to `m.to` over empty
      squares only. */
  predicate SlidesTo(b: Board, m: Move, dirs: seq<int>)
    requires SmallOffsets(dirs) && 0 <= m.from < 128
  {
    ClearAlong(b, m.from, m.to, dirs)
  }

  /** The forward step of the side to move's pawns. */
  function Forward(b: Board): int
  {
    if b.whiteToMove then N else S
  }

  /** A pawn push by the side to move: one step forward onto an empty
      square, or two steps from the home rank over an empty square. */
  predicate PushShape(b: Board, m: Move)
    requires OnBoard(m.from) && OnBoard(m.to)
  {
    var f := Forward(b);
    || (m.to == m.from + f && b.squares[m.to] == EMPTY)
    || (m.to == m.from + 2 * f && RankBase(m.from) == (if b.whiteToMove then 0x10 else 0x60)
        && b.squares[m.from + f] == EMPTY && b.squares[m.to] == EMPTY)
  }

  /** A pawn capture by the side to move: one diagonal step forward onto
      the en-passant square or an occupied one. */
  predicate CaptureShape(b: Board, m: Move)
    requires OnBoard(m.from) && OnBoard(m.to)
  {
    && (m.to == m.from + Forward(b) + E || m.to == m.from + Forward(b) + W)
    && (m.to == b.ep || b.squares[m.to] != EMPTY)
  }

  predicate PawnShape(b: Board, m: Move)
    requires OnBoard(m.from) && OnBoard(m.to)
  {
    PushShape(b, m) || CaptureShape(b, m)
  }

  /** A king move: one step in any direction, or two steps sideways when
      castling that way is legal. */
  predicate KingMove(b: Board, m: Move)
    requires OnBoard(m.from) && OnBoard(m.to)
    requires 0 <= b.whiteKing < 128 && 0 <= b.blackKing < 128
  {
    var d := m.to - m.from;
    && m.promotion == EMPTY
    && (|| d in DIAGONALS_AND_LINES
        || (d == 2 && CastlingLegal(b, m.from, E))
        || (d == -2 && m.from >= 3 && CastlingLegal(b, m.from, W)))
  }

  /** A pawn move, with a promotion code exactly when it leaves the rank
      before the pawn's last. */
  predicate PawnMove(b: Board, m: Move)
    requires OnBoard(m.from) && OnBoard(m.to)
  {
    var own := Colour(b.squares[m.from]);
    && PawnShape(b, m)
    && if PromotesFrom(m.from, own)
       then exists k | 0 <= k < 4 :: m.promotion == own + PROMOTION_PIECES[k]
       else m.promotion == EMPTY
  }

  /** How each kind of piece moves; promotion codes only on pawn moves. */
  predicate Moves(b: Board, m: Move)
    requires OnBoard(m.from) && OnBoard(m.to)
    requires 0 <= b.whiteKing < 128 && 0 <= b.blackKing < 128
  {
    match PieceType(b.squares[m.from])
    case 1 => PawnMove(b, m)
    case 2 => m.promotion == EMPTY && (m.to - m.from) in KNIGHT_MOVES
    case 3 => m.promotion == EMPTY && SlidesTo(b, m, DIAGONALS)
    case 4 => m.promotion == EMPTY && SlidesTo(b, m, LINES)
    case 5 => m.promotion == EMPTY && SlidesTo(b, m, DIAGONALS_AND_LINES)
    case 6 => KingMove(b, m)
    case _ => false
  }

  /** A pseudo-legal move: a piece of the side to move goes, as its kind
      moves, to a board square that is empty or holds an opposing piece. */
  predicate Pseudo(b: Board, m: Move)
    requires 0 <= b.whiteKing < 128 && 0 <= b.blackKing < 128
  {
    && OnBoard(m.from) && OnBoard(m.to)
    && OwnPiece(b, m.from)
    && Enterable(b, m.from, m.to)
    && Moves(b, m)
  }

  /** A pseudo-legal move goes somewhere. */
  lemma PseudoMoves(b: Board, m: Move)
    requires 0 <= b.whiteKing < 128 && 0 <= b.blackKing < 128
    requires Pseudo(b, m)
    ensures m.from != m.to
  {}

  /** A piece's moves, as far as the piece itself decides them. */
  predicate PieceMove(b: Board, i: int, m: Move)
    requires 0 <= i < 128 && Valid(b)
  {
    OnBoard(i) && m.from == i && OnBoard(m.to) && Enterable(b, i, m.to) && Moves(b, m)
  }

  lemma SingleMovesExactly(b: Board, i: int, offsets: seq<int>, m: Move)
    requires 0 <= i < 128 && SmallOffsets(offsets)
    ensures m in GenerateSingleMoves(b, i, offsets) <==>
      m.from == i && m.promotion == EMPTY && OnBoard(m.to) && Enterable(b, i, m.to)
      && (m.to - i) in offsets
  {}

  lemma SlidesExactly(b: Board, i: int, offsets: seq<int>, m: Move)
    requires 0 <= i < 128 && SmallOffsets(offsets)
    ensures m in GenerateSlides(b, i, offsets) <==>
      m.from == i && m.promotion == EMPTY && OnBoard(m.to) && Enterable(b, i, m.to)
      && SlidesTo(b, m, offsets)
  {}

  /** A king move that is not two files sideways is generated exactly when
      it is one of the single steps. */
  lemma KingStepExactly(b: Board, i: int, m: Move)
    requires 0 <= i < 128 && 0 <= b.whiteKing < 128 && 0 <= b.blackKing < 128 && CastleIndexable(b, i)
    requires m.to - i != 2 && m.to - i != -2
    ensures m in GenerateKingMoves(b, i) <==> m in GenerateSingleMoves(b, i, DIAGONALS_AND_LINES)
  {}

  /** A two-file king move is generated exactly when castling that way is
      legal. */
  lemma KingCastleExactly(b: Board, i: int, dir: int)
    requires 0 <= i < 128 && 0 <= b.whiteKing < 128 && 0 <= b.blackKing < 128 && CastleIndexable(b, i)
    requires dir == E || dir == W
    ensures Move(i, i + 2 * dir, EMPTY) in GenerateKingMoves(b, i) <==>
      RightToCastle(b, dir) && CastlingLegal(b, i, dir)
  {
    OffsetTables();
    var singles := GenerateSingleMoves(b, i, DIAGONALS_AND_LINES);
    assert Move(i, i + 2 * dir, EMPTY) !in singles;
  }

  /** A legal castling lands on an empty board square. */
  lemma CastleLanding(b: Board, i: int, dir: int)
    requires OnBoard(i) && 0 <= b.whiteKing < 128 && 0 <= b.blackKing < 128
    requires RightToCastle(b, E) || RightToCastle(b, W) ==> i == 0x04 || i == 0x74
    requires dir == E || dir == W
    requires CastleIndexable(b, i)
    requires CastlingLegal(b, i, dir)
    ensures OnBoard(i + 2 * dir) && Enterable(b, i, i + 2 * dir)
  {
    assert b.squares[i + 2 * dir] == EMPTY;
    if i == 0x04 {
      assert OnBoard(0x02) && OnBoard(0x06);
    } else {
      assert i == 0x74 && OnBoard(0x72) && OnBoard(0x76);
    }
  }

  lemma KingCastleMoveExactly(b: Board, i: int, m: Move)
    requires OnBoard(i) && 0 <= b.whiteKing < 128 && 0 <= b.blackKing < 128
    requires RightToCastle(b, E) || RightToCastle(b, W) ==> i == 0x04 || i == 0x74
    requires m.from == i && m.promotion == EMPTY && (m.to - i == 2 || m.to - i == -2)
    ensures CastleIndexable(b, i)
    ensures m in GenerateKingMoves(b, i) <==>
      OnBoard(m.to) && Enterable(b, i, m.to) && KingMove(b, m)
  {
    var dir := if m.to - i == 2 then E else W;
    KingCastleExactly(b, i, dir);
    assert m == Move(i, i + 2 * dir, EMPTY);
    if CastlingLegal(b, i, dir) {
      CastleLanding(b, i, dir);
    }
  }

  lemma KingStepMoveExactly(b: Board, i: int, m: Move)
    requires OnBoard(i) && 0 <= b.whiteKing < 128 && 0 <= b.blackKing < 128
    requires RightToCastle(b, E) || RightToCastle(b, W) ==> i == 0x04 || i == 0x74
    requires m.from == i && m.to - i != 2 && m.to - i != -2
    ensures CastleIndexable(b, i)
    ensures m in GenerateKingMoves(b, i) <==>
      OnBoard(m.to) && Enterable(b, i, m.to) && KingMove(b, m)
  {
    OffsetTables();
    HomeIndexable(b, i);
    KingStepExactly(b, i, m);
    SingleMovesExactly(b, i, DIAGONALS_AND_LINES, m);
    if OnBoard(m.to) {
      KingStepMove(b, i, m);
    }
  }

  /** A king that holds a castling right only on its home square can look
      three files to either side. */
  lemma HomeIndexable(b: Board, i: int)
    requires OnBoard(i)
    requires RightToCastle(b, E) || RightToCastle(b, W) ==> i == 0x04 || i == 0x74
    ensures CastleIndexable(b, i)
  {}

  /** A king move that is not two files sideways is one of the single
      steps. */
  lemma KingStepMove(b: Board, i: int, m: Move)
    requires OnBoard(m.from) && OnBoard(m.to) && 0 <= b.whiteKing < 128 && 0 <= b.blackKing < 128
    requires m.from == i && m.to - i != 2 && m.to - i != -2
    ensures KingMove(b, m) <==> m.promotion == EMPTY && (m.to - i) in DIAGONALS_AND_LINES
  {}

  /** A king of the side to move: castling lands two files over, which is
      still on the board because a right is only held from the home square. */
  lemma KingMovesExactly(b: Board, i: int, m: Move)
    requires OnBoard(i) && 0 <= b.whiteKing < 128 && 0 <= b.blackKing < 128
    requires RightToCastle(b, E) || RightToCastle(b, W) ==> i == 0x04 || i == 0x74
    ensures CastleIndexable(b, i)
    ensures m in GenerateKingMoves(b, i) <==>
      m.from == i && OnBoard(m.to) && Enterable(b, i, m.to) && KingMove(b, m)
  {
    HomeIndexable(b, i);
    var d := m.to - i;
    if m.from != i {
      assert m !in GenerateKingMoves(b, i);
    } else if (d == 2 || d == -2) && m.promotion == EMPTY {
      KingCastleMoveExactly(b, i, m);
    } else if d == 2 || d == -2 {
      KingMovesUnpromoted(b, i, m);
    } else {
      KingStepMoveExactly(b, i, m);
    }
  }

  /** No king move carries a promotion. */
  lemma KingMovesUnpromoted(b: Board, i: int, m: Move)
    requires 0 <= i < 128 && 0 <= b.whiteKing < 128 && 0 <= b.blackKing < 128 && CastleIndexable(b, i)
    requires m.promotion != EMPTY
    ensures m !in GenerateKingMoves(b, i)
  {
    OffsetTables();
    SingleMovesExactly(b, i, DIAGONALS_AND_LINES, m);
  }

  /** A king of the side to move that holds a castling right stands on its
      home square. */
  lemma KingHome(b: Board, i: int)
    requires Valid(b) && 0 <= i < 128 && b.squares[i] == ColourToMove(b) + KING
    ensures RightToCastle(b, E) || RightToCastle(b, W) ==> i == 0x04 || i == 0x74
  {}

  lemma PushesExactly(b: Board, i: int, m: Move)
    requires OnBoard(i)
    ensures var onHome := RankBase(i) == (if b.whiteToMove then 0x10 else 0x60);
      m in PawnPushes(b, i, Forward(b), onHome) <==>
      m.from == i && m.promotion == EMPTY && OnBoard(m.to) && Enterable(b, i, m.to) && PushShape(b, m)
  {
    var f := Forward(b);
    var onHome := RankBase(i) == (if b.whiteToMove then 0x10 else 0x60);
    if onHome {
      HomeRankOnBoard(i, f);
    }
    Clear88OnBoard(i + f);
  }

  lemma CapturesExactly(b: Board, i: int, m: Move)
    requires OnBoard(i) && b.squares[i] != EMPTY
    requires b.ep != -1 ==> 0 <= b.ep < 128 && b.squares[b.ep] == EMPTY
    ensures var caps := if b.whiteToMove then N_DIAGONALS else S_DIAGONALS;
      m in PawnCaptures(b, i, caps, Colour(b.squares[i])) <==>
      m.from == i && m.promotion == EMPTY && OnBoard(m.to) && Enterable(b, i, m.to) && CaptureShape(b, m)
  {
    var caps := if b.whiteToMove then N_DIAGONALS else S_DIAGONALS;
    if m in PawnCaptures(b, i, caps, Colour(b.squares[i])) {
      CaptureListed(b, i, caps, m);
    }
    if m.from == i && m.promotion == EMPTY && OnBoard(m.to) && Enterable(b, i, m.to) && CaptureShape(b, m) {
      CaptureAllowed(b, i, caps, m);
    }
  }

  /** A listed pawn capture is a forward diagonal step onto the en-passant
      square or an opposing piece. */
  lemma CaptureListed(b: Board, i: int, caps: seq<int>, m: Move)
    requires OnBoard(i) && b.squares[i] != EMPTY
    requires b.ep != -1 ==> 0 <= b.ep < 128 && b.squares[b.ep] == EMPTY
    requires caps == if b.whiteToMove then N_DIAGONALS else S_DIAGONALS
    requires m in PawnCaptures(b, i, caps, Colour(b.squares[i]))
    ensures m.from == i && m.promotion == EMPTY && OnBoard(m.to) && Enterable(b, i, m.to) && CaptureShape(b, m)
  {
    assert caps == [Forward(b) + E, Forward(b) + W];
    var k :| 0 <= k < |caps| && m.to == i + caps[k];
  }

  /** Each forward diagonal step onto the en-passant square or an opposing
      piece is listed. */
  lemma CaptureAllowed(b: Board, i: int, caps: seq<int>, m: Move)
    requires OnBoard(i) && b.squares[i] != EMPTY
    requires b.ep != -1 ==> 0 <= b.ep < 128 && b.squares[b.ep] == EMPTY
    requires caps == if b.whiteToMove then N_DIAGONALS else S_DIAGONALS
    requires m.from == i && m.promotion == EMPTY && OnBoard(m.to) && Enterable(b, i, m.to) && CaptureShape(b, m)
    ensures m in PawnCaptures(b, i, caps, Colour(b.squares[i]))
  {
    assert caps == [Forward(b) + E, Forward(b) + W];
    var k := if m.to == i + caps[0] then 0 else 1;
    assert m == Move(i, i + caps[k], EMPTY);
  }

  /** A pawn on its home rank has two board squares in front of it. */
  lemma HomeRankOnBoard(i: int, f: int)
    requires OnBoard(i) && (f == N || f == S)
    requires RankBase(i) == (if f == N then 0x10 else 0x60)
    ensures OnBoard(i + f) && OnBoard(i + 2 * f)
  {
    assert i % 256 == i;
    if f == N {
      assert 0x10 <= i < 0x18;
    } else {
      assert 0x60 <= i < 0x68;
    }
  }

  /** The unpromoted pawn moves the generator starts from. */
  function PlainPawnMoves(b: Board, i: int): seq<Move>
    requires 0 <= i < 128
  {
    var home := if b.whiteToMove then 0x10 else 0x60;
    var caps := if b.whiteToMove then N_DIAGONALS else S_DIAGONALS;
    PawnPushes(b, i, Forward(b), RankBase(i) == home) + PawnCaptures(b, i, caps, Colour(b.squares[i]))
  }

  /** The unpromoted pawn moves: pushes and captures. */
  lemma PlainPawnMovesExactly(b: Board, i: int, m: Move)
    requires OnBoard(i) && b.squares[i] != EMPTY
    requires b.ep != -1 ==> 0 <= b.ep < 128 && b.squares[b.ep] == EMPTY
    ensures m in PlainPawnMoves(b, i) <==>
      m.from == i && m.promotion == EMPTY && OnBoard(m.to) && Enterable(b, i, m.to) && PawnShape(b, m)
  {
    PushesExactly(b, i, m);
    CapturesExactly(b, i, m);
  }

  lemma PromoteExactly(moves: seq<Move>, code: int, m: Move)
    requires forall x | x in moves :: x.promotion == EMPTY
    ensures m in Promote(moves, code) <==> m.promotion == code && Move(m.from, m.to, EMPTY) in moves
  {
    if m.promotion == code && Move(m.from, m.to, EMPTY) in moves {
      var k :| 0 <= k < |moves| && moves[k] == Move(m.from, m.to, EMPTY);
      assert Promote(moves, code)[k] == m;
    }
  }

  /** Expanding unpromoted moves into promotions: a move is listed exactly
      when it carries one of the four promotion codes and its unpromoted
      form was listed. */
  lemma PromotionsExactly(moves: seq<Move>, own: int, m: Move)
    requires own == WHITE || own == BLACK
    requires forall x | x in moves :: x.promotion == EMPTY
    ensures m in Promotions(moves, own) <==>
      (exists p | 0 <= p < 4 :: m.promotion == own + PROMOTION_PIECES[p])
      && Move(m.from, m.to, EMPTY) in moves
  {
    PromoteExactly(moves, own + QUEEN, m);
    PromoteExactly(moves, own + ROOK, m);
    PromoteExactly(moves, own + BISHOP, m);
    PromoteExactly(moves, own + KNIGHT, m);
    assert Promotions(moves, own) == Promote(moves, own + QUEEN) + Promote(moves, own + ROOK)
      + Promote(moves, own + BISHOP) + Promote(moves, own + KNIGHT);
    assert PROMOTION_PIECES == [QUEEN, ROOK, BISHOP, KNIGHT];
    if m in Promotions(moves, own) {
      var p := if m.promotion == own + QUEEN then 0 else if m.promotion == own + ROOK then 1
        else if m.promotion == own + BISHOP then 2 else 3;
      assert m.promotion == own + PROMOTION_PIECES[p];
    }
    if exists p | 0 <= p < 4 :: m.promotion == own + PROMOTION_PIECES[p] {
      var p :| 0 <= p < 4 && m.promotion == own + PROMOTION_PIECES[p];
      assert p == 0 || p == 1 || p == 2 || p == 3;
    }
  }

  lemma PawnPieceMoves(b: Board, i: int)
    requires 0 <= i < 128 && PieceType(b.squares[i]) == PAWN
    requires 0 <= b.whiteKing < 128 && 0 <= b.blackKing < 128
    ensures GeneratePieceMoves(b, i) ==
      if PromotesFrom(i, Colour(b.squares[i])) then Promotions(PlainPawnMoves(b, i), Colour(b.squares[i]))
      else PlainPawnMoves(b, i)
  {}

  lemma PawnMovesExactly(b: Board, i: int, m: Move)
    requires OnBoard(i) && b.squares[i] != EMPTY && Colour(b.squares[i]) == ColourToMove(b)
    requires PieceType(b.squares[i]) == PAWN
    requires b.ep != -1 ==> 0 <= b.ep < 128 && b.squares[b.ep] == EMPTY
    ensures var own := Colour(b.squares[i]);
      m in (if PromotesFrom(i, own) then Promotions(PlainPawnMoves(b, i), own) else PlainPawnMoves(b, i))
      <==> m.from == i && OnBoard(m.to) && Enterable(b, i, m.to) && PawnMove(b, m)
  {
    var own := Colour(b.squares[i]);
    var plain := PlainPawnMoves(b, i);
    var base := Move(m.from, m.to, EMPTY);
    if PromotesFrom(i, own) {
      PlainPawnMovesExactly(b, i, base);
      PromotionsExactly(plain, own, m);
    } else {
      PlainPawnMovesExactly(b, i, m);
    }
  }

  /** Each piece of the side to move has exactly its pseudo-legal moves. */
  lemma PieceMovesExactly(b: Board, i: int, m: Move)
    requires Valid(b) && 0 <= i < 128 && OwnPiece(b, i)
    ensures m in GeneratePieceMoves(b, i) <==> PieceMove(b, i, m)
  {
    assert ValidPiece(b.squares[i]) && OnBoard(i);
    OffsetTables();
    var t := PieceType(b.squares[i]);
    assert b.squares[i] == ColourToMove(b) + t;
    if t == PAWN {
      assert EpValid(b);
      PawnPieceMoves(b, i);
      PawnMovesExactly(b, i, m);
    } else if t == KNIGHT {
      SingleMovesExactly(b, i, KNIGHT_MOVES, m);
    } else if t == BISHOP {
      SlidesExactly(b, i, DIAGONALS, m);
    } else if t == ROOK {
      SlidesExactly(b, i, LINES, m);
    } else if t == QUEEN {
      SlidesExactly(b, i, DIAGONALS_AND_LINES, m);
    } else {
      KingHome(b, i);
      KingMovesExactly(b, i, m);
    }
  }

  /** On a well-formed board the generator lists exactly the pseudo-legal
      moves: each one it lists is pseudo-legal, and each pseudo-legal move
      is listed. */
  lemma GeneratedExactlyPseudo(b: Board, m: Move)
    requires Valid(b)
    ensures Generable(b)
    ensures m in GenerateMoves(b) <==> Pseudo(b, m)
  {
    ValidIsGenerable(b);
    if 0 <= m.from < 128 && OwnPiece(b, m.from) {
      PieceMovesExactly(b, m.from, m);
    }
  }
}

=== FILE: search.dfy ===
/** Fixed-depth negamax and fail-hard alpha-beta over the legal moves, and
    the two root searches that pick a move.  The engine searches on one
    board, making each move, searching below it and taking it back; here
    the board is threaded through every make, search and undo in the same
    order, and each search is proved to hand it back unchanged. */
module Search {
  import opened Pieces
  import opened Position
  import opened MoveGen
  import opened PseudoLegal
  import opened Execute
  import opened MakeUndo
  import opened MoveLaws
  import opened Legality
  import opened Evaluation

  /** The starting maximum of every negamax loop: the score of a node with
      no legal move. */
  const LOSS := -10000000

  /** The root alpha-beta search gives its children the window
      `(-WINDOW, WINDOW)`. */
  const WINDOW := 10000

  /** A score and the board as the search leaves it. */
  datatype Searched = Searched(score: int, board: Board)

  function Max(a: int, b: int): int
  {
    if a >= b then a else b
  }

  /** `x` brought into `[lo, hi]`. */
  function Clamp(x: int, lo: int, hi: int): int
  {
    if x < lo then lo else if x > hi then hi else x
  }

  /** The reference negamax value: the static evaluation at depth 0, else
      the best negated value of a legal move's position one level down, or
      `LOSS` when there is no legal move. */
  function Value(b: Board, depth: nat): (v: int)
    requires Valid(b)
    decreases depth, 2
    ensures LOSS <= v <= -LOSS
  {
    if depth == 0 then EvaluateBound(b); Evaluate(b)
    else
      GeneratedPseudo(b);
      BestChild(b, GenerateMoves(b), 0, depth)
  }

  /** The value one level down after a pseudo-legal move. */
  function ChildValue(b: Board, m: Move, depth: nat): (v: int)
    requires Valid(b) && Pseudo(b, m)
    decreases depth, 3
    ensures LOSS <= v <= -LOSS
  {
    MakeMovePreservesValid(b, m);
    Value(MakeMove(b, m), depth)
  }

  /** The largest of `LOSS` and the negated child values of the legal moves
      from the `i`-th on. */
  function BestChild(b: Board, moves: seq<Move>, i: int, depth: nat): (v: int)
    requires Valid(b) && depth > 0 && 0 <= i <= |moves|
    requires forall m | m in moves :: Pseudo(b, m)
    decreases depth, 1, |moves| - i
    ensures LOSS <= v <= -LOSS
  {
    if i == |moves| then LOSS
    else
      var rest := BestChild(b, moves, i + 1, depth);
      if IsLegal(b, moves[i]) then Max(-ChildValue(b, moves[i], depth - 1), rest) else rest
  }

  /** One step of `BestChild` at a legal move whose child value is `cv`. */
  lemma BestChildStep(b: Board, moves: seq<Move>, i: int, depth: nat, cv: int)
    requires Valid(b) && depth > 0 && 0 <= i < |moves|
    requires forall m | m in moves :: Pseudo(b, m)
    requires IsLegal(b, moves[i]) && cv == ChildValue(b, moves[i], depth - 1)
    ensures BestChild(b, moves, i, depth) == Max(-cv, BestChild(b, moves, i + 1, depth))
  {}

  /** `BestChild` passes over an illegal move. */
  lemma BestChildSkip(b: Board, moves: seq<Move>, i: int, depth: nat)
    requires Valid(b) && depth > 0 && 0 <= i < |moves|
    requires forall m | m in moves :: Pseudo(b, m)
    requires !IsLegal(b, moves[i])
    ensures BestChild(b, moves, i, depth) == BestChild(b, moves, i + 1, depth)
  {}

  /** No legal move from the `i`-th on does better than `BestChild`. */
  lemma BestChildBounds(b: Board, moves: seq<Move>, i: int, j: int, depth: nat)
    requires Valid(b) && depth > 0 && 0 <= i <= j < |moves|
    requires forall m | m in moves :: Pseudo(b, m)
    requires IsLegal(b, moves[j])
    ensures -ChildValue(b, moves[j], depth - 1) <= BestChild(b, moves, i, depth)
  {
    var cv := ChildValue(b, moves[j], depth - 1);
    BestChildStep(b, moves, j, depth, cv);
    BestChildAbove(b, moves, i, j, depth, -cv);
  }

  /** A bound below `BestChild` from the `j`-th move on is a bound below it
      from any earlier move on. */
  lemma BestChildAbove(b: Board, moves: seq<Move>, i: int, j: int, depth: nat, x: int)
    requires Valid(b) && depth > 0 && 0 <= i <= j <= |moves|
    requires forall m | m in moves :: Pseudo(b, m)
    requires x <= BestChild(b, moves, j, depth)
    ensures x <= BestChild(b, moves, i, depth)
  {
    forall k | i <= k < j
      ensures BestChild(b, moves, k + 1, depth) <= BestChild(b, moves, k, depth)
    {
      BestChildBelow(b, moves, k, depth);
    }
    var f := k => if 0 <= k <= |moves| then BestChild(b, moves, k, depth) else 0;
    Descending(f, i, j);
  }

  /** A function that never grows from one argument to the next is no
      larger at the end of a range than at its start. */
  lemma {:induction false} Descending(f: int -> int, i: int, j: int)
    requires i <= j
    requires forall k | i <= k < j :: f(k + 1) <= f(k)
    decreases j - i
    ensures f(j) <= f(i)
  {
    if i < j {
      Descending(f, i + 1, j);
    }
  }

  /** `BestChild` does not shrink as moves are added in front. */
  lemma BestChildBelow(b: Board, moves: seq<Move>, i: int, depth: nat)
    requires Valid(b) && depth > 0 && 0 <= i < |moves|
    requires forall m | m in moves :: Pseudo(b, m)
    ensures BestChild(b, moves, i + 1, depth) <= BestChild(b, moves, i, depth)
  {
  }

  /** `BestChild` is `LOSS` or the negated child value of a legal move from
      the `i`-th on. */
  lemma {:induction false} BestChildAttained(b: Board, moves: seq<Move>, i: int, depth: nat) returns (j: int)
    requires Valid(b) && depth > 0 && 0 <= i <= |moves|
    requires forall m | m in moves :: Pseudo(b, m)
    decreases |moves| - i
    ensures || BestChild(b, moves, i, depth) == LOSS
            || (i <= j < |moves| && IsLegal(b, moves[j]) && BestChild(b, moves, i, depth) == -ChildValue(b, moves[j], depth - 1))
  {
    j := i;
    if i < |moves| {
      var k := BestChildAttained(b, moves, i + 1, depth);
      var cv := ChildValue(b, moves[i], depth - 1);
      if IsLegal(b, moves[i]) {
        BestChildStep(b, moves, i, depth, cv);
        if -cv < BestChild(b, moves, i + 1, depth) {
          j := k;
        }
      } else {
        BestChildSkip(b, moves, i, depth);
        j := k;
      }
    }
  }

  /** Without a legal move from the `i`-th on, `BestChild` is `LOSS`. */
  lemma {:induction false} BestChildNone(b: Board, moves: seq<Move>, i: int, depth: nat)
    requires Valid(b) && depth > 0 && 0 <= i <= |moves|
    requires forall m | m in moves :: Pseudo(b, m)
    requires forall j | i <= j < |moves| :: !IsLegal(b, moves[j])
    decreases |moves| - i
    ensures BestChild(b, moves, i, depth) == LOSS
  {
    if i < |moves| {
      BestChildNone(b, moves, i + 1, depth);
      BestChildSkip(b, moves, i, depth);
    }
  }

  /** Where a pseudo-legal move stands among the generated moves. */
  lemma GeneratedIndex(b: Board, m: Move) returns (j: int)
    requires Valid(b) && Pseudo(b, m)
    ensures Generable(b) && 0 <= j < |GenerateMoves(b)| && GenerateMoves(b)[j] == m
  {
    GeneratedPseudo(b);
    GeneratedExactlyPseudo(b, m);
    j :| 0 <= j < |GenerateMoves(b)| && GenerateMoves(b)[j] == m;
  }

  /** `negamaxInternal`: the static evaluation at depth 0; else every legal
      move is made, searched one level down and taken back, keeping the
      largest negated score. */
  function NegamaxInternal(b: Board, depth: nat): (r: Searched)
    requires Valid(b)
    decreases depth, 2
    ensures r.board == b && r.score == Value(b, depth)
  {
    if depth == 0 then Searched(Evaluate(b), b)
    else
      GeneratedPseudo(b);
      NegamaxLoop(b, GenerateMoves(b), 0, depth, LOSS)
  }

  /** Make a legal move, search the position one level down and take the
      move back: the board comes back as it was, with the child's value. */
  function SearchChild(b: Board, m: Move, depth: nat): (r: Searched)
    requires Valid(b) && Pseudo(b, m)
    decreases depth, 3
    ensures r.board == b && r.score == ChildValue(b, m, depth)
  {
    MakeMovePreservesValid(b, m);
    MakeUndoRoundTrip(b, m);
    var child := NegamaxInternal(MakeMove(b, m), depth);
    Searched(child.score, UndoMove(child.board))
  }

  /** The move loop of `negamaxInternal` from the `i`-th move on, with the
      maximum so far. */
  function NegamaxLoop(b: Board, moves: seq<Move>, i: int, depth: nat, max: int): (r: Searched)
    requires Valid(b) && depth > 0 && 0 <= i <= |moves| && LOSS <= max
    requires forall m | m in moves :: Pseudo(b, m)
    decreases depth, 1, |moves| - i, 1
    ensures r.board == b
    ensures r.score == Max(max, BestChild(b, moves, i, depth))
  {
    if i == |moves| then Searched(max, b)
    else
      var trial := TryMove(b, moves[i]);
      if !trial.legal then NegamaxLoop(trial.board, moves, i + 1, depth, max)
      else
        var cv := ChildValue(b, moves[i], depth - 1);
        BestChildStep(b, moves, i, depth, cv);
        NegamaxMove(trial.board, moves, i, depth, max, cv)
  }

  /** A legal move of the negamax loop: the negated score of its child
      raises the maximum when it is larger.  The result is the largest of
      `max`, `-cv`, where `cv` is the value of the move's child, and the
      rest of the loop. */
  function NegamaxMove(b: Board, moves: seq<Move>, i: int, depth: nat, max: int, cv: int): (r: Searched)
    requires Valid(b) && depth > 0 && 0 <= i < |moves| && LOSS <= max
    requires forall m | m in moves :: Pseudo(b, m)
    requires cv == ChildValue(b, moves[i], depth - 1)
    decreases depth, 1, |moves| - i, 0
    ensures r.board == b
    ensures r.score == Max(max, Max(-cv, BestChild(b, moves, i + 1, depth)))
  {
    var child := SearchChild(b, moves[i], depth - 1);
    var score := -child.score;
    NegamaxLoop(child.board, moves, i + 1, depth, if score > max then score else max)
  }

  /** Make a legal move, search the position one level down in the window
      `(alpha, beta)` and take the move back. */
  function SearchChildWindow(b: Board, m: Move, alpha: int, beta: int, depth: nat): (r: Searched)
    requires Valid(b) && Pseudo(b, m)
    decreases depth, 3
    ensures r.board == b
    ensures depth == 0 ==> r.score == ChildValue(b, m, depth)
    ensures depth > 0 && LOSS <= alpha < beta <= -LOSS ==> r.score == Clamp(ChildValue(b, m, depth), alpha, beta)
  {
    MakeMovePreservesValid(b, m);
    MakeUndoRoundTrip(b, m);
    var child := AlphaBetaInternal(MakeMove(b, m), alpha, beta, depth);
    Searched(child.score, UndoMove(child.board))
  }

  /** `negamaxAlphaBetaInternal`: the static evaluation at depth 0, however
      far outside the window; else the fail-hard alpha-beta search, whose
      score is the negamax value brought into the window. */
  function AlphaBetaInternal(b: Board, alpha: int, beta: int, depth: nat): (r: Searched)
    requires Valid(b)
    decreases depth, 2
    ensures r.board == b
    ensures depth == 0 ==> r.score == Evaluate(b)
    ensures depth > 0 && LOSS <= alpha < beta <= -LOSS ==> r.score == Clamp(Value(b, depth), alpha, beta)
  {
    if depth == 0 then Searched(Evaluate(b), b)
    else
      GeneratedPseudo(b);
      AlphaBetaLoop(b, GenerateMoves(b), 0, alpha, beta, depth)
  }

  /** One legal move of the alpha-beta loop, as arithmetic.  The child's
      value is `v` and its score `c` (`v` itself for a leaf, else `v`
      brought into the child's window); `score` is the result of the move
      and of the rest of the loop.  If the negated score `-c` reaches `beta`
      the loop gives `beta`; otherwise it goes on with `alpha` raised to
      `-c` when that is better, and either way the result is the maximum
      `Max(-v, rest)` brought into the window. */
  lemma AlphaBetaStep(v: int, c: int, rest: int, alpha: int, beta: int, leaf: bool, score: int)
    requires alpha < beta
    requires c == if leaf then v else Clamp(v, -beta, -alpha)
    requires -c >= beta ==> score == beta
    requires -c < beta ==> score == Clamp(rest, if -c > alpha then -c else alpha, beta)
    ensures score == Clamp(Max(-v, rest), alpha, beta)
  {}

  /** The move loop of `negamaxAlphaBetaInternal` from the `i`-th move on:
      illegal moves are skipped. */
  function AlphaBetaLoop(b: Board, moves: seq<Move>, i: int, alpha: int, beta: int, depth: nat): (r: Searched)
    requires Valid(b) && depth > 0 && 0 <= i <= |moves|
    requires forall m | m in moves :: Pseudo(b, m)
    decreases depth, 1, |moves| - i, 1
    ensures r.board == b
    ensures LOSS <= alpha < beta <= -LOSS ==> r.score == Clamp(BestChild(b, moves, i, depth), alpha, beta)
  {
    if i == |moves| then Searched(alpha, b)
    else
      var trial := TryMove(b, moves[i]);
      if !trial.legal then AlphaBetaLoop(trial.board, moves, i + 1, alpha, beta, depth)
      else
        var cv := ChildValue(b, moves[i], depth - 1);
        BestChildStep(b, moves, i, depth, cv);
        AlphaBetaMove(trial.board, moves, i, alpha, beta, depth, cv)
  }

  /** A legal move of the alpha-beta loop: a child scoring `beta` or more
      ends the loop with `beta`, a better score raises `alpha`.  The result
      is the larger of `-cv`, where `cv` is the value of the move's child,
      and the rest of the loop, brought into the window.  The child search
      gives the board back as it was, so the loop goes on from `b`. */
  function AlphaBetaMove(b: Board, moves: seq<Move>, i: int, alpha: int, beta: int, depth: nat, cv: int): (r: Searched)
    requires Valid(b) && depth > 0 && 0 <= i < |moves|
    requires forall m | m in moves :: Pseudo(b, m)
    requires cv == ChildValue(b, moves[i], depth - 1)
    decreases depth, 1, |moves| - i, 0
    ensures r.board == b
    ensures LOSS <= alpha < beta <= -LOSS ==>
      r.score == Clamp(Max(-cv, BestChild(b, moves, i + 1, depth)), alpha, beta)
  {
    var child := SearchChildWindow(b, moves[i], -beta, -alpha, depth - 1);
    var score := -child.score;
    var r :=
      if score >= beta then Searched(beta, b)
      else AlphaBetaLoop(b, moves, i + 1, if score > alpha then score else alpha, beta, depth);
    if LOSS <= alpha < beta <= -LOSS then
      AlphaBetaStep(cv, child.score, BestChild(b, moves, i + 1, depth), alpha, beta, depth == 1, r.score);
      r
    else r
  }

  /** How a root loop scores a legal move: by a full negamax search one
      level down, by an alpha-beta search one level down in the window
      `(-WINDOW, WINDOW)`, or by the static evaluation of the position the
      move leads to (the fallback loop). */
  datatype RootKind = Full | Windowed | Static

  /** The score a root loop gives a legal move: the child's value, brought
      into the window for an alpha-beta child above depth 0, negated. */
  function RootScore(b: Board, m: Move, kind: RootKind, depth: nat): int
    requires Valid(b) && Pseudo(b, m) && depth > 0
  {
    match kind
    case Full => -ChildValue(b, m, depth - 1)
    case Windowed => if depth == 1 then -ChildValue(b, m, 0) else -Clamp(ChildValue(b, m, depth - 1), -WINDOW, WINDOW)
    case Static => -ChildValue(b, m, 0)
  }

  /** Make a legal root move, score it as `kind` says and take it back. */
  function RootChild(b: Board, m: Move, kind: RootKind, depth: nat): (r: Searched)
    requires Valid(b) && Pseudo(b, m) && depth > 0
    ensures r.board == b && r.score == RootScore(b, m, kind, depth)
  {
    match kind
    case Full =>
      var child := SearchChild(b, m, depth - 1);
      Searched(-child.score, child.board)
    case Windowed =>
      var child := SearchChildWindow(b, m, -WINDOW, WINDOW, depth - 1);
      Searched(-child.score, child.board)
    case Static =>
      var child := SearchChild(b, m, 0);
      Searched(-child.score, child.board)
  }

  /** The move a root loop has chosen, the best score so far, and the
      board. */
  datatype Choice = Choice(move: Move, max: int, board: Board)

  /** A root loop from the `i`-th move on: a legal move scoring more than
      the best so far becomes the chosen move. */
  function RootLoop(b: Board, moves: seq<Move>, i: int, kind: RootKind, depth: nat, max: int, best: Move): (r: Choice)
    requires Valid(b) && depth > 0 && 0 <= i <= |moves|
    requires forall m | m in moves :: Pseudo(b, m)
    decreases |moves| - i
    ensures r.board == b && r.max >= max
  {
    if i == |moves| then Choice(best, max, b)
    else
      var m := moves[i];
      var trial := TryMove(b, m);
      if !trial.legal then RootLoop(trial.board, moves, i + 1, kind, depth, max, best)
      else
        var child := RootChild(trial.board, m, kind, depth);
        if child.score > max then RootLoop(child.board, moves, i + 1, kind, depth, child.score, m)
        else RootLoop(child.board, moves, i + 1, kind, depth, max, best)
  }

  /** One step of a root loop at a legal move scoring `s`. */
  lemma RootLoopStep(b: Board, moves: seq<Move>, i: int, kind: RootKind, depth: nat, max: int, best: Move, s: int)
    requires Valid(b) && depth > 0 && 0 <= i < |moves|
    requires forall m | m in moves :: Pseudo(b, m)
    requires IsLegal(b, moves[i]) && s == RootScore(b, moves[i], kind, depth)
    ensures RootLoop(b, moves, i, kind, depth, max, best) ==
      if s > max then RootLoop(b, moves, i + 1, kind, depth, s, moves[i]) else RootLoop(b, moves, i + 1, kind, depth, max, best)
  {}

  /** A root loop passes over an illegal move. */
  lemma RootLoopSkip(b: Board, moves: seq<Move>, i: int, kind: RootKind, depth: nat, max: int, best: Move)
    requires Valid(b) && depth > 0 && 0 <= i < |moves|
    requires forall m | m in moves :: Pseudo(b, m)
    requires !IsLegal(b, moves[i])
    ensures RootLoop(b, moves, i, kind, depth, max, best) == RootLoop(b, moves, i + 1, kind, depth, max, best)
  {}

  /** No legal move from the `i`-th on scores more than the loop's final
      maximum. */
  lemma {:induction false} RootLoopBounds(b: Board, moves: seq<Move>, i: int, j: int, kind: RootKind, depth: nat, max: int, best: Move)
    requires Valid(b) && depth > 0 && 0 <= i <= j < |moves|
    requires forall m | m in moves :: Pseudo(b, m)
    requires IsLegal(b, moves[j])
    decreases j - i
    ensures RootScore(b, moves[j], kind, depth) <= RootLoop(b, moves, i, kind, depth, max, best).max
  {
    var s := RootScore(b, moves[i], kind, depth);
    if i == j {
      RootLoopStep(b, moves, i, kind, depth, max, best, s);
    } else if IsLegal(b, moves[i]) {
      RootLoopStep(b, moves, i, kind, depth, max, best, s);
      RootLoopBounds(b, moves, i + 1, j, kind, depth, if s > max then s else max, if s > max then moves[i] else best);
    } else {
      RootLoopSkip(b, moves, i, kind, depth, max, best);
      RootLoopBounds(b, moves, i + 1, j, kind, depth, max, best);
    }
  }

  /** A root loop that never raises its maximum keeps its chosen move. */
  lemma {:induction false} RootLoopKeeps(b: Board, moves: seq<Move>, i: int, kind: RootKind, depth: nat, max: int, best: Move)
    requires Valid(b) && depth > 0 && 0 <= i <= |moves|
    requires forall m | m in moves :: Pseudo(b, m)
    decreases |moves| - i
    ensures RootLoop(b, moves, i, kind, depth, max, best).max == max ==> RootLoop(b, moves, i, kind, depth, max, best).move == best
  {
    if i < |moves| {
      var s := RootScore(b, moves[i], kind, depth);
      if IsLegal(b, moves[i]) {
        RootLoopStep(b, moves, i, kind, depth, max, best, s);
        RootLoopKeeps(b, moves, i + 1, kind, depth, if s > max then s else max, if s > max then moves[i] else best);
      } else {
        RootLoopSkip(b, moves, i, kind, depth, max, best);
        RootLoopKeeps(b, moves, i + 1, kind, depth, max, best);
      }
    }
  }

  /** Every legal move from the `i`-th up to the `j`-th (excluded) scores
      less than `x`. */
  ghost predicate ScoresBelow(b: Board, moves: seq<Move>, i: int, j: int, kind: RootKind, depth: nat, x: int)
    requires Valid(b) && depth > 0 && 0 <= i <= j <= |moves|
    requires forall m | m in moves :: Pseudo(b, m)
  {
    forall k | i <= k < j && IsLegal(b, moves[k]) :: RootScore(b, moves[k], kind, depth) < x
  }

  /** Extending `ScoresBelow` by one move in front. */
  lemma ScoresBelowCons(b: Board, moves: seq<Move>, i: int, j: int, kind: RootKind, depth: nat, x: int, s: int)
    requires Valid(b) && depth > 0 && 0 <= i < j <= |moves|
    requires forall m | m in moves :: Pseudo(b, m)
    requires s == RootScore(b, moves[i], kind, depth)
    requires IsLegal(b, moves[i]) ==> s < x
    requires ScoresBelow(b, moves, i + 1, j, kind, depth, x)
    ensures ScoresBelow(b, moves, i, j, kind, depth, x)
  {
    assert forall k | i + 1 <= k < j && IsLegal(b, moves[k]) :: RootScore(b, moves[k], kind, depth) < x;
  }

  /** A root loop that raises its maximum chooses the first legal move
      reaching the final maximum, every earlier legal move scoring strictly
      less. */
  lemma {:induction false} RootLoopChoosesFirstBest(b: Board, moves: seq<Move>, i: int, kind: RootKind, depth: nat, max: int, best: Move)
    returns (j: int)
    requires Valid(b) && depth > 0 && 0 <= i <= |moves|
    requires forall m | m in moves :: Pseudo(b, m)
    decreases |moves| - i
    ensures var r := RootLoop(b, moves, i, kind, depth, max, best);
      r.max > max ==>
        && i <= j < |moves| && IsLegal(b, moves[j]) && r.move == moves[j]
        && RootScore(b, moves[j], kind, depth) == r.max
        && ScoresBelow(b, moves, i, j, kind, depth, r.max)
  {
    j := i;
    if i < |moves| {
      var s := RootScore(b, moves[i], kind, depth);
      var max2, best2 := RootLoopNext(b, moves, i, kind, depth, max, best);
      if max2 > max {
        RootLoopKeeps(b, moves, i + 1, kind, depth, max2, best2);
      }
      var k := RootLoopChoosesFirstBest(b, moves, i + 1, kind, depth, max2, best2);
      var r := RootLoop(b, moves, i + 1, kind, depth, max2, best2);
      if r.max > max2 {
        j := k;
        ScoresBelowCons(b, moves, i, j, kind, depth, r.max, s);
      }
    }
  }

  /** A root loop one move on: the maximum and the chosen move after the
      `i`-th move, which are the old ones or that move and its score. */
  lemma RootLoopNext(b: Board, moves: seq<Move>, i: int, kind: RootKind, depth: nat, max: int, best: Move)
    returns (max2: int, best2: Move)
    requires Valid(b) && depth > 0 && 0 <= i < |moves|
    requires forall m | m in moves :: Pseudo(b, m)
    ensures RootLoop(b, moves, i, kind, depth, max, best) == RootLoop(b, moves, i + 1, kind, depth, max2, best2)
    ensures IsLegal(b, moves[i]) ==> RootScore(b, moves[i], kind, depth) <= max2
    ensures max2 == max || max2 > max
    ensures max2 == max ==> best2 == best
    ensures max2 > max ==> best2 == moves[i] && IsLegal(b, best2) && RootScore(b, best2, kind, depth) == max2
  {
    var s := RootScore(b, moves[i], kind, depth);
    if IsLegal(b, moves[i]) {
      RootLoopStep(b, moves, i, kind, depth, max, best, s);
      max2, best2 := if s > max then s else max, if s > max then moves[i] else best;
    } else {
      RootLoopSkip(b, moves, i, kind, depth, max, best);
      max2, best2 := max, best;
    }
  }

  /** `Negamax` and `NegamaxAlphaBeta`: score every legal move with `kind`
      and keep the first strictly best; when that leaves the chosen move
      at its zero value, go through the moves again by static evaluation,
      starting from the maximum the first pass reached. */
  function RootSearch(b: Board, kind: RootKind, depth: nat): (r: Choice)
    requires Valid(b) && depth > 0
    ensures r.board == b
  {
    GeneratedPseudo(b);
    var moves := GenerateMoves(b);
    var first := RootLoop(b, moves, 0, kind, depth, LOSS, NO_MOVE);
    if first.move.to == 0 && first.move.from == 0 then RootLoop(first.board, moves, 0, Static, depth, first.max, first.move)
    else first
  }

  /** A root loop over the generated moves: it keeps its move when no legal
      move scores above the starting maximum, and otherwise chooses the
      first legal move with the best score of all legal moves. */
  lemma RootLoopOverGenerated(b: Board, kind: RootKind, depth: nat, max: int, best: Move) returns (j: int)
    requires Valid(b) && depth > 0 && Generable(b)
    requires forall m | m in GenerateMoves(b) :: Pseudo(b, m)
    ensures var moves := GenerateMoves(b);
      var r := RootLoop(b, moves, 0, kind, depth, max, best);
      && (r.max == max ==> r.move == best && forall m | Pseudo(b, m) && IsLegal(b, m) :: RootScore(b, m, kind, depth) <= max)
      && (r.max > max ==>
            && 0 <= j < |moves| && r.move == moves[j] && Pseudo(b, r.move) && IsLegal(b, r.move)
            && RootScore(b, r.move, kind, depth) == r.max
            && (forall m | Pseudo(b, m) && IsLegal(b, m) :: RootScore(b, m, kind, depth) <= r.max)
            && forall k | 0 <= k < j && IsLegal(b, moves[k]) :: RootScore(b, moves[k], kind, depth) < r.max)
  {
    var moves := GenerateMoves(b);
    var r := RootLoop(b, moves, 0, kind, depth, max, best);
    RootLoopKeeps(b, moves, 0, kind, depth, max, best);
    j := RootLoopChoosesFirstBest(b, moves, 0, kind, depth, max, best);
    forall m | Pseudo(b, m) && IsLegal(b, m)
      ensures RootScore(b, m, kind, depth) <= r.max
    {
      var k := GeneratedIndex(b, m);
      RootLoopBounds(b, moves, 0, k, kind, depth, max, best);
    }
    if r.max > max {
      assert moves[j] in moves;
    }
  }

  /** The static score of a legal move is far above `LOSS`. */
  lemma StaticAboveLoss(b: Board, m: Move, depth: nat)
    requires Valid(b) && Pseudo(b, m) && depth > 0
    ensures RootScore(b, m, Static, depth) > LOSS
  {
    MakeMovePreservesValid(b, m);
    EvaluateBound(MakeMove(b, m));
  }

  /** The move `RootSearch` chooses is the zero move exactly when the board
      has no legal move; otherwise it is a legal move. */
  lemma RootSearchSound(b: Board, kind: RootKind, depth: nat)
    requires Valid(b) && depth > 0
    ensures var r := RootSearch(b, kind, depth);
      && (r.move == NO_MOVE <==> forall m | Pseudo(b, m) :: !IsLegal(b, m))
      && (r.move != NO_MOVE ==> Pseudo(b, r.move) && IsLegal(b, r.move))
  {
    GeneratedPseudo(b);
    var moves := GenerateMoves(b);
    var first := RootLoop(b, moves, 0, kind, depth, LOSS, NO_MOVE);
    var j := RootLoopOverGenerated(b, kind, depth, LOSS, NO_MOVE);
    if first.max > LOSS {
      PseudoMoves(b, first.move);
    } else {
      var second := RootLoop(b, moves, 0, Static, depth, LOSS, NO_MOVE);
      var k := RootLoopOverGenerated(b, Static, depth, LOSS, NO_MOVE);
      if second.max > LOSS {
        PseudoMoves(b, second.move);
      } else {
        forall m | Pseudo(b, m)
          ensures !IsLegal(b, m)
        {
          StaticAboveLoss(b, m, depth);
        }
      }
    }
  }

  /** The `j`-th of `moves` is legal, no legal move of the board scores
      more under `kind`, and every legal move before it scores less. */
  ghost predicate FirstBest(b: Board, moves: seq<Move>, j: int, kind: RootKind, depth: nat)
    requires Valid(b) && depth > 0
    requires forall m | m in moves :: Pseudo(b, m)
  {
    && 0 <= j < |moves| && IsLegal(b, moves[j])
    && (forall n | Pseudo(b, n) && IsLegal(b, n) :: RootScore(b, n, kind, depth) <= RootScore(b, moves[j], kind, depth))
    && forall k | 0 <= k < j && IsLegal(b, moves[k]) :: RootScore(b, moves[k], kind, depth) < RootScore(b, moves[j], kind, depth)
  }

  /** When some legal move scores above `LOSS`, `RootSearch` chooses the
      first generated legal move whose score is the best of all legal
      moves. */
  lemma RootSearchPicksBest(b: Board, kind: RootKind, depth: nat) returns (j: int)
    requires Valid(b) && depth > 0
    requires exists m | Pseudo(b, m) && IsLegal(b, m) :: RootScore(b, m, kind, depth) > LOSS
    ensures Generable(b) && forall m | m in GenerateMoves(b) :: Pseudo(b, m)
    ensures 0 <= j < |GenerateMoves(b)| && RootSearch(b, kind, depth).move == GenerateMoves(b)[j]
    ensures FirstBest(b, GenerateMoves(b), j, kind, depth)
  {
    GeneratedPseudo(b);
    j := RootLoopOverGenerated(b, kind, depth, LOSS, NO_MOVE);
    var first := RootLoop(b, GenerateMoves(b), 0, kind, depth, LOSS, NO_MOVE);
    PseudoMoves(b, first.move);
  }

  /** When no legal move scores above `LOSS` but there is one, `RootSearch`
      falls back on the first generated legal move with the best static
      score. */
  lemma RootSearchFallsBack(b: Board, kind: RootKind, depth: nat) returns (j: int)
    requires Valid(b) && depth > 0
    requires exists m :: Pseudo(b, m) && IsLegal(b, m)
    requires forall m | Pseudo(b, m) && IsLegal(b, m) :: RootScore(b, m, kind, depth) <= LOSS
    ensures Generable(b) && forall m | m in GenerateMoves(b) :: Pseudo(b, m)
    ensures 0 <= j < |GenerateMoves(b)| && RootSearch(b, kind, depth).move == GenerateMoves(b)[j]
    ensures FirstBest(b, GenerateMoves(b), j, Static, depth)
  {
    GeneratedPseudo(b);
    var moves := GenerateMoves(b);
    var i := RootLoopOverGenerated(b, kind, depth, LOSS, NO_MOVE);
    var first := RootLoop(b, moves, 0, kind, depth, LOSS, NO_MOVE);
    assert first == Choice(NO_MOVE, LOSS, b);
    RootSearchSecondPass(b, kind, depth);
    j := RootLoopOverGenerated(b, Static, depth, LOSS, NO_MOVE);
    var m :| Pseudo(b, m) && IsLegal(b, m);
    StaticAboveLoss(b, m, depth);
    var second := RootLoop(b, moves, 0, Static, depth, LOSS, NO_MOVE);
    assert second.max > LOSS;
  }

  /** A first pass that ends where it started, with the zero move, is
      followed by the static pass from the same start. */
  lemma RootSearchSecondPass(b: Board, kind: RootKind, depth: nat)
    requires Valid(b) && depth > 0 && Generable(b)
    requires forall m | m in GenerateMoves(b) :: Pseudo(b, m)
    requires RootLoop(b, GenerateMoves(b), 0, kind, depth, LOSS, NO_MOVE) == Choice(NO_MOVE, LOSS, b)
    ensures RootSearch(b, kind, depth) == RootLoop(b, GenerateMoves(b), 0, Static, depth, LOSS, NO_MOVE)
  {}

  /** The move a root search returns, and the board as it leaves it. */
  datatype Picked = Picked(move: Move, board: Board)

  /** `Negamax`: the first legal move with the best negamax score one level
      down, the zero move when there is no legal move. */
  function Negamax(b: Board, depth: nat): (r: Picked)
    requires Valid(b) && depth > 0
    ensures r.board == b
    ensures r.move == NO_MOVE <==> forall m | Pseudo(b, m) :: !IsLegal(b, m)
    ensures r.move != NO_MOVE ==> Pseudo(b, r.move) && IsLegal(b, r.move)
  {
    var c := RootSearch(b, Full, depth);
    RootSearchSound(b, Full, depth);
    Picked(c.move, c.board)
  }

  /** `NegamaxAlphaBeta`: as `Negamax`, with each move scored by an
      alpha-beta search in the window `(-WINDOW, WINDOW)`. */
  function NegamaxAlphaBeta(b: Board, depth: nat): (r: Picked)
    requires Valid(b) && depth > 0
    ensures r.board == b
    ensures r.move == NO_MOVE <==> forall m | Pseudo(b, m) :: !IsLegal(b, m)
    ensures r.move != NO_MOVE ==> Pseudo(b, r.move) && IsLegal(b, r.move)
  {
    var c := RootSearch(b, Windowed, depth);
    RootSearchSound(b, Windowed, depth);
    Picked(c.move, c.board)
  }

  /** Every windowed score is far above `LOSS`, so `NegamaxAlphaBeta`
      never falls back on static scores when there is a legal move. */
  lemma WindowedAboveLoss(b: Board, m: Move, depth: nat)
    requires Valid(b) && Pseudo(b, m) && depth > 0
    ensures RootScore(b, m, Windowed, depth) > LOSS
  {
    if depth == 1 {
      StaticAboveLoss(b, m, depth);
    }
  }

  /** A windowed score is the full negamax score brought into the window. */
  lemma WindowedIsClamped(b: Board, m: Move, depth: nat)
    requires Valid(b) && Pseudo(b, m) && depth > 1
    ensures RootScore(b, m, Windowed, depth) == Clamp(RootScore(b, m, Full, depth), -WINDOW, WINDOW)
  {}

  /** Two root loops whose kinds score every legal move alike run alike. */
  lemma {:induction false} RootLoopSameScores(b: Board, moves: seq<Move>, i: int, k1: RootKind, k2: RootKind, depth: nat, max: int, best: Move)
    requires Valid(b) && depth > 0 && 0 <= i <= |moves|
    requires forall m | m in moves :: Pseudo(b, m)
    requires forall j | i <= j < |moves| && IsLegal(b, moves[j]) :: RootScore(b, moves[j], k1, depth) == RootScore(b, moves[j], k2, depth)
    decreases |moves| - i
    ensures RootLoop(b, moves, i, k1, depth, max, best) == RootLoop(b, moves, i, k2, depth, max, best)
  {
    if i < |moves| {
      if IsLegal(b, moves[i]) {
        var s := RootScore(b, moves[i], k1, depth);
        RootLoopStep(b, moves, i, k1, depth, max, best, s);
        RootLoopStep(b, moves, i, k2, depth, max, best, s);
        RootLoopSameScores(b, moves, i + 1, k1, k2, depth, if s > max then s else max, if s > max then moves[i] else best);
      } else {
        RootLoopSkip(b, moves, i, k1, depth, max, best);
        RootLoopSkip(b, moves, i, k2, depth, max, best);
        RootLoopSameScores(b, moves, i + 1, k1, k2, depth, max, best);
      }
    }
  }

  /** At depth 1, or when the negamax score of a legal move lies inside the
      window, its windowed score is its negamax score. */
  lemma WindowedIsFull(b: Board, m: Move, depth: nat)
    requires Valid(b) && Pseudo(b, m) && depth > 0
    requires depth > 1 ==> -WINDOW <= RootScore(b, m, Full, depth) <= WINDOW
    ensures RootScore(b, m, Windowed, depth) == RootScore(b, m, Full, depth)
  {
    if depth > 1 {
      WindowedIsClamped(b, m, depth);
    }
  }

  /** At depth 1, or when every legal move's negamax score lies inside the
      window, `NegamaxAlphaBeta` chooses the move `Negamax` chooses. */
  lemma AlphaBetaAgrees(b: Board, depth: nat)
    requires Valid(b) && depth > 0
    requires depth > 1 ==> forall m | Pseudo(b, m) && IsLegal(b, m) :: -WINDOW <= RootScore(b, m, Full, depth) <= WINDOW
    ensures NegamaxAlphaBeta(b, depth).move == Negamax(b, depth).move
  {
    GeneratedPseudo(b);
    GeneratedScoresAgree(b, GenerateMoves(b), depth);
    RootLoopSameScores(b, GenerateMoves(b), 0, Windowed, Full, depth, LOSS, NO_MOVE);
    RootSearchSameFirstPass(b, Windowed, Full, depth);
  }

  /** Two root searches whose first passes end alike end alike: the static
      pass, if any, starts from the same maximum and move. */
  lemma RootSearchSameFirstPass(b: Board, k1: RootKind, k2: RootKind, depth: nat)
    requires Valid(b) && depth > 0 && Generable(b)
    requires forall m | m in GenerateMoves(b) :: Pseudo(b, m)
    requires RootLoop(b, GenerateMoves(b), 0, k1, depth, LOSS, NO_MOVE) == RootLoop(b, GenerateMoves(b), 0, k2, depth, LOSS, NO_MOVE)
    ensures RootSearch(b, k1, depth) == RootSearch(b, k2, depth)
  {}

  /** The windowed and negamax scores agree on the legal moves of `moves`
      under the hypothesis of `AlphaBetaAgrees`. */
  lemma GeneratedScoresAgree(b: Board, moves: seq<Move>, depth: nat)
    requires Valid(b) && depth > 0
    requires forall m | m in moves :: Pseudo(b, m)
    requires depth > 1 ==> forall m | Pseudo(b, m) && IsLegal(b, m) :: -WINDOW <= RootScore(b, m, Full, depth) <= WINDOW
    ensures forall j | 0 <= j < |moves| && IsLegal(b, moves[j]) :: RootScore(b, moves[j], Windowed, depth) == RootScore(b, moves[j], Full, depth)
  {
    forall j | 0 <= j < |moves| && IsLegal(b, moves[j])
      ensures RootScore(b, moves[j], Windowed, depth) == RootScore(b, moves[j], Full, depth)
    {
      assert moves[j] in moves;
      WindowedIsFull(b, moves[j], depth);
    }
  }
}

=== FILE: searchlaws.dfy ===
/** What the negamax value of a position is, in terms of its legal moves:
    no legal move's negated child value exceeds it, one of them reaches
    it, and it is the loss score when there is none. */
module SearchLaws {
  import opened Pieces
  import opened Position
  import opened MoveGen
  import opened PseudoLegal
  import opened Legality
  import opened Search

  /** No legal move does better than the negamax value. */
  lemma ValueBounds(b: Board, depth: nat, m: Move)
    requires Valid(b) && depth > 0 && Pseudo(b, m) && IsLegal(b, m)
    ensures -ChildValue(b, m, depth - 1) <= Value(b, depth)
  {
    var j := GeneratedIndex(b, m);
    GeneratedPseudo(b);
    BestChildBounds(b, GenerateMoves(b), 0, j, depth);
  }

  /** With a legal move, some legal move attains the negamax value. */
  lemma ValueAttained(b: Board, depth: nat, m: Move) returns (n: Move)
    requires Valid(b) && depth > 0 && Pseudo(b, m) && IsLegal(b, m)
    ensures Pseudo(b, n) && IsLegal(b, n) && Value(b, depth) == -ChildValue(b, n, depth - 1)
  {
    GeneratedPseudo(b);
    var moves := GenerateMoves(b);
    var k := BestChildAttained(b, moves, 0, depth);
    if Value(b, depth) == LOSS {
      ValueBounds(b, depth, m);
      n := m;
    } else {
      n := moves[k];
      assert n in moves;
    }
  }

  /** Without a legal move the negamax value is `LOSS`. */
  lemma ValueNone(b: Board, depth: nat)
    requires Valid(b) && depth > 0
    requires forall m | Pseudo(b, m) :: !IsLegal(b, m)
    ensures Value(b, depth) == LOSS
  {
    GeneratedPseudo(b);
    BestChildNone(b, GenerateMoves(b), 0, depth);
  }

  /** The negamax value of a well-formed board above depth 0 is the best
      negated value over its legal moves, or `LOSS` when it has none. */
  lemma ValueIsBest(b: Board, depth: nat)
    requires Valid(b) && depth > 0
    ensures forall m | Pseudo(b, m) && IsLegal(b, m) :: -ChildValue(b, m, depth - 1) <= Value(b, depth)
    ensures (forall m | Pseudo(b, m) :: !IsLegal(b, m)) ==> Value(b, depth) == LOSS
    ensures (exists m | Pseudo(b, m) :: IsLegal(b, m)) ==>
      exists m | Pseudo(b, m) && IsLegal(b, m) :: Value(b, depth) == -ChildValue(b, m, depth - 1)
  {
    forall m | Pseudo(b, m) && IsLegal(b, m)
      ensures -ChildValue(b, m, depth - 1) <= Value(b, depth)
    {
      ValueBounds(b, depth, m);
    }
    if exists m | Pseudo(b, m) :: IsLegal(b, m) {
      var m :| Pseudo(b, m) && IsLegal(b, m);
      var n := ValueAttained(b, depth, m);
    } else {
      ValueNone(b, depth);
    }
  }
}

=== FILE: squares.dfy ===
/** The 0x88 square scheme: a square index is `16 * rank + file`, and an
    index is on the board exactly when bits 0x88 are clear. */
module Squares {
  import opened Bits

  const N := 16
  const E := 1
  const S := -16
  const W := -1
  const NE := 17
  const SE := -15
  const SW := -17
  const NW := 15

  const DIAGONALS: seq<int> := [NE, SE, SW, NW]
  const LINES: seq<int> := [N, S, E, W]
  const DIAGONALS_AND_LINES: seq<int> := DIAGONALS + LINES
  const S_DIAGONALS: seq<int> := [SE, SW]
  const N_DIAGONALS: seq<int> := [NE, NW]
  /** NNE, ENE, ESE, SSE, SSW, WSW, WNW, NNW. */
  const KNIGHT_MOVES: seq<int> := [33, 18, -14, -31, -33, -18, 14, 31]

  /** `i >= 0 && i & 0x88 == 0`, stated on the file nibble and bit 7. */
  predicate LegalSquareIndex(i: int)
  {
    i >= 0 && i % 16 < 8 && i % 256 < 128
  }

  lemma LegalSquareIndexIsMask(i: int)
    ensures LegalSquareIndex(i) <==> i >= 0 && And8(i, 0x88) == 0
  {
    Mask88(i);
  }

  /** A legal index below 256 is a cell of the 128-cell array. */
  lemma LegalSquareInArray(i: int)
    requires LegalSquareIndex(i) && i < 256
    ensures 0 <= i < 128
  {}

  /** `sq & 0x0F`. */
  function File(sq: int): (f: int)
    ensures 0 <= f < 16
  {
    sq % 16
  }

  lemma FileIsMask(sq: int)
    ensures File(sq) == And8(sq, 0x0F)
  {
    LowNibble(sq);
  }

  /** `sq & 0xF0`: the index of the first square of the rank. */
  function RankBase(sq: int): (r: int)
    ensures 0 <= r < 256
  {
    sq % 256 - sq % 16
  }

  lemma RankBaseIsMask(sq: int)
    ensures RankBase(sq) == And8(sq, 0xF0)
  {
    HighNibble(sq);
  }

  /** `sq & 0xF0 >> 4`. */
  function Rank(sq: int): (r: int)
    ensures 0 <= r < 16
  {
    (sq % 256) / 16
  }

  lemma RankBaseIsRank(sq: int)
    ensures RankBase(sq) == 16 * Rank(sq)
  {
    LowByteMod16(sq);
    var y := sq % 256;
    assert y == 16 * (y / 16) + y % 16;
  }

  /** The index of a rank and a file, `rank<<4 | file`. */
  function SquareAt(rank: int, file: int): (sq: int)
    requires 0 <= rank < 8 && 0 <= file < 8
    ensures LegalSquareIndex(sq) && sq < 128
    ensures Rank(sq) == rank && File(sq) == file
  {
    16 * rank + file
  }

  lemma SquareAtIsShiftOr(rank: int, file: int)
    requires 0 <= rank < 8 && 0 <= file < 8
    ensures SquareAt(rank, file) == (((Byte(rank) << 4) | Byte(file)) as int)
  {
    ShiftOr(rank, file);
  }

  lemma SquareAtOnto(sq: int)
    requires LegalSquareIndex(sq) && sq < 128
    ensures 0 <= Rank(sq) < 8 && File(sq) < 8
    ensures sq == SquareAt(Rank(sq), File(sq))
  {
    Coordinates(sq);
  }

  /** Go's byte arithmetic `(n[0] - 'a') + (n[1] - '1') * 16`, which wraps
      modulo 256. */
  function NotationToSquareIndex(notation: string): (sq: int)
    requires |notation| >= 2
    ensures 0 <= sq < 256
  {
    ((notation[0] as int - 'a' as int) + (notation[1] as int - '1' as int) * 16) % 256
  }

  /** The file letter followed by the rank digit of a square. */
  function SquareIndexToNotation(square: int): (s: string)
    ensures |s| == 2
  {
    [(File(square) + 'a' as int) as char, (Rank(square) + '1' as int) as char]
  }

  /** A square name `a1` .. `h8`. */
  predicate IsSquareName(s: string)
  {
    |s| == 2 && 'a' <= s[0] <= 'h' && '1' <= s[1] <= '8'
  }

  /** Naming a board square and reading the name back gives the square. */
  lemma NotationOfSquare(sq: int)
    requires LegalSquareIndex(sq) && sq < 128
    ensures IsSquareName(SquareIndexToNotation(sq))
    ensures NotationToSquareIndex(SquareIndexToNotation(sq)) == sq
  {}

  /** Reading a square name and naming the square gives the name back. */
  lemma SquareOfNotation(s: string)
    requires IsSquareName(s)
    ensures LegalSquareIndex(NotationToSquareIndex(s)) && NotationToSquareIndex(s) < 128
    ensures NotationToSquareIndex(s) == SquareAt(s[1] as int - '1' as int, s[0] as int - 'a' as int)
    ensures SquareIndexToNotation(NotationToSquareIndex(s)) == s
  {
    var f := s[0] as int - 'a' as int;
    var r := s[1] as int - '1' as int;
    assert NotationToSquareIndex(s) == 16 * r + f;
  }

  /** The direction from one square to another, or 0 when they share no
      rank, file or diagonal.  `xdiff ^ 2 == ydiff ^ 2` holds only when the
      differences are equal, so only the a1-h8 kind of diagonal is found. */
  function RayDirection(from: int, to: int): int
  {
    if RankBase(from) == RankBase(to) then
      if File(from) > File(to) then W else E
    else if File(from) == File(to) then
      if RankBase(from) > RankBase(to) then S else N
    else
      var xdiff := File(from) - File(to);
      var ydiff := Rank(from) - Rank(to);
      if Xor2(xdiff) == Xor2(ydiff) then
        (if xdiff > 0 then S else N) + (if ydiff > 0 then W else E)
      else 0
  }

  /** The rank and file of a board square, without division. */
  lemma Coordinates(sq: int)
    requires LegalSquareIndex(sq) && sq < 128
    ensures 0 <= Rank(sq) < 8 && 0 <= File(sq) < 8
    ensures sq == 16 * Rank(sq) + File(sq)
    ensures RankBase(sq) == 16 * Rank(sq)
  {
    assert sq % 256 == sq;
    assert sq == 16 * (sq / 16) + sq % 16;
  }

  /** A cell of the array joined from the rank of one cell and the file of
      another keeps that rank and that file. */
  lemma RankFileJoin(from: int, to: int)
    requires 0 <= from < 128 && 0 <= to < 128
    ensures 0 <= RankBase(from) + File(to) < 128
    ensures Rank(RankBase(from) + File(to)) == Rank(from)
    ensures File(RankBase(from) + File(to)) == File(to)
  {
    var q, f := from / 16, to % 16;
    assert from % 256 == from;
    Div16(from, q, from % 16);
    assert RankBase(from) == 16 * q;
    var sq := 16 * q + f;
    assert sq % 256 == sq;
    Div16(sq, q, f);
  }

  /** Two distinct board squares: a nonzero direction reaches `to` from
      `from` within seven steps; the direction is zero exactly when the
      squares share neither rank nor file and the file difference differs
      from the rank difference (an anti-diagonal pair included). */
  lemma RayDirectionReaches(from: int, to: int)
    requires LegalSquareIndex(from) && from < 128
    requires LegalSquareIndex(to) && to < 128
    requires from != to
    ensures RayDirection(from, to) != 0 ==>
      exists k :: 1 <= k <= 7 && from + k * RayDirection(from, to) == to
    ensures RayDirection(from, to) == 0 <==>
      (Rank(from) != Rank(to) && File(from) != File(to)
       && File(from) - File(to) != Rank(from) - Rank(to))
  {
    Coordinates(from);
    Coordinates(to);
    var fr, ff, tr, tf := Rank(from), File(from), Rank(to), File(to);
    DirectionFromCoordinates(from, to);
    if DirectionOf(fr, ff, tr, tf) != 0 {
      var k := LineReach(fr, ff, tr, tf);
      assert from + k * RayDirection(from, to) == to;
    }
  }

  /** The as-written direction on ranks and files, the diagonal test
      being equality of the differences. */
  function DirectionOf(fr: int, ff: int, tr: int, tf: int): int
  {
    if fr == tr then
      if ff > tf then W else E
    else if ff == tf then
      if fr > tr then S else N
    else if ff - tf == fr - tr then
      (if ff - tf > 0 then S else N) + (if fr - tr > 0 then W else E)
    else 0
  }

  /** `RayDirection` computed from the ranks and files of two board
      squares. */
  lemma DirectionFromCoordinates(from: int, to: int)
    requires LegalSquareIndex(from) && from < 128
    requires LegalSquareIndex(to) && to < 128
    ensures RayDirection(from, to) == DirectionOf(Rank(from), File(from), Rank(to), File(to))
  {
    Coordinates(from);
    Coordinates(to);
    Xor2Injective(File(from) - File(to), Rank(from) - Rank(to));
  }

  /** A nonzero direction between two distinct cells reaches one from the
      other in one to seven steps. */
  lemma LineReach(fr: int, ff: int, tr: int, tf: int) returns (k: int)
    requires 0 <= fr < 8 && 0 <= ff < 8 && 0 <= tr < 8 && 0 <= tf < 8
    requires fr != tr || ff != tf
    requires DirectionOf(fr, ff, tr, tf) != 0
    ensures 1 <= k <= 7 && 16 * fr + ff + k * DirectionOf(fr, ff, tr, tf) == 16 * tr + tf
  {
    if fr == tr {
      k := if ff > tf then ff - tf else tf - ff;
    } else if ff == tf {
      k := if fr > tr then fr - tr else tr - fr;
    } else {
      k := if ff > tf then ff - tf else tf - ff;
    }
  }

  /** The anti-diagonal quirk, concretely: from h1 to a8 there is no
      direction, although the squares share a diagonal. */
  lemma AntiDiagonalHasNoDirection()
    ensures RayDirection(0x07, 0x70) == 0
    ensures RayDirection(0x00, 0x77) == NE
  {
    HOneAEight();
    AOneHEight();
  }

  /** h1 and a8: files 7 and 0, ranks 0 and 7, and `7 ^ 2 != -7 ^ 2`. */
  lemma HOneAEight()
    ensures RayDirection(0x07, 0x70) == 0
  {
    assert File(0x07) == 7 && Rank(0x07) == 0 && File(0x70) == 0 && Rank(0x70) == 7;
    assert RankBase(0x07) != RankBase(0x70);
    assert Xor2(7) == 5 && Xor2(-7) == -5;
  }

  /** a1 and h8: both differences are -7. */
  lemma AOneHEight()
    ensures RayDirection(0x00, 0x77) == NE
  {
    assert File(0x00) == 0 && Rank(0x00) == 0 && File(0x77) == 7 && Rank(0x77) == 7;
    assert RankBase(0x00) != RankBase(0x77);
  }

  /** The direction as evidently intended: a diagonal is found when the
      file and rank differences have the same size, and the rank
      difference picks north or south, the file difference east or
      west. */
  function RayDirectionIntended(from: int, to: int): int
  {
    if RankBase(from) == RankBase(to) then
      if File(from) > File(to) then W else E
    else if File(from) == File(to) then
      if RankBase(from) > RankBase(to) then S else N
    else
      var xdiff := File(from) - File(to);
      var ydiff := Rank(from) - Rank(to);
      if xdiff * xdiff == ydiff * ydiff then
        (if ydiff > 0 then S else N) + (if xdiff > 0 then W else E)
      else 0
  }

  /** Two distinct board squares: a nonzero intended direction reaches
      `to` from `from` within seven steps, and it is zero exactly when the
      squares share no rank, file or diagonal of either kind. */
  lemma RayDirectionIntendedReaches(from: int, to: int)
    requires LegalSquareIndex(from) && from < 128
    requires LegalSquareIndex(to) && to < 128
    requires from != to
    ensures RayDirectionIntended(from, to) != 0 ==>
      exists k :: 1 <= k <= 7 && from + k * RayDirectionIntended(from, to) == to
    ensures RayDirectionIntended(from, to) == 0 <==>
      (Rank(from) != Rank(to) && File(from) != File(to)
       && File(from) - File(to) != Rank(from) - Rank(to)
       && File(from) - File(to) != Rank(to) - Rank(from))
  {
    Coordinates(from);
    Coordinates(to);
    var r := RayDirectionIntended(from, to);
    var xdiff := File(from) - File(to);
    var ydiff := Rank(from) - Rank(to);
    SameSquare(xdiff, ydiff);
    if Rank(from) == Rank(to) {
      if xdiff > 0 {
        assert from + xdiff * -1 == to;
      } else {
        assert from + (-xdiff) * 1 == to;
      }
    } else if File(from) == File(to) {
      if ydiff > 0 {
        assert from + ydiff * -16 == to;
      } else {
        assert from + (-ydiff) * 16 == to;
      }
    } else if xdiff == ydiff {
      if xdiff > 0 {
        assert r == SW && from + xdiff * SW == to;
      } else {
        assert r == NE && from + (-xdiff) * NE == to;
      }
    } else if xdiff == -ydiff {
      if xdiff > 0 {
        assert r == NW && from + xdiff * NW == to;
      } else {
        assert r == SE && from + (-xdiff) * SE == to;
      }
    } else {
      assert r == 0;
    }
  }

  /** Equal squares are of numbers of the same size. */
  lemma SameSquare(x: int, y: int)
    ensures x * x == y * y <==> x == y || x == -y
  {
    if x * x == y * y && x != y && x != -y {
      assert false;
    }
  }

  /** Away from anti-diagonals the engine's direction is the intended one;
      on them it finds none where there is one. */
  lemma RayDirectionAsIntended(from: int, to: int)
    requires LegalSquareIndex(from) && from < 128
    requires LegalSquareIndex(to) && to < 128
    requires from != to
    ensures File(from) - File(to) != Rank(to) - Rank(from) || File(from) == File(to) ==>
      RayDirection(from, to) == RayDirectionIntended(from, to)
    ensures File(from) - File(to) == Rank(to) - Rank(from) && File(from) != File(to) ==>
      RayDirection(from, to) == 0 != RayDirectionIntended(from, to)
  {
    RayDirectionReaches(from, to);
    RayDirectionIntendedReaches(from, to);
    Coordinates(from);
    Coordinates(to);
    SameSquare(File(from) - File(to), Rank(from) - Rank(to));
  }
}

=== FILE: tally.dfy ===
/** Counts kept in a map from names to numbers, filled one entry at a time
    the way `divide` fills its result, and the sum over such a map that
    `Divide.String` reports. */
module Tally {
  /** A name and its count. */
  type Entry = (string, int)

  /** Write each entry into the map in order: a later entry under a name
      already present replaces the earlier count. */
  function Store(counts: map<string, int>, es: seq<Entry>): (r: map<string, int>)
    decreases |es|
    ensures counts.Keys <= r.Keys
  {
    if es == [] then counts else Store(counts[es[0].0 := es[0].1], es[1..])
  }

  /** Storing a first entry and then the rest. */
  lemma StoreCons(counts: map<string, int>, e: Entry, es: seq<Entry>)
    ensures Store(counts, [e] + es) == Store(counts[e.0 := e.1], es)
  {
    assert ([e] + es)[1..] == es;
  }

  /** The sum of the entries' counts. */
  function Total(es: seq<Entry>): int
  {
    if es == [] then 0 else es[0].1 + Total(es[1..])
  }

  /** The total of a first entry and the rest. */
  lemma TotalCons(e: Entry, es: seq<Entry>)
    ensures Total([e] + es) == e.1 + Total(es)
  {
    assert ([e] + es)[1..] == es;
  }

  /** The names of the entries. */
  function Names(es: seq<Entry>): (r: set<string>)
    ensures forall k | 0 <= k < |es| :: es[k].0 in r
  {
    if es == [] then {} else {es[0].0} + Names(es[1..])
  }

  /** Every name comes from an entry. */
  lemma {:induction false} NameFrom(es: seq<Entry>, s: string) returns (k: int)
    requires s in Names(es)
    ensures 0 <= k < |es| && es[k].0 == s
  {
    if es[0].0 == s {
      k := 0;
    } else {
      k := NameFrom(es[1..], s);
      k := k + 1;
    }
  }

  /** No two entries share a name. */
  predicate Distinct(es: seq<Entry>)
  {
    forall j, k | 0 <= j < k < |es| :: es[j].0 != es[k].0
  }

  /** The sum of the counts of a map, in any order. */
  ghost function SumMap(m: map<string, int>): int
    decreases |m.Keys|
  {
    if m == map[] then 0
    else
      var k :| k in m;
      m[k] + SumMap(m - {k})
  }

  /** Taking out any one name: the sum does not depend on the order in
      which the names are visited. */
  lemma {:induction false} SumMapRemove(m: map<string, int>, k: string)
    requires k in m
    decreases |m.Keys|
    ensures SumMap(m) == m[k] + SumMap(m - {k})
  {
    var j :| j in m && SumMap(m) == m[j] + SumMap(m - {j});
    if j != k {
      var mj := m - {j};
      var mk := m - {k};
      assert |mj.Keys| < |m.Keys| by { assert mj.Keys < m.Keys; }
      assert |mk.Keys| < |m.Keys| by { assert mk.Keys < m.Keys; }
      SumMapRemove(mj, k);
      SumMapRemove(mk, j);
      assert mj - {k} == mk - {j};
    }
  }

  /** Adding a new name adds its count to the sum. */
  lemma SumMapAdd(m: map<string, int>, k: string, v: int)
    requires k !in m
    ensures SumMap(m[k := v]) == SumMap(m) + v
  {
    SumMapRemove(m[k := v], k);
    assert m[k := v] - {k} == m;
  }

  /** The names in the stored map are those it held and those of the
      entries. */
  lemma {:induction false} StoreNames(counts: map<string, int>, es: seq<Entry>)
    decreases |es|
    ensures Store(counts, es).Keys == counts.Keys + Names(es)
  {
    if es != [] {
      StoreNames(counts[es[0].0 := es[0].1], es[1..]);
    }
  }

  /** A name no entry carries keeps its count. */
  lemma {:induction false} StoreKeeps(counts: map<string, int>, es: seq<Entry>, s: string)
    decreases |es|
    requires s in counts && s !in Names(es)
    ensures Store(counts, es)[s] == counts[s]
  {
    if es != [] {
      StoreKeeps(counts[es[0].0 := es[0].1], es[1..], s);
    }
  }

  /** An entry that no later entry overwrites is what the map holds under
      its name. */
  lemma {:induction false} StoreLast(counts: map<string, int>, es: seq<Entry>, k: int)
    decreases |es|
    requires 0 <= k < |es|
    requires forall j | k < j < |es| :: es[j].0 != es[k].0
    ensures es[k].0 in Store(counts, es) && Store(counts, es)[es[k].0] == es[k].1
  {
    var c := counts[es[0].0 := es[0].1];
    if k == 0 {
      if es[0].0 in Names(es[1..]) {
        var j := NameFrom(es[1..], es[0].0);
        assert false;
      }
      StoreKeeps(c, es[1..], es[0].0);
    } else {
      StoreLast(c, es[1..], k - 1);
    }
  }

  /** A name all of whose entries carry the same count holds that count. */
  lemma {:induction false} StoreUniform(counts: map<string, int>, es: seq<Entry>, s: string, v: int)
    requires s in Names(es)
    requires forall k | 0 <= k < |es| && es[k].0 == s :: es[k].1 == v
    decreases |es|
    ensures s in Store(counts, es) && Store(counts, es)[s] == v
  {
    var c := counts[es[0].0 := es[0].1];
    var rest := es[1..];
    if s in Names(rest) {
      forall k | 0 <= k < |rest| && rest[k].0 == s
        ensures rest[k].1 == v
      {
        assert rest[k] == es[k + 1];
      }
      StoreUniform(c, rest, s, v);
    } else {
      StoreKeeps(c, rest, s);
    }
  }

  /** The names of the entries number at most the entries, and fewer when
      two entries share a name. */
  lemma {:induction false} NamesCount(es: seq<Entry>)
    ensures |Names(es)| <= |es|
    ensures !Distinct(es) ==> |Names(es)| < |es|
    ensures Distinct(es) ==> |Names(es)| == |es|
  {
    if es != [] {
      var rest := es[1..];
      NamesCount(rest);
      if es[0].0 in Names(rest) {
        assert Names(es) == Names(rest);
        var j := NameFrom(rest, es[0].0);
        assert es[j + 1].0 == es[0].0;
      } else {
        assert |Names(es)| == |Names(rest)| + 1;
        if !Distinct(es) {
          var j, k :| 0 <= j < k < |es| && es[j].0 == es[k].0;
          if j == 0 {
            assert false;
          }
          assert rest[j - 1].0 == rest[k - 1].0;
        }
        if Distinct(es) {
          forall j, k | 0 <= j < k < |rest|
            ensures rest[j].0 != rest[k].0
          {
            assert es[j + 1].0 != es[k + 1].0;
          }
        }
      }
    }
  }

  /** Stored into an empty map, the entries leave one key per name: as
      many as entries when the names are distinct, fewer otherwise. */
  lemma StoreCount(es: seq<Entry>)
    ensures Distinct(es) ==> |Store(map[], es)| == |es|
    ensures !Distinct(es) ==> |Store(map[], es)| < |es|
  {
    StoreNames(map[], es);
    NamesCount(es);
    assert Store(map[], es).Keys == Names(es);
    assert |Store(map[], es)| == |Store(map[], es).Keys|;
  }

  /** With distinct names none already in the map, the stored map's sum is
      the old sum plus every entry's count. */
  lemma {:induction false} StoreTotal(counts: map<string, int>, es: seq<Entry>)
    decreases |es|
    requires Distinct(es)
    requires forall k | 0 <= k < |es| :: es[k].0 !in counts
    ensures SumMap(Store(counts, es)) == SumMap(counts) + Total(es)
  {
    if es != [] {
      var rest := es[1..];
      SumMapAdd(counts, es[0].0, es[0].1);
      forall k | 0 <= k < |rest|
        ensures rest[k].0 !in counts[es[0].0 := es[0].1]
      {
        assert rest[k] == es[k + 1];
      }
      forall j, k | 0 <= j < k < |rest|
        ensures rest[j].0 != rest[k].0
      {
        assert rest[j] == es[j + 1] && rest[k] == es[k + 1];
      }
      StoreTotal(counts[es[0].0 := es[0].1], rest);
    }
  }
}

=== FILE: text.dfy ===
/** The string helpers FEN reading and writing rely on: `strings.Split`
    with a one-character separator, and `strconv.Atoi` and `strconv.Itoa`
    on 64-bit integers. */
module Text {
  datatype Option<T> = None | Some(value: T)

  /** The pieces of `s` between occurrences of `sep`: one more piece than
      there are separators, the empty string giving one empty piece. */
  function Split(s: string, sep: char): (parts: seq<string>)
    ensures |parts| >= 1
    ensures forall k | 0 <= k < |parts| :: sep !in parts[k]
  {
    if s == [] then [[]]
    else
      var rest := Split(s[1..], sep);
      if s[0] == sep then [[]] + rest
      else [[s[0]] + rest[0]] + rest[1..]
  }

  /** The pieces written one after another with `sep` between them. */
  function Join(parts: seq<string>, sep: char): string
    requires |parts| >= 1
  {
    if |parts| == 1 then parts[0] else parts[0] + [sep] + Join(parts[1..], sep)
  }

  /** Joining a first piece before the others puts one separator between
      it and the join of the others. */
  lemma JoinCons(p: string, parts: seq<string>, sep: char)
    requires |parts| >= 1
    ensures Join([p] + parts, sep) == p + ([sep] + Join(parts, sep))
  {
    assert ([p] + parts)[1..] == parts;
  }

  /** A piece without the separator, followed by the separator, splits off
      as the first piece. */
  lemma {:induction false} SplitPiece(p: string, sep: char, rest: string)
    requires sep !in p
    ensures Split(p + [sep] + rest, sep) == [p] + Split(rest, sep)
  {
    if p != [] {
      assert (p + [sep] + rest)[1..] == p[1..] + [sep] + rest;
      SplitPiece(p[1..], sep, rest);
      assert [p[0]] + p[1..] == p;
    } else {
      assert p + [sep] + rest == [sep] + rest;
      assert ([sep] + rest)[1..] == rest;
    }
  }

  /** A string without the separator is a single piece. */
  lemma {:induction false} SplitWhole(p: string, sep: char)
    requires sep !in p
    ensures Split(p, sep) == [p]
  {
    if p != [] {
      SplitWhole(p[1..], sep);
      assert [p[0]] + p[1..] == p;
    }
  }

  /** Splitting what was joined gives the pieces back. */
  lemma {:induction false} SplitJoin(parts: seq<string>, sep: char)
    requires |parts| >= 1
    requires forall k | 0 <= k < |parts| :: sep !in parts[k]
    ensures Split(Join(parts, sep), sep) == parts
  {
    if |parts| == 1 {
      SplitWhole(parts[0], sep);
    } else {
      SplitJoin(parts[1..], sep);
      SplitPiece(parts[0], sep, Join(parts[1..], sep));
    }
  }

  /** Joining the pieces gives the string back. */
  lemma {:induction false} JoinSplit(s: string, sep: char)
    ensures Join(Split(s, sep), sep) == s
  {
    if s != [] {
      JoinSplit(s[1..], sep);
      var rest := Split(s[1..], sep);
      if s[0] != sep && |rest| > 1 {
        assert rest == [rest[0]] + rest[1..];
        assert Join(rest, sep) == rest[0] + [sep] + Join(rest[1..], sep);
      }
    }
  }

  predicate IsDigit(c: char)
  {
    '0' <= c <= '9'
  }

  predicate AllDigits(s: string)
  {
    forall k | 0 <= k < |s| :: IsDigit(s[k])
  }

  /** The value of a run of decimal digits. */
  function DigitsValue(s: string): (v: nat)
    requires AllDigits(s)
  {
    if s == [] then 0 else DigitsValue(s[..|s| - 1]) * 10 + (s[|s| - 1] as int - '0' as int)
  }

  const INT_MIN: int := -0x8000_0000_0000_0000
  const INT_MAX: int := 0x7FFF_FFFF_FFFF_FFFF

  /** `strconv.Atoi`: an optional sign and at least one decimal digit,
      whose value fits in 64 bits; anything else is an error. */
  function Atoi(s: string): (r: Option<int>)
    ensures r.Some? ==> INT_MIN <= r.value <= INT_MAX
  {
    var signed := |s| > 0 && (s[0] == '+' || s[0] == '-');
    var digits := if signed then s[1..] else s;
    if digits == [] || !AllDigits(digits) then None
    else
      var v: int := if signed && s[0] == '-' then -(DigitsValue(digits) as int) else DigitsValue(digits);
      if INT_MIN <= v <= INT_MAX then Some(v) else None
  }

  /** The decimal digits of a natural number, without leading zeros. */
  function Decimal(n: nat): (s: string)
    ensures |s| >= 1 && AllDigits(s)
    ensures n < 10 ==> |s| == 1
  {
    if n < 10 then [('0' as int + n) as char]
    else Decimal(n / 10) + [('0' as int + n % 10) as char]
  }

  /** `strconv.Itoa`: a minus sign for a negative number, then its digits. */
  function Itoa(n: int): string
  {
    if n < 0 then "-" + Decimal(-n) else Decimal(n)
  }

  /** The digits of a number have that number as their value. */
  lemma {:induction false} DecimalValue(n: nat)
    ensures DigitsValue(Decimal(n)) == n
  {
    if n >= 10 {
      DecimalValue(n / 10);
      var s := Decimal(n);
      assert s[..|s| - 1] == Decimal(n / 10);
    }
  }

  /** Reading back a printed 64-bit integer gives the integer. */
  lemma AtoiItoa(n: int)
    requires INT_MIN <= n <= INT_MAX
    ensures Atoi(Itoa(n)) == Some(n)
  {
    var s := Itoa(n);
    if n < 0 {
      DecimalValue(-n);
      assert s[0] == '-' && s[1..] == Decimal(-n);
    } else {
      DecimalValue(n);
      assert IsDigit(s[0]);
    }
  }

  /** A one-character string reads as a number exactly when the character
      is a digit, and then as that digit. */
  lemma AtoiChar(c: char)
    ensures Atoi([c]).Some? <==> IsDigit(c)
    ensures IsDigit(c) ==> Atoi([c]).value == c as int - '0' as int
  {
    if IsDigit(c) {
      assert [c][..0] == [];
      assert DigitsValue([c]) == c as int - '0' as int;
    }
  }
}
